=== FILE: README.md ===
# ciaocraft-api in Dafny

A model of the request handlers and schemas of ciaocraft-api. This is the
back end of a marketplace for craft courses. Vendors publish courses with
dated sessions (course items) and teachers. Members sign up, keep
favourites (collections) and place orders. A platform record carries the
site's public information. An administrator password gates a few
management routes.

The database is one object, `Db.Store`. It holds a map per collection
(vendors, members, teachers, courses, items, orders, collections,
platforms) and one id counter, `nextId`. `Store.Valid()` says every stored
key is below the counter.

- **Ids.** Ids come from that one counter, so id order is creation order.
  Sorting by `createdAt` is therefore sorting by id.
- **Queries.** `findOne` is `Common.FindFirst` and `find` is
  `Common.Select`.
- **Handlers that write** are methods on the store. Their `modifies`
  clauses name the maps they touch. Their postconditions give the error
  returned at each step of the handler's early-return chain and the whole
  new state.
- **Handlers that only read**, and the validation chains, are functions.
  Lemmas relate the functions to each other and to the written state.
- **Schemas.** The validators and defaults of models/order.js,
  models/vendor.js, models/member.js and models/comment.js are functions
  in `Schemas`. Each returns the created document or the set of failing
  paths.

Work the model cannot see is passed in as a parameter:

- Functions: `validator.isEmail`, `Date.parse`, bcrypt hashing and
  comparing, and the database's case-insensitive pattern match.
- Verdicts: the unshown helpers in utils/tools (`checkFieldsNotEmpty`,
  `checkRequiredFields`, `validateFields`, `hasDataChanged`), each given as
  a boolean.
- Values: the clock (`now`) and the default status of schemas that are not
  part of this model (`initialStatus`).

`findModelByIdNext` is modelled as key membership. A failed lookup ends
the request with the helper's own error.

## Model

| member | source | states |
|---|---|---|
| Common.FindFirst | controllers/authController.js:24 | `findOne`: the result satisfies the condition, no earlier id does, and None exactly when no stored record does |
| Common.Select | controllers/teacherController.js:36 | `find`: exactly the stored records satisfying the condition, each once, in creation order |
| Common.Arrange | controllers/courseController.js:46-51 | a creation-ordered listing in the requested direction: same members, unchanged when ascending, strictly decreasing when descending |
| Common.IsAscii | controllers/platformController.js:41 | `validator.isAscii`: non-empty and every character below 128 |
| Common.ParseDecimal | controllers/courseController.js:28-35 | the Number cast of a query parameter succeeds exactly on non-empty decimal digit strings |
| Common.ParseDecimalValue | controllers/courseController.js:28-35 | the number cast gives: a digit its value, a longer string ten times its prefix plus its last digit, always below 10 to the length |
| Common.LeadingZeroIgnored | controllers/courseController.js:28-35 | a leading zero does not change the cast number |
| Common.DecimalText | controllers/courseController.js:28-35 | the decimal text of a number: non-empty digits with no leading zero |
| Common.ParseDecimalText | controllers/courseController.js:28-35 | the cast of a number's decimal text gives that number back |
| Schemas.CreateOrder | models/order.js:4-67 | an order is created iff the ten required paths are set and paymentType/paidStatus (defaults 1 and 0) lie in {1,2} and {0..6}; the amounts and free-text fields are copied; a failure names at least one path |
| Schemas.AccountHasOneAt | models/vendor.js:10-17 | a non-empty account passing the vendor email pattern holds exactly one '@', neither first nor last |
| Schemas.DomainHasNoAt | models/vendor.js:12 | the domain part of the pattern is non-empty and has no '@' |
| Schemas.AccountWithoutDotRejected | models/vendor.js:12 | a domain with no dot fails the pattern |
| Schemas.OneCharTopLabelRejected | models/vendor.js:12 | a final label of one character fails the pattern |
| Schemas.FiveCharTopLabelRejected | models/vendor.js:12 | a final label of five characters fails the pattern |
| Schemas.SampleAccountAccepted | models/vendor.js:12 | "a@b.cc" passes the pattern |
| Schemas.MobilePatternOk | models/vendor.js:30-39 | the mobile pattern holds iff the string is non-empty and all ASCII digits |
| Schemas.CreateMember | models/member.js:7-43 | a member is created iff account and password are non-empty; gender "other", status 1, point 0, no interests, no googleId |
| Schemas.CreateComment | models/comment.js:4-47 | a comment is created iff memberId, courseId and content are present, at most five images and every tag in the four-value set; rating and likes default to 1 and 0 |
| Courses.AdminCourseFilter | controllers/courseController.js:19-43 | the filter is the caller's; status {0,1} when courseStatus is "", exactly the cast number when it is given, and no status condition at all when it is absent; term free when "" or absent, else the cast number; keyword free when "" or absent, else that keyword; an error iff a given non-empty status or term fails the cast |
| Courses.SortByCreatedAt | controllers/courseController.js:46-51 | ascending iff createdAt is exactly "asc" |
| Courses.AdminCourses | controllers/courseController.js:11-61 | as written: only the caller's courses; status 0/1 by default, the requested status otherwise; a keyword meets only the course name; with every parameter "" every listed or unlisted course is listed, and with courseStatus absent and the rest "" or absent every course of the caller, deleted ones included; increasing ids iff "asc", otherwise decreasing |
| Courses.AdminCoursesJoined | controllers/courseController.js:10-43 | as the handler's comment describes: the same errors, and a keyword meets the course name or its teacher's name; a listed or unlisted course whose teacher's name matches is listed |
| Courses.KeywordMissesTeacherName | controllers/courseController.js:38-42 | course "Pottery" taught by "Amy", keyword "amy": as written the listing is empty, with the teacher join it holds the course |
| Courses.FilteredListing | controllers/courseController.js:22-51 | the listing holds only courses meeting each condition, every admitted course below the counter, in the requested direction |
| Courses.GetAdminCourse | controllers/courseController.js:64-92 | a course is returned iff stored and not soft-deleted; a soft-deleted one gives 404 |
| Courses.AddItemsSpec | controllers/courseController.js:147-159 | one new item per payload entry at consecutive fresh ids, with the course's capacity and name and status 1; existing items untouched |
| Courses.NewCourse | controllers/courseController.js:101-166 | nothing is written on a missing teacher or an empty field; otherwise the course (with any courseItemId the body carries when courseItems is absent), then its items, then courseItemId = the new ids in input order |
| Courses.DeactivateIdempotent | controllers/courseController.js:174-181 | soft delete sets courseStatus 2 and nothing else, and doing it twice equals doing it once |
| Courses.DeactivateCourse | controllers/courseController.js:169-184 | 404 iff the course is missing, success iff it is stored; only that course is soft-deleted |
| Courses.Survivors | controllers/courseController.js:240-242 | the old ids kept are exactly those the payload names |
| Courses.SurvivorsAppend | controllers/courseController.js:240-242 | filtering distributes over concatenation |
| Courses.SoftDeleteAbsent | controllers/courseController.js:225-238 | no key removed; an old id the payload drops whose item is this course's gets status 2; every other item unchanged |
| Courses.ApplyItemsShape | controllers/courseController.js:245-266 | the update loop creates items for exactly the entries naming no stored item, at consecutive ids appended to the list |
| Courses.ApplyItemsOld | controllers/courseController.js:245-256 | a stored item ends as the in-order assignment of every entry naming it |
| Courses.ApplyItemsNew | controllers/courseController.js:257-264 | the j-th entry naming no stored item becomes a new item at next + j |
| Courses.ApplyItemsSpec | controllers/courseController.js:245-266 | the loop's whole result: new ids, list, keys, updated old items, created items |
| Courses.ReconcileOutcome | controllers/courseController.js:225-266 | no item removed; courseItemId = kept old ids in old order ++ new ids in payload order; dropped items of this course soft-deleted; named items updated in place; others untouched |
| Courses.SoftDeleteLoop | controllers/courseController.js:225-238 | the soft-delete loop leaves the items as SoftDeleteAbsent says |
| Courses.ApplyItemsLoop | controllers/courseController.js:245-266 | the payload loop leaves items, list and counter as ApplyItems says |
| Courses.UpdateCourse | controllers/courseController.js:187-271 | 404/400 write nothing; the body is assigned onto the course, its own courseItemId list included, before reconciling; without courseItems only the assigned course is written; otherwise items and list as Reconcile gives |
| Orders.GetOrder | controllers/orderController.js:9-20 | an order is returned iff it exists and belongs to the caller |
| Orders.ValidateNewOrder | controllers/orderController.js:23-92 | each check in order with its own error, first failure wins: required fields, vendor lookup and status 1, course lookup and listed, item lookup and status 1, positive integer count, price, totalPrice, parsable date; success iff every check passes; the order built carries the body's values with paidStatus 0 and paymentType 1 |
| Orders.ZeroCountIsMissing | controllers/orderController.js:27-29 | count 0 fails as a missing field before the integer check |
| Orders.TotalPriceUnchecked | controllers/orderController.js:62-70 | an order whose totalPrice differs from count*price is accepted |
| Orders.NewOrder | controllers/orderController.js:23-99 | on any failure nothing is written; otherwise the validated order is stored under a fresh id |
| Orders.WithDigits | controllers/orderController.js:113-114 | only lastFiveDigits changes; an absent value changes nothing |
| Orders.UpdateOrder | controllers/orderController.js:102-116 | only the caller's order is touched, and only its lastFiveDigits; otherwise an error and no change |
| Orders.CourseGateAsWrittenRejectsAll | controllers/orderController.js:46-48 | as written the course gate refuses every course, a listed one included |
| Orders.ValidateNewOrderAsWritten | controllers/orderController.js:23-55 | as written: never an order; a body that reaches an existing course is refused as unlisted; every earlier outcome is the intended one |
| Orders.CreateAsWrittenAlwaysFails | controllers/orderController.js:77-92 | as written the created document lacks courseTime and always fails validation |
| Members.GetAllMembers | controllers/memberController.js:12-21 | every member iff the administrator password matches, else 401 |
| Members.UnsetAdminPasswordOpensList | controllers/memberController.js:15 | with no password configured, a request without one passes the gate and any given password fails |
| Members.GetMember | controllers/memberController.js:24-45 | the member's profile; totalCollections is the number of the member's status-1 favourites, totalCourses the number of distinct courses of their completed orders (so at most the completed orders); no favourites gives 0 |
| Members.CompletedCoursesAsWritten | controllers/memberController.js:38-40 | as written the filter names `status`, which orders lack, so no course is counted |
| Members.StatusFilterCountsNoCourse | controllers/memberController.js:38-42 | a member with a completed order: 0 courses as written, at least 1 when read as paidStatus 3 |
| Members.CourseImageNoLarger | controllers/memberController.js:38-42 | the distinct courses of a set of orders are no more than the orders |
| Members.CompletedCoursesBound | controllers/memberController.js:38-42 | totalCourses never exceeds the completed orders |
| Members.CompletedCoursesInsert | controllers/memberController.js:38-42 | a new completed order adds its course to the distinct set, and the count is unchanged when the course was already there |
| Members.NewMemberCollection | controllers/memberController.js:71-99 | courseId required and must name a course; a second favourite for the same course is refused, and without one the favourite is created; (member, course) pairs stay unique |
| Members.DeleteMemberCollection | controllers/memberController.js:102-125 | a favourite of the caller's is removed, and only such a one; others unaffected; pairs stay unique |
| Members.ListMemberOrders | controllers/memberController.js:133-158 | exactly the caller's orders with the requested paidStatus and, when a term is given, whose course has that term; increasing ids when ascending, decreasing otherwise |
| Members.PaidStatusCondition | controllers/memberController.js:136-142 | a truthy paidStatus must be "0".."6" and becomes that number; otherwise no condition |
| Members.MemberOrders | controllers/memberController.js:128-161 | as intended: the paidStatus error, then the term guard refusing any term but "0" and "1", then the listing narrowed to orders whose course has the term, sorted ascending iff createAt is "asc" |
| Members.TermCondition | controllers/memberController.js:145-150 | as intended, a truthy term must be "0" or "1" and becomes that number; otherwise no condition |
| Members.MemberOrdersAsWritten | controllers/memberController.js:128-161 | as written: the term guard never fires, a truthy term matches no order, and without a term the outcome is the intended one |
| Members.TermFilterAsWrittenListsNothing | controllers/memberController.js:145-150 | a member's order for a term-1 course: asked for term "1", the listing is empty as written and holds the order as intended |
| Members.TermGuardAsWrittenLetsAnyTermThrough | controllers/memberController.js:145-150 | as written the guard never fires, so "7" gives an empty listing, while the intended guard refuses it |
| Members.MemberUpdateOf | controllers/memberController.js:168-201 | point must be a non-negative integer (absent fails), then gender in the enum, then a parsable non-zero birthday; success when all three hold; nickname, name, phone, photo and gender are set only when truthy, interests whenever sent |
| Members.ApplyMemberUpdate | controllers/memberController.js:204-208 | every field the update sets takes the new value, absent fields keep theirs; account, password, googleId and status never change |
| Members.UpdateKeepsMemberWellFormed | controllers/memberController.js:164-212 | an accepted update keeps gender in the enum, interests valid and point non-negative |
| Members.CreatedMemberWellFormed | models/member.js:25-55 | a newly created member is well-formed |
| Members.UpdateMember | controllers/memberController.js:164-215 | errors write nothing; invalid interests fail the schema validator; a missing member gives 404; a stored member with a valid body is updated with exactly the update |
| Vendors.UpdateVendorManage | controllers/vendorsController.js:21-42 | 401 and no change on a wrong admin password; with the right one, a password and a stored vendor it succeeds: the stored hash of the new password, the old vendor returned |
| Vendors.VendorByAccount | controllers/vendorsController.js:104 | the vendor found has the account; None iff no vendor has it |
| Vendors.VendorLogin | controllers/vendorsController.js:97-128 | empty fields, then unknown account, then a missing hash, then wrong password; status 0 and 2 refused; any other status logs in and only loginAt changes |
| Vendors.OverlayProfile | controllers/vendorsController.js:157-176 | only the 13 whitelisted paths are written, each from the data when given |
| Vendors.UpdateVendor | controllers/vendorsController.js:144-184 | unchanged data refused; changed data for a stored vendor succeeds, and only the whitelisted profile paths change |
| Vendors.ProfileUpdateSkipsMobileCheck | controllers/vendorsController.js:157-176 | the update runs no validators, so a non-numeric mobile is stored |
| Vendors.AbsentPasswordRejected | controllers/vendorsController.js:191-192 | an absent password is tested as "undefined" and fails |
| Vendors.UpdateVendorPassword | controllers/vendorsController.js:187-205 | letters-and-digits pattern, then confirmation; a valid confirmed password succeeds iff the vendor is stored, and only the hash changes |
| Vendors.CreateVendor | models/vendor.js:8-126 | the application is stored iff account pattern, mobile digits and the required text paths hold and any images given are at most five; absent link and image arrays are stored empty; no password and no status yet |
| Vendors.ApplicationAsWrittenNeverStored | models/vendor.js:68-121 | as written the required avatar and bank paths are never supplied, so every application fails; the intended schema stores a sample that leaves both arrays out, with empty arrays |
| Vendors.CheckVendorAccount | controllers/vendorsController.js:281-291 | success iff no vendor has the account |
| Vendors.NewVendorReview | controllers/vendorsController.js:208-278 | required, non-empty, allowed-keys and unused-account checks in order; the account is refused iff it is taken; then the outcome of creating the application under the intended schema (as written every create fails, see the Findings); nothing written on failure; accounts stay unique |
| Vendors.StudentCountAppend | controllers/vendorsController.js:303-306 | the student total of two lists is the sum of their totals |
| Vendors.StudentCountCoversEach | controllers/vendorsController.js:303-306 | each course's students are counted in the total |
| Vendors.GetVendor | controllers/vendorsController.js:294-324 | the vendor, all of its courses, and the student total of exactly those courses, which covers each |
| Teachers.SortByKey | controllers/teacherController.js:58-68 | the sort returns the same ids, sorted by key, with no repeat when there was none |
| Teachers.InsertSorted | controllers/teacherController.js:58-68 | inserting into a sorted list keeps it sorted |
| Teachers.InsertDistinct | controllers/teacherController.js:58-68 | inserting a new id into a list without repeats keeps it without repeats |
| Teachers.SortTeachers | controllers/teacherController.js:58-68 | by order (unset first when ascending, reversed for ORDER_DESC), then newest first unless CREATED_AT_ASC |
| Teachers.TermFilter | controllers/teacherController.js:72-88 | as intended, an absent or "" courseTerm sets no condition |
| Teachers.TermFilterAsWritten | controllers/teacherController.js:72 | as written, an absent courseTerm becomes NaN |
| Teachers.ListTeachers | controllers/teacherController.js:47-88 | exactly the caller's teachers with status 0/1, a matching name for a truthy keyword, and a course of the term; each once, in key order; empty for NaN |
| Teachers.AdminTeachers | controllers/teacherController.js:40-91 | without term and keyword every active teacher of the caller is listed, and never a deleted one |
| Teachers.AdminTeachersAsWritten | controllers/teacherController.js:72-88 | as written, no courseTerm parameter gives the empty list |
| Teachers.TeacherListingWithoutTerm | controllers/teacherController.js:72-88 | one active teacher: as written the listing is empty, as intended it is that teacher |
| Teachers.ManageTeachers | controllers/teacherController.js:23-37 | all teachers iff the admin password matches |
| Teachers.GetTeacher | controllers/teacherController.js:94-128 | a teacher is returned iff stored, soft-deleted ones included |
| Teachers.NewTeacher | controllers/teacherController.js:131-165 | the vendor must exist, then vendorId/name/order non-empty, and then it succeeds; the new teacher copies the body, has no courses |
| Teachers.DeactivateTeacher | controllers/teacherController.js:168-187 | only status becomes 2 |
| Teachers.DeactivatedTeacherNotListed | controllers/teacherController.js:47 | a soft-deleted teacher is not listed |
| Teachers.ApplyTeacherPatch | controllers/teacherController.js:210-213 | each of the nine fields the body carries overwrites (course list, status and vendorId included), every other field is kept; an empty body changes nothing |
| Teachers.TeacherPatchIdempotent | controllers/teacherController.js:210-213 | applying the same body twice is applying it once |
| Teachers.PatchToStatusTwoUnlists | controllers/teacherController.js:210-213 | an edit carrying status 2 removes the teacher from every listing |
| Teachers.UpdateTeacher | controllers/teacherController.js:190-216 | lookup, then name/order non-empty, then success; only that teacher is patched |
| Teachers.DeleteTeacherManage | controllers/teacherController.js:219-240 | 401 without change on a wrong admin password; with the right one a stored teacher is removed for good |
| Auth.MemberByAccount | controllers/authController.js:24 | the member found has the account; None iff no member has it |
| Auth.SymbolPasswordAccepted | controllers/authController.js:34 | a password with symbols passes the member rule though the vendor rule refuses it |
| Auth.DigitsOnlyRejected | controllers/authController.js:34 | a password with no letter fails |
| Auth.AccountCheck | controllers/authController.js:55-76 | succeeds iff the account is present, email-shaped and not registered, with the errors in that order |
| Auth.SignUpCheck | controllers/authController.js:14-37 | required fields, email, new account, confirmation, password rule, first failure wins |
| Auth.SignUp | controllers/authController.js:10-52 | nothing written on failure; when every check passes, the outcome of creating the member, stored with the hashed password under a fresh id; accounts stay unique |
| Auth.Login | controllers/authController.js:78-101 | missing fields, then unknown account, then the password: success iff the hash matches, wrong password iff it does not |
| Auth.SignUpThenLogin | controllers/authController.js:10-101 | a member who just signed up logs in with the same credentials |
| Auth.UnlinkGoogleAccount | controllers/authController.js:117-128 | a stored member has googleId cleared and nothing else; a missing member gives 500; accounts stay unique |
| Platforms.PlatformByName | controllers/platformController.js:16 | the platform found has the name; None iff none has it |
| Platforms.GetPlatform | controllers/platformController.js:8-24 | the query is required; 404 iff no platform has the name; otherwise a stored platform with it |
| Platforms.NewPlatform | controllers/platformController.js:27-69 | all seven fields, email, ASCII name, unused name, in order; a body passing all four is stored; nothing written on failure; names stay unique |
| Platforms.UpdateFields | controllers/platformController.js:86-105 | only truthy fields enter; a non-ASCII name, then a bad email, rejects |
| Platforms.Patched | controllers/platformController.js:107 | an empty update leaves the platform as it was |
| Platforms.PatchedIdempotent | controllers/platformController.js:107 | writing an update twice equals writing it once; each carried field is the platform's afterwards |
| Platforms.UpdateOutcome | controllers/platformController.js:86-107 | as intended, each of the seven fields that is truthy replaces the stored one, the others are kept |
| Platforms.UpdateOutcomeAsWritten | controllers/platformController.js:107 | as written, a request passing the checks returns the platform unchanged |
| Platforms.UpdateAsWrittenDropsName | controllers/platformController.js:107 | a valid new Chinese name is lost as written and stored as intended |
| Platforms.FindForUpdate | controllers/platformController.js:76-84 | the query is required and must name a stored platform |
| Platforms.UpdatePlatform | controllers/platformController.js:72-114 | as intended: errors write nothing, otherwise the found platform takes the update |
| Platforms.UpdatePlatformAsWritten | controllers/platformController.js:72-114 | as written: the same errors, and success returns the platform as found |

## Left out

- Routes, swagger, Express wiring, JWT issuing and response formatting are not modelled. The token `generateSendJWT` sends is left out.
- sendEmailToVendor is left out: it sends mail through an OAuth client.
- getCourses, getVendorsManage and getVendorAdmin are not modelled. Each is a plain read of one collection.
- getMemberCollections is not modelled. It reads a collection schema that is not part of this model.
- memberController updatePassword is not modelled. It uses names that are never defined, so it has no behaviour to state.
- Mongoose `populate` and `select` projections are not modelled. Listings return ids.
- Keyword matching is a parameter. The regular-expression semantics are not modelled.
- `trimObjectAllValues` is not modelled. Bodies are taken as already trimmed.
- ObjectId format checks are folded into key membership.
- An undefined value in a filter or an update is taken to be dropped by the ORM.
- Numeric query parameters are cast only when they are decimal digit strings. Other text counts as a failed cast (NaN).
- Schema validation on create is modelled only where a handler relies on it: orders, members, vendor applications and updateMember's interests. Course, teacher, collection and platform schemas are not applied. The default status of teachers and collections is the parameter `initialStatus`.
- The capacity ledger, the vendor-side order status transitions and revenue summaries are not modelled. The code has no implementation of them.
- orderController does not import Order, tools or its CourseItem model. The model assumes the intended imports.
- The post-save hook in models/vendor.js names an undefined schema and is not modelled.
- The `trype` misspelling on reviewImages is not modelled. The bound of five images is modelled as intended.
- Course status is numeric (0 unlisted, 1 listed, 2 deleted), as the controllers use it. models/course.js declares it Boolean.
- Vendors.VendorLogin: `vendor.save()` revalidation is not modelled. `loginAt` is written directly.
- Members.GetMember: the counts are set as plain properties on the member document, which the member schema does not declare, so the JSON the handler sends most likely leaves them out. The model returns them as the intended response and does not persist them. As written, the wrong completed-course count of the memberController.js:38-40 finding is then probably never seen by a client.
- Filters on a path the schema lacks (`teacherId.name` on courses, `status` and `courseTerm` on orders) are taken, throughout, to reach the database and match nothing. If the ORM stripped them instead (its strictQuery option), the keyword would not narrow the course listing, every order of the member would be counted as a completed course, and a term would not narrow the member's order listing.
- Courses.AdminCourseFilter: an absent keyword is taken to add no condition, by the same dropped-undefined reading.
- Members.MemberUpdateOf: birthday is stored as the parsed time value. A date that parses to 0 (the epoch) is refused, as the truthiness test does.
- Teachers.UpdateTeacher: the body may set any of the nine schema fields, status, vendorId and the course list included, as the source allows.
- Courses.UpdateCourse: the course and session records follow the fields the controllers read and write, not models/course.js. That file has no courseTerm, courseItemId or students path on a course and no mainCourseName on a session, and declares courseStatus Boolean. Under a strict schema those paths would be dropped on create and save; the model keeps them. `Object.assign` copies every key of the body; the model carries vendorId, the course fields and courseItemId for a course, and courseId, mainCourseName, courseDate, itemName, capacity and status for a session. Other keys are not modelled.
- Courses.DeactivateCourse has no ownership check, as in the source.
- Vendors.UpdateVendorPassword: when the caller's vendor is missing, the update finds no document and the token step fails on it; the model ends in the exception `Internal` and writes nothing.
- Auth.SymbolPasswordAccepted: characters are Unicode scalar values. JavaScript counts UTF-16 code units, so the two differ on length for characters outside the Basic Multilingual Plane.
- Platforms.UpdatePlatformAsWritten: the filter argument is the bare name string. The model takes it to reach the platform that was found and answer with it. An ORM that refuses a filter that is not an object would answer with an error instead; the stored record is unchanged either way.

## Findings

| source | as written | input that shows it | evidently intended | confidence | as-written member | corrected member |
|---|---|---|---|---|---|---|
| controllers/orderController.js:46-48 | the course check selects `status`, a path course documents do not have, and compares it strictly with 1 | any course, including one with courseStatus 1 | refuse courses whose courseStatus is not 1 | high, not executed | Orders.ValidateNewOrderAsWritten | Orders.ValidateNewOrder |
| controllers/orderController.js:77-92 | the parsed date is passed under the key courseTimeDateObj, so the required courseTime is missing | any body that passes every check | store the parsed date as courseTime | high, not executed | Orders.CreateAsWrittenAlwaysFails | Orders.ValidateNewOrder |
| controllers/memberController.js:146 | the guard negates an array literal, which is always truthy, so it never rejects | courseTerm "7" | reject a term other than "0" or "1" | high, not executed | Members.TermGuardAsWrittenLetsAnyTermThrough | Members.MemberOrders |
| models/vendor.js:68-121 with controllers/vendorsController.js:264-272 | the application supplies none of the required avatar and bank paths, so the create fails validation | any application that passes the handler's checks | accept an application before the finance details exist | medium, not executed | Vendors.ApplicationAsWrittenNeverStored | Vendors.CreateVendor |
| controllers/teacherController.js:72-88 | an absent courseTerm is not "", so the term filter applies with Number(undefined), which is NaN | a request with no courseTerm parameter | list every matching teacher when no term is given | high, not executed | Teachers.AdminTeachersAsWritten | Teachers.AdminTeachers |
| controllers/platformController.js:107 | the update writes back the record as found and never uses updateFields | a request whose only field is a new platformNameCn | write the collected update fields | high, not executed | Platforms.UpdateAsWrittenDropsName | Platforms.UpdatePlatform |
| controllers/courseController.js:38-42 | the keyword filter queries `teacherId.name` on course documents, where teacherId is only an id, so only the course name can match | course "Pottery" taught by "Amy", keyword "amy" | match the keyword against the teacher's name as well, as the comment at line 10 says | medium, not executed | Courses.KeywordMissesTeacherName | Courses.AdminCoursesJoined |
| controllers/memberController.js:38-40 | completed orders are looked up with `status: 3`, a path orders do not have, so no order matches | a member with an order whose paidStatus is 3 | count the distinct courses of orders with paidStatus 3 | medium, not executed | Members.StatusFilterCountsNoCourse | Members.GetMember |
| controllers/memberController.js:149 | an accepted term becomes a filter on courseTerm, a path orders do not have, so no order matches | a member with an order for a term-1 course, queried with courseTerm "1" | list the member's orders whose course has that term | medium, not executed | Members.TermFilterAsWrittenListsNothing | Members.MemberOrders |

=== FILE: auth.dfy ===
/** controllers/authController.js: member sign-up, the account check that
    precedes it, login by account and password, and unlinking a Google
    account. Email-shape checking, bcrypt hashing and comparing are
    parameters: `isEmail`, `hash` and `passwordMatches`. */
module Auth {
  import opened Common
  import opened Schemas
  import opened Db
  import Vendors

  datatype AuthError =
    | MissingFields             // 400
    | BadEmail                  // 400
    | AccountTaken              // 400
    | PasswordMismatch          // 400
    | WeakPassword              // 400
    | CreateFailed(e: SchemaError)
    | UnknownAccount            // 400
    | WrongPassword             // 400
    | UnlinkFailed              // 500
  {
    function Code(): Option<nat> {
      match this
      case CreateFailed(_) => None
      case UnlinkFailed => Some(500)
      case _ => Some(400)
    }
  }

  /** Members never share an account. */
  ghost predicate MemberAccountsUnique(ms: map<Id, Member>) {
    forall a, b :: a in ms && b in ms && a != b ==> ms[a].account != ms[b].account
  }

  /** The member that `findOne({ account })` meets first. */
  function MemberByAccount(members: map<Id, Member>, n: nat, account: string): (r: Option<Id>)
    ensures r.Some? ==> r.value < n && r.value in members && members[r.value].account == account
    ensures r.None? <==> forall k :: k < n && k in members ==> members[k].account != account
  {
    FindFirst(members, (m: Member) => m.account == account, n)
  }

  // -------------------------------------------------- the password rule

  /** The characters JavaScript's `.` does not match. */
  predicate LineTerminator(c: char) {
    c == '\n' || c == '\r' || c as int == 0x2028 || c as int == 0x2029
  }

  /** /^(?=.*[a-zA-Z])(?=.*[0-9]).{8,}$/: eight or more characters, none a
      line terminator, with at least one ASCII letter and one digit. */
  predicate MemberPasswordOk(p: string) {
    && |p| >= 8
    && (forall i :: 0 <= i < |p| ==> !LineTerminator(p[i]))
    && (exists i :: 0 <= i < |p| && IsAsciiLetter(p[i]))
    && (exists i :: 0 <= i < |p| && IsDigit(p[i]))
  }

  /** Symbols are welcome in a member password, though the vendor rule
      refuses them. */
  lemma SymbolPasswordAccepted()
    ensures MemberPasswordOk("pa$$w0rd")
    ensures !Vendors.VendorPasswordOk("pa$$w0rd")
  {
    var p := "pa$$w0rd";
    assert IsAsciiLetter(p[0]) && IsDigit(p[5]);
    assert !Vendors.IsAlnum(p[2]);
  }

  /** A password of digits only never passes. */
  lemma {:induction false} DigitsOnlyRejected(p: string)
    requires forall i :: 0 <= i < |p| ==> IsDigit(p[i])
    ensures !MemberPasswordOk(p)
  {
    forall i | 0 <= i < |p| ensures !IsAsciiLetter(p[i]) {
      assert IsDigit(p[i]);
    }
  }

  // ------------------------------------------------- checkAccountExist

  /** checkAccountExist: an account is required, email-shaped and not yet
      registered; None means it may be used. */
  function AccountCheck(members: map<Id, Member>, n: nat, account: Option<string>, isEmail: string -> bool)
    : (r: Option<AuthError>)
    ensures !Filled(account) ==> r == Some(MissingFields)
    ensures Filled(account) ==> (r == Some(BadEmail) <==> !isEmail(account.value))
    ensures Filled(account) && isEmail(account.value) ==>
      (r == Some(AccountTaken) <==> exists k :: k < n && k in members && members[k].account == account.value)
    ensures r.None? <==> && Filled(account) && isEmail(account.value)
                         && forall k :: k < n && k in members ==> members[k].account != account.value
  {
    if !Filled(account) then Some(MissingFields)
    else if !isEmail(account.value) then Some(BadEmail)
    else if MemberByAccount(members, n, account.value).Some? then Some(AccountTaken)
    else None
  }

  // ------------------------------------------------------------- signUp

  /** signUp's checks, the first failure winning: the three fields, the
      account's shape and novelty, the confirmation, the password rule. */
  function SignUpCheck(members: map<Id, Member>, n: nat, account: Option<string>, password: Option<string>,
                       confirm: Option<string>, isEmail: string -> bool): (r: Option<AuthError>)
    ensures !Filled(account) || !Filled(password) || !Filled(confirm) ==> r == Some(MissingFields)
    ensures Filled(account) && Filled(password) && Filled(confirm) ==>
      && (r == Some(BadEmail) <==> !isEmail(account.value))
      && (isEmail(account.value) ==>
            (r == Some(AccountTaken) <==> exists k :: k < n && k in members && members[k].account == account.value))
    ensures r == Some(PasswordMismatch) ==> AccountCheck(members, n, account, isEmail).None? && password != confirm
    ensures r == Some(WeakPassword) ==> && AccountCheck(members, n, account, isEmail).None? && password == confirm
                                        && !MemberPasswordOk(password.value)
    ensures r.None? <==> && Filled(password) && Filled(confirm)
                         && AccountCheck(members, n, account, isEmail).None?
                         && password == confirm && MemberPasswordOk(password.value)
  {
    if !Filled(account) || !Filled(password) || !Filled(confirm) then Some(MissingFields)
    else if AccountCheck(members, n, account, isEmail).Some? then AccountCheck(members, n, account, isEmail)
    else if password != confirm then Some(PasswordMismatch)
    else if !MemberPasswordOk(password.value) then Some(WeakPassword)
    else None
  }

  /** signUp: after the checks the member is created from the account and
      the hash of the password, with the member schema's defaults. */
  method SignUp(st: Store, account: Option<string>, password: Option<string>, confirm: Option<string>,
                isEmail: string -> bool, hash: string -> string)
    returns (r: Result<Id, AuthError>)
    requires st.Valid()
    modifies st`members, st`nextId
    ensures st.Valid()
    ensures SignUpCheck(old(st.members), old(st.nextId), account, password, confirm, isEmail).Some? ==>
      r == Err(SignUpCheck(old(st.members), old(st.nextId), account, password, confirm, isEmail).value)
    ensures SignUpCheck(old(st.members), old(st.nextId), account, password, confirm, isEmail).None? ==>
      && (CreateMember(account.value, hash(password.value)).Err? ==>
            r == Err(CreateFailed(CreateMember(account.value, hash(password.value)).error)))
      && (CreateMember(account.value, hash(password.value)).Ok? ==> r.Ok?)
    ensures r.Err? ==> st.members == old(st.members) && st.nextId == old(st.nextId)
    ensures r.Ok? ==>
      && SignUpCheck(old(st.members), old(st.nextId), account, password, confirm, isEmail).None?
      && CreateMember(account.value, hash(password.value)).Ok?
      && r.value == old(st.nextId) && st.nextId == old(st.nextId) + 1
      && st.members == old(st.members)[r.value := CreateMember(account.value, hash(password.value)).value]
    ensures MemberAccountsUnique(old(st.members)) ==> MemberAccountsUnique(st.members)
  {
    var failure := SignUpCheck(st.members, st.nextId, account, password, confirm, isEmail);
    if failure.Some? {
      return Err(failure.value);
    }
    var created := CreateMember(account.value, hash(password.value));
    if created.Err? {
      return Err(CreateFailed(created.error));
    }
    var id := st.nextId;
    st.members := st.members[id := created.value];
    st.nextId := st.nextId + 1;
    r := Ok(id);
  }

  // -------------------------------------------------------------- login

  /** login: both fields are required, the account must exist and the
      password match the stored hash. */
  function Login(members: map<Id, Member>, n: nat, account: Option<string>, password: Option<string>,
                 passwordMatches: (string, string) -> bool): (r: Result<Id, AuthError>)
    ensures !Filled(account) || !Filled(password) ==> r == Err(MissingFields)
    ensures Filled(account) && Filled(password) ==>
      (r == Err(UnknownAccount) <==> forall k :: k < n && k in members ==> members[k].account != account.value)
    ensures r == Err(WrongPassword) ==>
      && Filled(account) && Filled(password) && MemberByAccount(members, n, account.value).Some?
      && !passwordMatches(password.value, members[MemberByAccount(members, n, account.value).value].passwordHash)
    ensures r.Ok? ==>
      && Filled(account) && Filled(password) && MemberByAccount(members, n, account.value) == Some(r.value)
      && passwordMatches(password.value, members[r.value].passwordHash)
    ensures Filled(account) && Filled(password) && MemberByAccount(members, n, account.value).Some? ==>
      var found := MemberByAccount(members, n, account.value).value;
      && (r == Ok(found) <==> passwordMatches(password.value, members[found].passwordHash))
      && (r == Err(WrongPassword) <==> !passwordMatches(password.value, members[found].passwordHash))
    ensures r.Err? ==> r.error in {MissingFields, UnknownAccount, WrongPassword}
  {
    if !Filled(account) || !Filled(password) then Err(MissingFields)
    else
      match MemberByAccount(members, n, account.value)
      case None => Err(UnknownAccount)
      case Some(id) =>
        if passwordMatches(password.value, members[id].passwordHash) then Ok(id) else Err(WrongPassword)
  }

  /** A member who has just signed up logs in with the same account and
      password, provided the comparison accepts a password against its own
      hash. */
  lemma SignUpThenLogin(members: map<Id, Member>, n: nat, account: string, password: string,
                        isEmail: string -> bool, hash: string -> string,
                        passwordMatches: (string, string) -> bool)
    requires forall k :: k in members ==> k < n
    requires SignUpCheck(members, n, Some(account), Some(password), Some(password), isEmail).None?
    requires CreateMember(account, hash(password)).Ok?
    requires passwordMatches(password, hash(password))
    ensures Login(members[n := CreateMember(account, hash(password)).value], n + 1, Some(account), Some(password),
                  passwordMatches) == Ok(n)
  {
    var m := CreateMember(account, hash(password)).value;
    var after := members[n := m];
    var found := MemberByAccount(after, n + 1, account);
    assert found.Some? by {
      assert n in after && after[n].account == account;
    }
    assert AccountCheck(members, n, Some(account), isEmail).None?;
  }

  // ------------------------------------------------ unlinkGoogleAccount

  /** unlinkGoogleAccount: the caller's googleId is cleared and nothing
      else changes; the response carries the member as it was. */
  method UnlinkGoogleAccount(st: Store, memberId: Id) returns (r: Result<Member, AuthError>)
    requires st.Valid()
    modifies st`members
    ensures st.Valid()
    ensures memberId !in old(st.members) ==> r == Err(UnlinkFailed)
    ensures memberId in old(st.members) ==> r.Ok?
    ensures r.Err? ==> st.members == old(st.members)
    ensures r.Ok? ==> && memberId in old(st.members) && r.value == old(st.members)[memberId]
                      && st.members == old(st.members)[memberId := r.value.(googleId := None)]
    ensures MemberAccountsUnique(old(st.members)) ==> MemberAccountsUnique(st.members)
  {
    if memberId !in st.members {
      return Err(UnlinkFailed);
    }
    var before := st.members[memberId];
    st.members := st.members[memberId := before.(googleId := None)];
    r := Ok(before);
  }
}

=== FILE: common.dfy ===
/** Values shared by every part of the model: ids, JavaScript values as a
    JSON request body carries them, optional and failing results, and the
    first-match lookup that stands for the ORM's `findOne`. */
module Common {

  /** A document id. The store hands them out from one counter, so a larger
      id always belongs to a later-created document. */
  type Id = nat

  datatype Option<+T> = None | Some(value: T) {
    function GetOr(default: T): T {
      if Some? then value else default
    }
  }

  datatype Result<+T, +E> = Ok(value: T) | Err(error: E)

  /** A value read from a request body; Undefined is a key that is absent. */
  datatype JsValue =
    | Undefined
    | Null
    | Bool(b: bool)
    | Num(x: real)
    | NaN
    | Str(s: string)
    | Arr(elems: seq<JsValue>)
    | Obj

  /** JavaScript truthiness: `if (v)`. Arrays and objects are always truthy. */
  predicate Truthy(v: JsValue) {
    match v
    case Undefined => false
    case Null => false
    case NaN => false
    case Bool(b) => b
    case Num(x) => x != 0.0
    case Str(s) => s != ""
    case Arr(_) => true
    case Obj => true
  }

  /** `Number.isInteger(v)`: a number with no fractional part. */
  predicate IsInteger(v: JsValue) {
    v.Num? && v.x.Floor as real == v.x
  }

  /** The integer held by a value for which IsInteger holds. */
  function IntOf(v: JsValue): (n: int)
    requires IsInteger(v)
    ensures n as real == v.x
  {
    v.x.Floor
  }

  /** Truthiness of an optional text field: present and not "". */
  predicate Filled(t: Option<string>) {
    t.Some? && t.value != ""
  }

  /** The administrator gate: `given !== process.env.ADMIN_PASSWORD`
      rejects. Both sides may be undefined, and then they are equal. */
  predicate AdminPasswordOk(given: Option<string>, env: Option<string>) {
    given == env
  }

  /** Sort direction of a listing. */
  datatype Direction = Ascending | Descending

  /** Scans ids n-1, n-2, ..., 0 and returns the smallest id below n whose
      record satisfies p: the document `findOne` meets first in creation order. */
  function FindFirst<T>(m: map<Id, T>, p: T -> bool, n: nat): (r: Option<Id>)
    ensures r.Some? ==> r.value < n && r.value in m && p(m[r.value])
    ensures r.Some? ==> forall k :: k < r.value && k in m ==> !p(m[k])
    ensures r.None? <==> forall k :: k < n && k in m ==> !p(m[k])
  {
    if n == 0 then None
    else
      var r := FindFirst(m, p, n - 1);
      if r.Some? then r
      else if n - 1 in m && p(m[n - 1]) then Some(n - 1)
      else None
  }

  /** Ids below n that are keys of m and whose record satisfies p, in
      increasing order: what `find` returns in creation order. */
  function Select<T>(m: map<Id, T>, p: T -> bool, n: nat): (ids: seq<Id>)
    ensures forall i :: 0 <= i < |ids| ==> ids[i] < n && ids[i] in m && p(m[ids[i]])
    ensures forall k :: k < n && k in m && p(m[k]) ==> k in ids
    ensures forall k :: k in ids ==> k < n && k in m && p(m[k])
    ensures forall i, j :: 0 <= i < j < |ids| ==> ids[i] < ids[j]
  {
    if n == 0 then []
    else if n - 1 in m && p(m[n - 1]) then Select(m, p, n - 1) + [n - 1]
    else Select(m, p, n - 1)
  }

  /** The same sequence back to front. */
  function Reverse<T>(s: seq<T>): (r: seq<T>)
    ensures |r| == |s|
    ensures forall i :: 0 <= i < |s| ==> r[i] == s[|s| - 1 - i]
    ensures multiset(r) == multiset(s)
  {
    if s == [] then []
    else
      assert s == [s[0]] + s[1..];
      Reverse(s[1..]) + [s[0]]
  }

  /** A listing of ids in increasing order put in the requested direction. */
  function Arrange(ids: seq<Id>, d: Direction): (r: seq<Id>)
    requires forall i, j :: 0 <= i < j < |ids| ==> ids[i] < ids[j]
    ensures forall k :: k in r <==> k in ids
    ensures d == Ascending ==> r == ids
    ensures d == Descending ==> forall i, j :: 0 <= i < j < |r| ==> r[i] > r[j]
  {
    if d == Ascending then ids
    else
      var r := Reverse(ids);
      assert forall k :: k in ids ==> k in multiset(r);
      r
  }

  /** Every element lies in the allowed set: `v.every(x => allowed.includes(x))`. */
  function AllIn(xs: seq<string>, allowed: set<string>): (b: bool)
    ensures b <==> forall i :: 0 <= i < |xs| ==> xs[i] in allowed
  {
    if xs == [] then true else xs[0] in allowed && AllIn(xs[1..], allowed)
  }

  /** `validator.isAscii`: the pattern /^[\x00-\x7F]+$/, a non-empty string of
      code points below 128. */
  function IsAscii(s: string): (b: bool)
    ensures b <==> |s| > 0 && forall i :: 0 <= i < |s| ==> s[i] as int < 128
  {
    |s| > 0 && (s[0] as int < 128) && (|s| == 1 || IsAscii(s[1..]))
  }

  predicate IsDigit(c: char) { '0' <= c <= '9' }

  predicate IsAsciiLetter(c: char) { 'A' <= c <= 'Z' || 'a' <= c <= 'z' }

  /** The value of a string of decimal digits; Number(s) for such strings. */
  function ParseDecimal(s: string): (r: Option<nat>)
    ensures r.Some? <==> |s| > 0 && forall i :: 0 <= i < |s| ==> IsDigit(s[i])
  {
    if |s| == 0 || !IsDigit(s[|s| - 1]) then None
    else if |s| == 1 then Some(s[0] as nat - '0' as nat)
    else
      match ParseDecimal(s[..|s| - 1])
      case None => None
      case Some(v) => Some(v * 10 + (s[|s| - 1] as nat - '0' as nat))
  }

  /** The value of a digit string: a single digit is its own value, and a
      longer string is ten times its prefix plus its last digit. */
  lemma ParseDecimalValue(s: string)
    requires ParseDecimal(s).Some?
    ensures |s| == 1 ==> ParseDecimal(s).value == s[0] as nat - '0' as nat
    ensures |s| > 1 ==>
      && ParseDecimal(s[..|s| - 1]).Some?
      && ParseDecimal(s).value == 10 * ParseDecimal(s[..|s| - 1]).value + (s[|s| - 1] as nat - '0' as nat)
    ensures ParseDecimal(s).value < Pow10(|s|)
  {
  }

  /** 10 to the power e. */
  function Pow10(e: nat): (p: nat)
    ensures p >= 1
  {
    if e == 0 then 1 else 10 * Pow10(e - 1)
  }

  /** A leading zero does not change the value. */
  lemma {:induction false} LeadingZeroIgnored(s: string)
    requires |s| > 0
    ensures ParseDecimal("0" + s) == ParseDecimal(s)
  {
    var z := "0" + s;
    if |s| > 1 {
      LeadingZeroIgnored(s[..|s| - 1]);
      assert z[..|z| - 1] == "0" + s[..|s| - 1];
    }
  }

  /** The decimal digits of n, most significant first, without leading zeros. */
  function DecimalText(n: nat): (s: string)
    ensures |s| > 0 && forall i :: 0 <= i < |s| ==> IsDigit(s[i])
    ensures n > 0 ==> s[0] != '0'
  {
    if n < 10 then [('0' as int + n) as char]
    else DecimalText(n / 10) + [('0' as int + n % 10) as char]
  }

  /** Parsing the digits of a number gives the number back. */
  lemma {:induction false} ParseDecimalText(n: nat)
    ensures ParseDecimal(DecimalText(n)) == Some(n)
  {
    if n >= 10 {
      var s := DecimalText(n);
      ParseDecimalText(n / 10);
      assert s[..|s| - 1] == DecimalText(n / 10);
    }
  }
}

=== FILE: courses.dfy ===
/** controllers/courseController.js: the vendor's course listing, a single
    course, creating a course with its items, soft-deleting a course, and
    editing a course together with the reconciliation of its items. */
module Courses {
  import opened Common
  import opened Db

  datatype CourseError =
    | CourseLookupFailed   // the id helper rejected the course id
    | TeacherLookupFailed  // the id helper rejected the teacher id
    | CourseDeleted        // 404: the course is soft-deleted
    | CourseNotFound       // 404
    | EmptyField           // 400: one of the eleven course fields is empty
    | CastFailed           // a listing parameter the ORM cannot cast to a number
    | MissingItems         // courseItems is absent: iterating it throws
  {
    function Code(): Option<nat> {
      match this
      case CourseDeleted => Some(404)
      case CourseNotFound => Some(404)
      case EmptyField => Some(400)
      case _ => None
    }
  }

  // ------------------------------------------------------------- listing

  /** The listing's query parameters; None is a parameter that is absent. */
  datatype CourseParams = CourseParams(
    createdAt: Option<string>, courseTerm: Option<string>,
    courseStatus: Option<string>, keyword: Option<string>)

  /** A condition on a numeric path; AnyNumber leaves the path free. */
  datatype NumCond = AnyNumber | Equals(n: int)

  /** The status condition: the default {0, 1}, or the one a parameter sets. */
  datatype StatusCond = ListedOrUnlisted | ExactStatus(cond: NumCond)

  datatype TextCond = AnyText | Keyword(keyword: string)

  /** The filter document the handler builds. */
  datatype CourseFilter = CourseFilter(vendorId: Id, status: StatusCond, term: NumCond, keyword: TextCond)

  /** The condition a parameter sets on a numeric path when it is not "":
      an absent parameter puts an undefined value there, which the ORM drops;
      a decimal string is cast to its number; other text fails the cast. */
  function NumberCondition(v: Option<string>): Result<NumCond, CourseError> {
    if v.None? then Ok(AnyNumber)
    else match ParseDecimal(v.value)
      case Some(n) => Ok(Equals(n))
      case None => Err(CastFailed)
  }

  /** Builds the filter: only the vendor's courses, status in {0, 1} unless a
      courseStatus parameter other than "" replaces it, a term and a keyword
      condition unless their parameters are "". */
  function AdminCourseFilter(vendorId: Id, p: CourseParams): (r: Result<CourseFilter, CourseError>)
    ensures r.Err? <==>
      (p.courseStatus.Some? && p.courseStatus.value != "" && ParseDecimal(p.courseStatus.value).None?)
      || (p.courseTerm.Some? && p.courseTerm.value != "" && ParseDecimal(p.courseTerm.value).None?)
    ensures r.Ok? ==> r.value.vendorId == vendorId
    ensures r.Ok? && p.courseStatus == Some("") ==> r.value.status == ListedOrUnlisted
    ensures r.Ok? && p.courseStatus.Some? && ParseDecimal(p.courseStatus.value).Some? ==>
      r.value.status == ExactStatus(Equals(ParseDecimal(p.courseStatus.value).value))
    ensures r.Ok? && p.courseStatus.None? ==> r.value.status == ExactStatus(AnyNumber)
    ensures r.Ok? && p.courseTerm == Some("") ==> r.value.term == AnyNumber
    ensures r.Ok? && p.courseTerm.None? ==> r.value.term == AnyNumber
    ensures r.Ok? && p.courseTerm.Some? && ParseDecimal(p.courseTerm.value).Some? ==>
      r.value.term == Equals(ParseDecimal(p.courseTerm.value).value)
    ensures r.Ok? && !Filled(p.keyword) ==> r.value.keyword == AnyText
    ensures r.Ok? && Filled(p.keyword) ==> r.value.keyword == Keyword(p.keyword.value)
  {
    var status :=
      if p.courseStatus == Some("") then Ok(ListedOrUnlisted)
      else match NumberCondition(p.courseStatus)
        case Ok(c) => Ok(ExactStatus(c))
        case Err(e) => Err(e);
    var term := if p.courseTerm == Some("") then Ok(AnyNumber) else NumberCondition(p.courseTerm);
    var keyword := if p.keyword == Some("") || p.keyword.None? then AnyText else Keyword(p.keyword.value);
    if status.Err? then Err(status.error)
    else if term.Err? then Err(term.error)
    else Ok(CourseFilter(vendorId, status.value, term.value, keyword))
  }

  predicate NumOk(c: NumCond, v: int) {
    c.AnyNumber? || c.n == v
  }

  /** The name of a course's teacher, when the teacher is stored. */
  function TeacherName(teachers: map<Id, Teacher>, id: Id): Option<string> {
    if id in teachers then teachers[id].name else None
  }

  /** Whether a course satisfies the filter. `matches(keyword, text)` is the
      case-insensitive pattern match the database performs. */
  predicate Admits(f: CourseFilter, c: Course, teacherName: Option<string>, matches: (string, string) -> bool) {
    && c.vendorId == f.vendorId
    && (match f.status
        case ListedOrUnlisted => c.info.courseStatus == 0 || c.info.courseStatus == 1
        case ExactStatus(nc) => NumOk(nc, c.info.courseStatus))
    && NumOk(f.term, c.info.courseTerm)
    && (match f.keyword
        case AnyText => true
        case Keyword(k) => (teacherName.Some? && matches(k, teacherName.value)) || matches(k, c.info.courseName))
  }

  /** Ascending creation order iff the parameter is exactly "asc". */
  function SortByCreatedAt(createdAt: Option<string>): (d: Direction)
    ensures d == Ascending <==> createdAt == Some("asc")
  {
    if createdAt == Some("asc") then Ascending else Descending
  }

  /** The teacher name a keyword is matched against. The filter path
      "teacherId.name" is queried on the course document, where teacherId is
      only an id, so as written no name is found (joined false); the joined
      reading, where the teacher's name is looked up, is the one the
      handler's comment announces. */
  function NameForKeyword(teachers: map<Id, Teacher>, c: Course, joined: bool): Option<string> {
    if joined then TeacherName(teachers, c.info.teacherId) else None
  }

  /** getAdminCourses as written: the ids of the courses the filter admits,
      in creation order or its reverse; the keyword meets only the course
      name. n bounds the ids in use. */
  function AdminCourses(courses: map<Id, Course>, teachers: map<Id, Teacher>, n: nat,
                        vendorId: Id, p: CourseParams, matches: (string, string) -> bool)
    : (r: Result<seq<Id>, CourseError>)
    ensures r.Err? <==>
      (p.courseStatus.Some? && p.courseStatus.value != "" && ParseDecimal(p.courseStatus.value).None?)
      || (p.courseTerm.Some? && p.courseTerm.value != "" && ParseDecimal(p.courseTerm.value).None?)
    ensures r.Ok? ==> forall k :: k in r.value ==> k in courses && courses[k].vendorId == vendorId
    ensures r.Ok? && p.courseStatus == Some("") ==> forall k :: k in r.value ==>
      courses[k].info.courseStatus in {0, 1}
    ensures r.Ok? && p.courseStatus.Some? && ParseDecimal(p.courseStatus.value).Some? ==>
      forall k :: k in r.value ==> courses[k].info.courseStatus == ParseDecimal(p.courseStatus.value).value
    ensures r.Ok? && p.courseTerm.Some? && ParseDecimal(p.courseTerm.value).Some? ==>
      forall k :: k in r.value ==> courses[k].info.courseTerm == ParseDecimal(p.courseTerm.value).value
    ensures r.Ok? && Filled(p.keyword) ==>
      forall k :: k in r.value ==> matches(p.keyword.value, courses[k].info.courseName)
    ensures p.courseStatus == Some("") && p.courseTerm == Some("") && p.keyword == Some("") ==>
      r.Ok? && forall k :: (k < n && k in courses && courses[k].vendorId == vendorId
                            && courses[k].info.courseStatus in {0, 1}) ==> k in r.value
    ensures p.courseStatus.None? && !Filled(p.courseTerm) && !Filled(p.keyword) ==>
      r.Ok? && forall k :: k < n && k in courses && courses[k].vendorId == vendorId ==> k in r.value
    ensures r.Ok? && p.createdAt == Some("asc") ==>
      forall i, j :: 0 <= i < j < |r.value| ==> r.value[i] < r.value[j]
    ensures r.Ok? && p.createdAt != Some("asc") ==>
      forall i, j :: 0 <= i < j < |r.value| ==> r.value[i] > r.value[j]
  {
    match AdminCourseFilter(vendorId, p)
    case Err(e) => Err(e)
    case Ok(f) =>
      Ok(FilteredListing(courses, teachers, n, f, false, SortByCreatedAt(p.createdAt), matches))
  }

  /** getAdminCourses as its comment describes it: a keyword meets the
      course name or the name of the course's teacher. */
  function AdminCoursesJoined(courses: map<Id, Course>, teachers: map<Id, Teacher>, n: nat,
                              vendorId: Id, p: CourseParams, matches: (string, string) -> bool)
    : (r: Result<seq<Id>, CourseError>)
    ensures r.Err? <==> AdminCourses(courses, teachers, n, vendorId, p, matches).Err?
    ensures r.Ok? ==> forall k :: k in r.value ==> k in courses && courses[k].vendorId == vendorId
    ensures r.Ok? && Filled(p.keyword) ==>
      forall k :: k in r.value ==>
        || matches(p.keyword.value, courses[k].info.courseName)
        || (var t := TeacherName(teachers, courses[k].info.teacherId); t.Some? && matches(p.keyword.value, t.value))
    ensures r.Ok? && p.courseStatus == Some("") && p.courseTerm == Some("") && Filled(p.keyword) ==>
      forall k :: (&& k < n && k in courses && courses[k].vendorId == vendorId
                   && courses[k].info.courseStatus in {0, 1}
                   && TeacherName(teachers, courses[k].info.teacherId).Some?
                   && matches(p.keyword.value, TeacherName(teachers, courses[k].info.teacherId).value)) ==> k in r.value
  {
    match AdminCourseFilter(vendorId, p)
    case Err(e) => Err(e)
    case Ok(f) =>
      Ok(FilteredListing(courses, teachers, n, f, true, SortByCreatedAt(p.createdAt), matches))
  }

  /** A course named "Pottery" taught by "Amy", searched with "amy": as
      written it is not listed, as described it is. */
  lemma KeywordMissesTeacherName(matches: (string, string) -> bool)
    requires matches("amy", "Amy") && !matches("amy", "Pottery")
    ensures var info := CourseInfo(1, [], 0, "Pottery", 100, 1, 10, "s", "a", [], "c");
            var courses := map[0 := Course(5, info, [], [])];
            var teachers := map[1 := Teacher(5, Some("Amy"), None, None, None, None, None, 1, [0])];
            var p := CourseParams(None, Some(""), Some(""), Some("amy"));
            && AdminCourses(courses, teachers, 2, 5, p, matches) == Ok([])
            && AdminCoursesJoined(courses, teachers, 2, 5, p, matches).Ok?
            && 0 in AdminCoursesJoined(courses, teachers, 2, 5, p, matches).value
  {
    var info := CourseInfo(1, [], 0, "Pottery", 100, 1, 10, "s", "a", [], "c");
    var courses := map[0 := Course(5, info, [], [])];
    var teachers := map[1 := Teacher(5, Some("Amy"), None, None, None, None, None, 1, [0])];
    var p := CourseParams(None, Some(""), Some(""), Some("amy"));
    var written := AdminCourses(courses, teachers, 2, 5, p, matches);
    assert Filled(p.keyword);
    assert TeacherName(teachers, courses[0].info.teacherId) == Some("Amy");
  }

  /** The admitted courses in the requested direction. */
  function FilteredListing(courses: map<Id, Course>, teachers: map<Id, Teacher>, n: nat,
                           f: CourseFilter, joined: bool, d: Direction, matches: (string, string) -> bool)
    : (r: seq<Id>)
    ensures forall k :: k in r ==> k in courses && courses[k].vendorId == f.vendorId
    ensures f.status == ListedOrUnlisted ==> forall k :: k in r ==> courses[k].info.courseStatus in {0, 1}
    ensures f.status.ExactStatus? && f.status.cond.Equals? ==>
      forall k :: k in r ==> courses[k].info.courseStatus == f.status.cond.n
    ensures f.term.Equals? ==> forall k :: k in r ==> courses[k].info.courseTerm == f.term.n
    ensures f.keyword.Keyword? ==> forall k :: k in r ==>
      || matches(f.keyword.keyword, courses[k].info.courseName)
      || (var t := NameForKeyword(teachers, courses[k], joined); t.Some? && matches(f.keyword.keyword, t.value))
    ensures forall k :: k < n && k in courses && Admits(f, courses[k], NameForKeyword(teachers, courses[k], joined), matches)
                        ==> k in r
    ensures d == Ascending ==> forall i, j :: 0 <= i < j < |r| ==> r[i] < r[j]
    ensures d == Descending ==> forall i, j :: 0 <= i < j < |r| ==> r[i] > r[j]
  {
    Arrange(FilteredCourses(courses, teachers, n, f, joined, matches), d)
  }

  /** The courses below n that the filter admits, in creation order, with
      what each condition says of each. */
  function FilteredCourses(courses: map<Id, Course>, teachers: map<Id, Teacher>, n: nat,
                           f: CourseFilter, joined: bool, matches: (string, string) -> bool): (ids: seq<Id>)
    ensures forall k :: k in ids ==> k in courses && courses[k].vendorId == f.vendorId
    ensures f.status == ListedOrUnlisted ==> forall k :: k in ids ==> courses[k].info.courseStatus in {0, 1}
    ensures f.status.ExactStatus? && f.status.cond.Equals? ==>
      forall k :: k in ids ==> courses[k].info.courseStatus == f.status.cond.n
    ensures f.term.Equals? ==> forall k :: k in ids ==> courses[k].info.courseTerm == f.term.n
    ensures f.keyword.Keyword? ==> forall k :: k in ids ==>
      || matches(f.keyword.keyword, courses[k].info.courseName)
      || (var t := NameForKeyword(teachers, courses[k], joined); t.Some? && matches(f.keyword.keyword, t.value))
    ensures forall k :: k < n && k in courses && Admits(f, courses[k], NameForKeyword(teachers, courses[k], joined), matches)
                        ==> k in ids
    ensures forall i, j :: 0 <= i < j < |ids| ==> ids[i] < ids[j]
  {
    Select(courses, (c: Course) => Admits(f, c, NameForKeyword(teachers, c, joined), matches), n)
  }

  /** getAdminCourse: the id helper must find the course, and a course whose
      courseStatus is 2 is reported as deleted (404). */
  function GetAdminCourse(courses: map<Id, Course>, courseId: Id): (r: Result<Course, CourseError>)
    ensures r.Ok? <==> courseId in courses && courses[courseId].info.courseStatus != 2
    ensures r.Ok? ==> r.value == courses[courseId]
    ensures r == Err(CourseLookupFailed) <==> courseId !in courses
    ensures r.Err? && r.error.Code() == Some(404) <==> courseId in courses && courses[courseId].info.courseStatus == 2
  {
    if courseId !in courses then Err(CourseLookupFailed)
    else if courses[courseId].info.courseStatus == 2 then Err(CourseDeleted)
    else Ok(courses[courseId])
  }

  // ------------------------------------------------------------ payloads

  /** One entry of `courseItems`; id is None for a session not yet stored.
      Each schema field the entry carries is copied by an edit. */
  datatype ItemPayload = ItemPayload(
    id: Option<Id>, courseDate: Option<string>, itemName: Option<string>,
    capacity: Option<int>, status: Option<int>,
    courseId: Option<Id>, mainCourseName: Option<string>)

  /** The body of a create or edit: the course fields, an optional vendorId
      (spread over the caller's id on create, assigned on edit) and the
      optional list of sessions, and an optional courseItemId list, which
      the spread and Object.assign copy onto the course like any other field. */
  datatype CoursePayload = CoursePayload(
    vendorId: Option<Id>, info: CourseInfo, courseItems: Option<seq<ItemPayload>>,
    courseItemId: Option<seq<Id>>)

  /** `{ vendorId, ...data }`: a vendorId in the body wins over the caller's. */
  function Owner(caller: Id, data: CoursePayload): Id {
    data.vendorId.GetOr(caller)
  }

  /** The session created for a payload entry: the course's capacity and
      name, the entry's date and name, and the schema's default status 1. */
  function NewItem(courseId: Id, info: CourseInfo, p: ItemPayload): CourseItem {
    CourseItem(courseId, info.courseCapacity, info.courseName, p.courseDate, p.itemName, 1)
  }

  /** `Object.assign(courseItem, item)`: each field the entry carries overwrites. */
  function Assign(it: CourseItem, p: ItemPayload): CourseItem {
    it.(courseId := p.courseId.GetOr(it.courseId),
        mainCourseName := p.mainCourseName.GetOr(it.mainCourseName),
        courseDate := if p.courseDate.Some? then p.courseDate else it.courseDate,
        itemName := if p.itemName.Some? then p.itemName else it.itemName,
        capacity := if p.capacity.Some? then p.capacity.value else it.capacity,
        status := if p.status.Some? then p.status.value else it.status)
  }

  /** `Object.assign(course, data)` on an edit: a courseItemId list in the
      body replaces the stored one before the sessions are reconciled. */
  function Assigned(c: Course, data: CoursePayload): Course {
    c.(vendorId := data.vendorId.GetOr(c.vendorId), info := data.info,
       itemIds := data.courseItemId.GetOr(c.itemIds))
  }

  /** first, first + 1, ..., first + count - 1. */
  function Consecutive(first: nat, count: nat): (ids: seq<Id>)
    ensures |ids| == count && forall i :: 0 <= i < count ==> ids[i] == first + i
  {
    seq(count, i requires 0 <= i < count => first + i)
  }

  // ----------------------------------------------------------- newCourse

  /** The item table after creating one session per entry, the i-th at id first + i. */
  function AddItems(m: map<Id, CourseItem>, courseId: Id, info: CourseInfo, first: nat, ps: seq<ItemPayload>)
    : map<Id, CourseItem>
  {
    if ps == [] then m
    else AddItems(m, courseId, info, first, ps[..|ps| - 1])[first + |ps| - 1 := NewItem(courseId, info, ps[|ps| - 1])]
  }

  /** Creating sessions adds exactly the ids first .. first + |ps| - 1, the
      i-th built from the i-th entry, and leaves every earlier session as it was. */
  lemma {:induction false} AddItemsSpec(m: map<Id, CourseItem>, courseId: Id, info: CourseInfo, first: nat, ps: seq<ItemPayload>)
    requires forall k :: k in m ==> k < first
    ensures var r := AddItems(m, courseId, info, first, ps);
      && (forall k :: k in r <==> k in m || first <= k < first + |ps|)
      && (forall k :: k in m ==> r[k] == m[k])
      && (forall i :: 0 <= i < |ps| ==> r[first + i] == NewItem(courseId, info, ps[i]))
  {
    if ps != [] {
      var init := ps[..|ps| - 1];
      AddItemsSpec(m, courseId, info, first, init);
      forall i | 0 <= i < |init| ensures init[i] == ps[i] { }
    }
  }

  /** newCourse. The teacher id is checked first, then the eleven fields
      (`fieldsFilled` is the verdict of the emptiness helper); either failure
      writes nothing. The course is then created, and one session per entry
      of courseItems, whose ids become the course's item list in order. An
      absent courseItems throws after the course was created. */
  method NewCourse(st: Store, caller: Id, data: CoursePayload, fieldsFilled: bool) returns (r: Result<Id, CourseError>)
    requires st.Valid()
    modifies st`courses, st`items, st`nextId
    ensures st.Valid()
    ensures data.info.teacherId !in st.teachers ==> r == Err(TeacherLookupFailed)
    ensures data.info.teacherId in st.teachers && !fieldsFilled ==> r == Err(EmptyField)
    ensures r == Err(TeacherLookupFailed) || r == Err(EmptyField) ==>
      st.courses == old(st.courses) && st.items == old(st.items) && st.nextId == old(st.nextId)
    ensures data.info.teacherId in st.teachers && fieldsFilled && data.courseItems.None? ==>
      && r == Err(MissingItems)
      && st.courses == old(st.courses)[old(st.nextId) := Course(Owner(caller, data), data.info, data.courseItemId.GetOr([]), [])]
      && st.items == old(st.items)
    ensures data.info.teacherId in st.teachers && fieldsFilled && data.courseItems.Some? ==>
      var cid, ps := old(st.nextId), data.courseItems.value;
      && r == Ok(cid)
      && st.courses == old(st.courses)[cid := Course(Owner(caller, data), data.info, Consecutive(cid + 1, |ps|), [])]
      && st.items == AddItems(old(st.items), cid, data.info, cid + 1, ps)
      && st.nextId == cid + 1 + |ps|
  {
    if data.info.teacherId !in st.teachers {
      return Err(TeacherLookupFailed);
    }
    if !fieldsFilled {
      return Err(EmptyField);
    }
    var cid := st.nextId;
    var owner := Owner(caller, data);
    st.courses := st.courses[cid := Course(owner, data.info, data.courseItemId.GetOr([]), [])];
    st.nextId := st.nextId + 1;
    if data.courseItems.None? {
      return Err(MissingItems);
    }
    var ps := data.courseItems.value;
    var ids: seq<Id> := [];
    var i := 0;
    while i < |ps|
      invariant 0 <= i <= |ps|
      invariant st.nextId == cid + 1 + i
      invariant ids == Consecutive(cid + 1, i)
      invariant st.items == AddItems(old(st.items), cid, data.info, cid + 1, ps[..i])
      invariant forall k :: k in st.items ==> k < st.nextId
      invariant st.courses == old(st.courses)[cid := Course(owner, data.info, data.courseItemId.GetOr([]), [])]
    {
      var itemId := st.nextId;
      st.items := st.items[itemId := NewItem(cid, data.info, ps[i])];
      st.nextId := st.nextId + 1;
      ids := ids + [itemId];
      assert ps[..i + 1][..i] == ps[..i];
      i := i + 1;
    }
    assert ps[..|ps|] == ps;
    st.courses := st.courses[cid := Course(owner, data.info, ids, [])];
    r := Ok(cid);
  }

  // ---------------------------------------------------- deactivateCourse

  function Deactivated(c: Course): Course {
    c.(info := c.info.(courseStatus := 2))
  }

  /** Soft-deleting a course sets courseStatus to 2 and nothing else; doing
      it twice is the same as doing it once. */
  lemma DeactivateIdempotent(c: Course)
    ensures Deactivated(Deactivated(c)) == Deactivated(c)
    ensures Deactivated(c).info.courseStatus == 2
    ensures Deactivated(c).itemIds == c.itemIds && Deactivated(c).vendorId == c.vendorId
    ensures Deactivated(c).info.(courseStatus := c.info.courseStatus) == c.info
  {
  }

  /** deactivateCourse: 404 for an unknown course; otherwise only the
      course's status becomes 2. Its sessions are left as they are. */
  method DeactivateCourse(st: Store, courseId: Id) returns (r: Result<(), CourseError>)
    requires st.Valid()
    modifies st`courses
    ensures st.Valid()
    ensures r == Err(CourseNotFound) <==> courseId !in old(st.courses)
    ensures r.Ok? <==> courseId in old(st.courses)
    ensures r.Err? ==> st.courses == old(st.courses)
    ensures r.Ok? ==> st.courses == old(st.courses)[courseId := Deactivated(old(st.courses)[courseId])]
  {
    if courseId !in st.courses {
      return Err(CourseNotFound);
    }
    st.courses := st.courses[courseId := Deactivated(st.courses[courseId])];
    r := Ok(());
  }

  // -------------------------------------------------------- updateCourse

  /** `data.courseItems.map(item => item.id)`. */
  function PayloadIds(ps: seq<ItemPayload>): (ids: seq<Option<Id>>)
    ensures |ids| == |ps| && forall i :: 0 <= i < |ps| ==> ids[i] == ps[i].id
  {
    seq(|ps|, i requires 0 <= i < |ps| => ps[i].id)
  }

  /** `course.courseItemId.filter(id => courseItemIds.includes(id))`. */
  function Survivors(ids: seq<Id>, keep: seq<Option<Id>>): (r: seq<Id>)
    ensures forall i :: 0 <= i < |r| ==> r[i] in ids && Some(r[i]) in keep
    ensures forall id :: id in ids && Some(id) in keep ==> id in r
  {
    if ids == [] then []
    else Survivors(ids[..|ids| - 1], keep) + (if Some(ids[|ids| - 1]) in keep then [ids[|ids| - 1]] else [])
  }

  /** Filtering keeps the old order: it distributes over concatenation. */
  lemma {:induction false} SurvivorsAppend(a: seq<Id>, b: seq<Id>, keep: seq<Option<Id>>)
    ensures Survivors(a + b, keep) == Survivors(a, keep) + Survivors(b, keep)
    decreases |b|
  {
    if b != [] {
      var b' := b[..|b| - 1];
      assert (a + b)[..|a + b| - 1] == a + b';
      SurvivorsAppend(a, b', keep);
    } else {
      assert a + b == a;
    }
  }

  /** The soft-delete loop: every id of the course's old list that the
      payload does not mention, and whose stored item belongs to this
      course, gets status 2. Nothing is removed. */
  function SoftDeleteAbsent(items: map<Id, CourseItem>, courseId: Id, ids: seq<Id>, keep: seq<Option<Id>>)
    : (r: map<Id, CourseItem>)
    ensures r.Keys == items.Keys
    ensures forall k :: k in items ==>
      r[k] == if k in ids && Some(k) !in keep && items[k].courseId == courseId
              then items[k].(status := 2) else items[k]
  {
    if ids == [] then items
    else
      var m := SoftDeleteAbsent(items, courseId, ids[..|ids| - 1], keep);
      var id := ids[|ids| - 1];
      assert forall k :: k in ids <==> k in ids[..|ids| - 1] || k == id;
      if Some(id) !in keep && id in m && m[id].courseId == courseId then m[id := m[id].(status := 2)] else m
  }

  /** The item table, the course's item list and the id counter while the
      payload entries are processed. */
  datatype ItemState = ItemState(items: map<Id, CourseItem>, list: seq<Id>, next: nat)

  /** One turn of the update loop: a stored item with the entry's id is
      updated in place, whatever course it belongs to; otherwise a new item
      is created and its id appended to the course's list. */
  function ApplyItem(s: ItemState, courseId: Id, info: CourseInfo, p: ItemPayload): ItemState {
    if p.id.Some? && p.id.value in s.items then
      s.(items := s.items[p.id.value := Assign(s.items[p.id.value], p)])
    else
      ItemState(s.items[s.next := NewItem(courseId, info, p)], s.list + [s.next], s.next + 1)
  }

  /** The update loop over all entries, in payload order. */
  function ApplyItems(s: ItemState, courseId: Id, info: CourseInfo, ps: seq<ItemPayload>): ItemState {
    if ps == [] then s
    else ApplyItem(ApplyItems(s, courseId, info, ps[..|ps| - 1]), courseId, info, ps[|ps| - 1])
  }

  /** The entries whose id names no stored item: the ones that create items. */
  function NotFound(keys: set<Id>, ps: seq<ItemPayload>): seq<ItemPayload> {
    if ps == [] then []
    else
      var p := ps[|ps| - 1];
      NotFound(keys, ps[..|ps| - 1]) + (if p.id.Some? && p.id.value in keys then [] else [p])
  }

  /** The entries that carry id k, in payload order. */
  function Updates(ps: seq<ItemPayload>, k: Id): (us: seq<ItemPayload>)
    ensures (forall i :: 0 <= i < |ps| ==> ps[i].id != Some(k)) ==> us == []
  {
    if ps == [] then []
    else Updates(ps[..|ps| - 1], k) + (if ps[|ps| - 1].id == Some(k) then [ps[|ps| - 1]] else [])
  }

  /** Applying the entries one after another to an item. */
  function AssignAll(it: CourseItem, us: seq<ItemPayload>): CourseItem {
    if us == [] then it else Assign(AssignAll(it, us[..|us| - 1]), us[|us| - 1])
  }

  /** The shape of the update loop's result, when no entry names an id the
      loop itself hands out: the entries naming no stored item create items
      with fresh consecutive ids, appended to the list in payload order, and
      no key is removed. */
  lemma {:induction false} ApplyItemsShape(s: ItemState, courseId: Id, info: CourseInfo, ps: seq<ItemPayload>)
    requires forall k :: k in s.items ==> k < s.next
    requires forall i :: 0 <= i < |ps| && ps[i].id.Some? ==> ps[i].id.value < s.next
    ensures var r, nf := ApplyItems(s, courseId, info, ps), NotFound(s.items.Keys, ps);
      && r.next == s.next + |nf|
      && r.list == s.list + Consecutive(s.next, |nf|)
      && (forall k :: k in r.items <==> k in s.items || s.next <= k < r.next)
  {
    if ps != [] {
      var init, p := ps[..|ps| - 1], ps[|ps| - 1];
      ApplyItemsShape(s, courseId, info, init);
      var r0 := ApplyItems(s, courseId, info, init);
      var nf0 := NotFound(s.items.Keys, init);
      if p.id.Some? && p.id.value in r0.items {
        assert p.id.value in s.items;
      } else {
        assert Consecutive(s.next, |nf0|) + [r0.next] == Consecutive(s.next, |nf0| + 1);
      }
    }
  }

  /** A stored item ends up with the entries that name it applied in order. */
  lemma {:induction false} ApplyItemsOld(s: ItemState, courseId: Id, info: CourseInfo, ps: seq<ItemPayload>, k: Id)
    requires forall k :: k in s.items ==> k < s.next
    requires forall i :: 0 <= i < |ps| && ps[i].id.Some? ==> ps[i].id.value < s.next
    requires k in s.items
    ensures var r := ApplyItems(s, courseId, info, ps);
      k in r.items && r.items[k] == AssignAll(s.items[k], Updates(ps, k))
  {
    if ps != [] {
      var init, p := ps[..|ps| - 1], ps[|ps| - 1];
      ApplyItemsOld(s, courseId, info, init, k);
      ApplyItemsShape(s, courseId, info, init);
      var us := Updates(init, k);
      if p.id == Some(k) {
        assert Updates(ps, k) == us + [p];
        assert (us + [p])[..|us|] == us;
      } else {
        assert Updates(ps, k) == us + [] == us;
      }
    }
  }

  /** The j-th entry naming no stored item becomes the item with id s.next + j. */
  lemma {:induction false} ApplyItemsNew(s: ItemState, courseId: Id, info: CourseInfo, ps: seq<ItemPayload>, j: nat)
    requires forall k :: k in s.items ==> k < s.next
    requires forall i :: 0 <= i < |ps| && ps[i].id.Some? ==> ps[i].id.value < s.next
    requires j < |NotFound(s.items.Keys, ps)|
    ensures var r := ApplyItems(s, courseId, info, ps);
      s.next + j in r.items && r.items[s.next + j] == NewItem(courseId, info, NotFound(s.items.Keys, ps)[j])
  {
    var init, p := ps[..|ps| - 1], ps[|ps| - 1];
    var nf0 := NotFound(s.items.Keys, init);
    ApplyItemsShape(s, courseId, info, init);
    ApplyItemsShape(s, courseId, info, ps);
    if j < |nf0| {
      ApplyItemsNew(s, courseId, info, init, j);
    }
  }

  /** What the update loop does, when no entry names an id the loop itself
      hands out: every stored item stays and receives the entries that name
      it; the other entries become new items at fresh consecutive ids. */
  lemma ApplyItemsSpec(s: ItemState, courseId: Id, info: CourseInfo, ps: seq<ItemPayload>)
    requires forall k :: k in s.items ==> k < s.next
    requires forall i :: 0 <= i < |ps| && ps[i].id.Some? ==> ps[i].id.value < s.next
    ensures var r, nf := ApplyItems(s, courseId, info, ps), NotFound(s.items.Keys, ps);
      && r.next == s.next + |nf|
      && r.list == s.list + Consecutive(s.next, |nf|)
      && (forall k :: k in r.items <==> k in s.items || s.next <= k < r.next)
      && (forall k :: k in s.items ==> r.items[k] == AssignAll(s.items[k], Updates(ps, k)))
      && (forall j :: 0 <= j < |nf| ==> r.items[s.next + j] == NewItem(courseId, info, nf[j]))
  {
    ApplyItemsShape(s, courseId, info, ps);
    forall k | k in s.items
      ensures ApplyItems(s, courseId, info, ps).items[k] == AssignAll(s.items[k], Updates(ps, k))
    {
      ApplyItemsOld(s, courseId, info, ps, k);
    }
    forall j | 0 <= j < |NotFound(s.items.Keys, ps)|
      ensures ApplyItems(s, courseId, info, ps).items[s.next + j] == NewItem(courseId, info, NotFound(s.items.Keys, ps)[j])
    {
      ApplyItemsNew(s, courseId, info, ps, j);
    }
  }

  /** The whole reconciliation of updateCourse: soft-delete the old ids the
      payload drops, keep the survivors in the list, then run the update loop. */
  function Reconcile(items: map<Id, CourseItem>, next: nat, courseId: Id, oldIds: seq<Id>,
                     info: CourseInfo, ps: seq<ItemPayload>): ItemState
  {
    var keep := PayloadIds(ps);
    ApplyItems(ItemState(SoftDeleteAbsent(items, courseId, oldIds, keep), Survivors(oldIds, keep), next),
               courseId, info, ps)
  }

  /** The outcome of the reconciliation, stated on the tables before it. */
  lemma ReconcileOutcome(items: map<Id, CourseItem>, next: nat, courseId: Id, oldIds: seq<Id>,
                         info: CourseInfo, ps: seq<ItemPayload>)
    requires forall k :: k in items ==> k < next
    requires forall i :: 0 <= i < |ps| && ps[i].id.Some? ==> ps[i].id.value < next
    ensures var r, keep, nf := Reconcile(items, next, courseId, oldIds, info, ps), PayloadIds(ps), NotFound(items.Keys, ps);
      // no item is ever physically removed
      && (forall k :: k in items ==> k in r.items)
      // the course's list: the old ids the payload keeps, in old order, then the new ids
      && r.list == Survivors(oldIds, keep) + Consecutive(next, |nf|)
      // an old id the payload drops, whose item is this course's, is soft-deleted
      && (forall k :: k in items && k in oldIds && Some(k) !in keep && items[k].courseId == courseId ==>
            r.items[k] == items[k].(status := 2))
      // an item the payload names is updated in place by the entries naming it
      && (forall k :: k in items && Some(k) in keep ==> r.items[k] == AssignAll(items[k], Updates(ps, k)))
      // any other item is untouched
      && (forall k :: k in items && Some(k) !in keep && !(k in oldIds && items[k].courseId == courseId) ==>
            r.items[k] == items[k])
      // the entries naming no stored item become new items of this course
      && (forall j :: 0 <= j < |nf| ==> next + j in r.items && r.items[next + j] == NewItem(courseId, info, nf[j]))
  {
    var keep := PayloadIds(ps);
    var sd := SoftDeleteAbsent(items, courseId, oldIds, keep);
    ApplyItemsSpec(ItemState(sd, Survivors(oldIds, keep), next), courseId, info, ps);
    assert sd.Keys == items.Keys;
    forall k | k in items && Some(k) !in keep ensures Updates(ps, k) == [] {
      forall i | 0 <= i < |ps| ensures ps[i].id != Some(k) {
        assert keep[i] == ps[i].id;
      }
    }
  }

  /** The first loop of updateCourse: soft-delete the old ids the payload
      no longer names. */
  method SoftDeleteLoop(st: Store, courseId: Id, oldIds: seq<Id>, keep: seq<Option<Id>>)
    modifies st`items
    ensures st.items == SoftDeleteAbsent(old(st.items), courseId, oldIds, keep)
  {
    var i := 0;
    while i < |oldIds|
      invariant 0 <= i <= |oldIds|
      invariant st.items == SoftDeleteAbsent(old(st.items), courseId, oldIds[..i], keep)
    {
      var id := oldIds[i];
      if Some(id) !in keep && id in st.items && st.items[id].courseId == courseId {
        st.items := st.items[id := st.items[id].(status := 2)];
      }
      assert oldIds[..i + 1][..i] == oldIds[..i];
      i := i + 1;
    }
    assert oldIds[..|oldIds|] == oldIds;
  }

  /** The second loop of updateCourse: update the named items in place and
      create the others, appending their ids to the list. */
  method ApplyItemsLoop(st: Store, courseId: Id, info: CourseInfo, ps: seq<ItemPayload>, list0: seq<Id>)
    returns (list: seq<Id>)
    requires forall k :: k in st.items ==> k < st.nextId
    modifies st`items, st`nextId
    ensures ItemState(st.items, list, st.nextId) == ApplyItems(ItemState(old(st.items), list0, old(st.nextId)), courseId, info, ps)
    ensures forall k :: k in st.items ==> k < st.nextId
    ensures st.nextId >= old(st.nextId)
  {
    list := list0;
    var j := 0;
    while j < |ps|
      invariant 0 <= j <= |ps|
      invariant ItemState(st.items, list, st.nextId) == ApplyItems(ItemState(old(st.items), list0, old(st.nextId)), courseId, info, ps[..j])
      invariant forall k :: k in st.items ==> k < st.nextId
      invariant st.nextId >= old(st.nextId)
    {
      var p := ps[j];
      if p.id.Some? && p.id.value in st.items {
        st.items := st.items[p.id.value := Assign(st.items[p.id.value], p)];
      } else {
        var itemId := st.nextId;
        st.items := st.items[itemId := NewItem(courseId, info, p)];
        st.nextId := st.nextId + 1;
        list := list + [itemId];
      }
      assert ps[..j + 1][..j] == ps[..j];
      j := j + 1;
    }
    assert ps[..|ps|] == ps;
  }

  /** updateCourse. An unknown course is 404 and an empty field 400, both
      before any write. The course fields are then assigned and saved; an
      absent courseItems throws at that point. Otherwise the items are
      reconciled (see Reconcile) and the course keeps the resulting list. */
  method UpdateCourse(st: Store, courseId: Id, data: CoursePayload, fieldsFilled: bool) returns (r: Result<Id, CourseError>)
    requires st.Valid()
    modifies st`courses, st`items, st`nextId
    ensures st.Valid()
    ensures courseId !in old(st.courses) ==> r == Err(CourseNotFound)
    ensures courseId in old(st.courses) && !fieldsFilled ==> r == Err(EmptyField)
    ensures r == Err(CourseNotFound) || r == Err(EmptyField) ==>
      st.courses == old(st.courses) && st.items == old(st.items) && st.nextId == old(st.nextId)
    ensures courseId in old(st.courses) && fieldsFilled && data.courseItems.None? ==>
      && r == Err(MissingItems)
      && st.courses == old(st.courses)[courseId := Assigned(old(st.courses)[courseId], data)]
      && st.items == old(st.items) && st.nextId == old(st.nextId)
    ensures courseId in old(st.courses) && fieldsFilled && data.courseItems.Some? ==>
      var c := Assigned(old(st.courses)[courseId], data);
      var fin := Reconcile(old(st.items), old(st.nextId), courseId, c.itemIds, data.info, data.courseItems.value);
      && r == Ok(courseId)
      && st.courses == old(st.courses)[courseId := c.(itemIds := fin.list)]
      && st.items == fin.items && st.nextId == fin.next
  {
    if courseId !in st.courses {
      return Err(CourseNotFound);
    }
    if !fieldsFilled {
      return Err(EmptyField);
    }
    var course := Assigned(st.courses[courseId], data);
    st.courses := st.courses[courseId := course];
    if data.courseItems.None? {
      return Err(MissingItems);
    }
    var ps := data.courseItems.value;
    var keep := PayloadIds(ps);
    SoftDeleteLoop(st, courseId, course.itemIds, keep);
    var list := ApplyItemsLoop(st, courseId, data.info, ps, Survivors(course.itemIds, keep));
    st.courses := st.courses[courseId := course.(itemIds := list)];
    r := Ok(courseId);
  }
}

=== FILE: members.dfy ===
/** controllers/memberController.js: the member's profile and counters,
    favourite courses, order history and profile edits. */
module Members {
  import opened Common
  import opened Schemas
  import opened Db

  datatype MemberError =
    | WrongAdminPassword      // 401
    | MemberMissing           // the profile read meets no member and throws
    | MissingCourseId         // 400
    | CourseLookupFailed      // the id helper rejected the course id
    | AlreadyCollected        // 400
    | CollectionLookupFailed  // the id helper rejected the collection id
    | NotOwnCollection        // 400
    | BadPaidStatus           // 400
    | BadCourseTerm           // 400
    | BadPoint                // 400
    | BadGender               // 400
    | BadBirthday             // 400
    | InvalidInterests(e: SchemaError)
    | MemberNotFound          // 404
  {
    function Code(): Option<nat> {
      match this
      case WrongAdminPassword => Some(401)
      case MemberNotFound => Some(404)
      case MemberMissing => None
      case CourseLookupFailed => None
      case CollectionLookupFailed => None
      case InvalidInterests(_) => None
      case _ => Some(400)
    }
  }

  // ------------------------------------------------------ getAllMembers

  /** getAllMembers: every member, behind the administrator gate. */
  function GetAllMembers(members: map<Id, Member>, n: nat, given: Option<string>, env: Option<string>)
    : (r: Result<seq<Id>, MemberError>)
    ensures r.Ok? <==> AdminPasswordOk(given, env)
    ensures r.Err? ==> r.error.Code() == Some(401)
    ensures r.Ok? ==> forall k :: k < n && k in members ==> k in r.value
    ensures r.Ok? ==> forall i :: 0 <= i < |r.value| ==> r.value[i] in members
  {
    if !AdminPasswordOk(given, env) then Err(WrongAdminPassword)
    else Ok(Select(members, (m: Member) => true, n))
  }

  /** With no administrator password configured, a request that sends none
      passes the gate. */
  lemma UnsetAdminPasswordOpensList(members: map<Id, Member>, n: nat)
    ensures GetAllMembers(members, n, None, None).Ok?
    ensures forall p :: GetAllMembers(members, n, Some(p), None).Err?
  {
  }

  // ---------------------------------------------------------- getMember

  /** The member's orders with paidStatus 3 (course completed). */
  function CompletedOrders(orders: map<Id, Order>, memberId: Id): set<Id> {
    set k | k in orders && orders[k].memberId == memberId && orders[k].paidStatus == 3
  }

  /** The distinct courses of those orders. */
  function CompletedCourses(orders: map<Id, Order>, memberId: Id): set<Id> {
    set k | k in orders && k in CompletedOrders(orders, memberId) :: orders[k].courseId
  }

  /** The value an order document holds at a filter path. The order schema
      has no `status` path, so a filter on it meets nothing stored. */
  function OrderPathValue(o: Order, path: string): Option<int> {
    if path == "paidStatus" then Some(o.paidStatus) else None
  }

  /** The distinct courses of `Order.find({ memberId, status: 3 })` as
      written: the filter names a path orders do not have, so no order
      matches and there are no courses to count. */
  function CompletedCoursesAsWritten(orders: map<Id, Order>, memberId: Id): (cs: set<Id>)
    ensures cs == {}
  {
    set k | k in orders && orders[k].memberId == memberId && OrderPathValue(orders[k], "status") == Some(3)
      :: orders[k].courseId
  }

  /** A member with a completed order: as written their completed-course
      count is 0; read as paidStatus 3 it counts that order's course. */
  lemma StatusFilterCountsNoCourse(members: map<Id, Member>, orders: map<Id, Order>,
                                   collections: map<Id, Collection>, n: nat, memberId: Id, k: Id)
    requires memberId in members && k in orders
    requires orders[k].memberId == memberId && orders[k].paidStatus == 3
    ensures |CompletedCoursesAsWritten(orders, memberId)| == 0
    ensures GetMember(members, orders, collections, n, memberId).Ok?
    ensures GetMember(members, orders, collections, n, memberId).value.totalCourses >= 1
  {
    assert k in CompletedOrders(orders, memberId);
    assert orders[k].courseId in CompletedCourses(orders, memberId);
  }

  /** The member's favourites whose status is 1. */
  function ActiveCollections(collections: map<Id, Collection>, memberId: Id, n: nat): seq<Id> {
    Select(collections, (c: Collection) => c.memberId == memberId && c.status == 1, n)
  }

  datatype Profile = Profile(member: Member, totalCollections: nat, totalCourses: nat)

  /** getMember: the profile with the number of active favourites and the
      number of distinct completed courses. A missing member throws. */
  function GetMember(members: map<Id, Member>, orders: map<Id, Order>, collections: map<Id, Collection>,
                     n: nat, memberId: Id): (r: Result<Profile, MemberError>)
    ensures r.Ok? <==> memberId in members
    ensures r.Ok? ==> r.value.member == members[memberId]
    ensures r.Ok? ==> r.value.totalCourses == |CompletedCourses(orders, memberId)|
    ensures r.Ok? ==> r.value.totalCollections == |ActiveCollections(collections, memberId, n)|
    ensures r.Ok? ==> r.value.totalCourses <= |CompletedOrders(orders, memberId)|
    ensures r.Ok? && (forall k :: k < n && k in collections ==> collections[k].memberId != memberId) ==>
      r.value.totalCollections == 0
  {
    if memberId !in members then Err(MemberMissing)
    else
      CompletedCoursesBound(orders, memberId);
      var active := ActiveCollections(collections, memberId, n);
      assert active != [] ==> active[0] < n && collections[active[0]].memberId == memberId;
      Ok(Profile(members[memberId], |active|, |CompletedCourses(orders, memberId)|))
  }

  /** Mapping a set of orders to their courses gives no more courses than orders. */
  lemma {:induction false} CourseImageNoLarger(ks: set<Id>, orders: map<Id, Order>)
    requires ks <= orders.Keys
    ensures |set k | k in orders && k in ks :: orders[k].courseId| <= |ks|
    decreases |ks|
  {
    if ks != {} {
      var k :| k in ks;
      var rest := ks - {k};
      CourseImageNoLarger(rest, orders);
      assert (set j | j in orders && j in ks :: orders[j].courseId)
          == (set j | j in orders && j in rest :: orders[j].courseId) + {orders[k].courseId};
    }
  }

  /** Completed courses are counted once each: never more than the completed orders. */
  lemma CompletedCoursesBound(orders: map<Id, Order>, memberId: Id)
    ensures |CompletedCourses(orders, memberId)| <= |CompletedOrders(orders, memberId)|
  {
    CourseImageNoLarger(CompletedOrders(orders, memberId), orders);
  }

  /** A further completed order adds its course to the count only if the
      course was not completed before. */
  lemma {:induction false} CompletedCoursesInsert(orders: map<Id, Order>, memberId: Id, k: Id, o: Order)
    requires k !in orders
    requires o.memberId == memberId && o.paidStatus == 3
    ensures CompletedCourses(orders[k := o], memberId) == CompletedCourses(orders, memberId) + {o.courseId}
    ensures o.courseId in CompletedCourses(orders, memberId) ==>
      |CompletedCourses(orders[k := o], memberId)| == |CompletedCourses(orders, memberId)|
  {
    var before, after := CompletedCourses(orders, memberId), CompletedCourses(orders[k := o], memberId);
    assert o.courseId in after by {
      assert k in CompletedOrders(orders[k := o], memberId);
    }
    forall c | c in after ensures c in before + {o.courseId} {
      var j :| j in orders[k := o] && j in CompletedOrders(orders[k := o], memberId) && orders[k := o][j].courseId == c;
      if j != k {
        assert j in CompletedOrders(orders, memberId);
      }
    }
    forall c | c in before ensures c in after {
      var j :| j in orders && j in CompletedOrders(orders, memberId) && orders[j].courseId == c;
      assert j in CompletedOrders(orders[k := o], memberId);
    }
    if o.courseId in before {
      assert before + {o.courseId} == before;
    }
  }

  // ---------------------------------------------------- favourite courses

  /** No member holds two favourites for the same course. */
  ghost predicate UniquePairs(cs: map<Id, Collection>) {
    forall a, b :: a in cs && b in cs && a != b ==>
      cs[a].memberId != cs[b].memberId || cs[a].courseId != cs[b].courseId
  }

  /** newMemberCollections: courseId is required and must name a course;
      a second favourite for the same course is refused. The new favourite
      gets the collection schema's default status, given as initialStatus. */
  method NewMemberCollection(st: Store, memberId: Id, courseId: Option<Id>, initialStatus: int)
    returns (r: Result<Id, MemberError>)
    requires st.Valid()
    modifies st`collections, st`nextId
    ensures st.Valid()
    ensures courseId.None? ==> r == Err(MissingCourseId)
    ensures courseId.Some? && courseId.value !in st.courses ==> r == Err(CourseLookupFailed)
    ensures courseId.Some? && courseId.value in st.courses ==>
      (r == Err(AlreadyCollected) <==>
        exists k :: k in old(st.collections) && old(st.collections)[k].memberId == memberId
                                             && old(st.collections)[k].courseId == courseId.value)
    ensures (&& courseId.Some? && courseId.value in st.courses
             && forall k :: k in old(st.collections) && old(st.collections)[k].memberId == memberId
                           ==> old(st.collections)[k].courseId != courseId.value) ==> r.Ok?
    ensures r.Err? ==> st.collections == old(st.collections) && st.nextId == old(st.nextId)
    ensures r.Ok? ==> && r.value == old(st.nextId) && st.nextId == old(st.nextId) + 1
                      && st.collections == old(st.collections)[r.value := Collection(memberId, courseId.value, initialStatus)]
    ensures UniquePairs(old(st.collections)) ==> UniquePairs(st.collections)
  {
    if courseId.None? {
      return Err(MissingCourseId);
    }
    if courseId.value !in st.courses {
      return Err(CourseLookupFailed);
    }
    var cid := courseId.value;
    var existing := FindFirst(st.collections, (c: Collection) => c.memberId == memberId && c.courseId == cid, st.nextId);
    if existing.Some? {
      return Err(AlreadyCollected);
    }
    var id := st.nextId;
    st.collections := st.collections[id := Collection(memberId, cid, initialStatus)];
    st.nextId := st.nextId + 1;
    r := Ok(id);
  }

  /** deleteMemberCollections: the favourite must exist and belong to the
      caller; then it is removed. */
  method DeleteMemberCollection(st: Store, memberId: Id, collectionId: Id) returns (r: Result<Collection, MemberError>)
    requires st.Valid()
    modifies st`collections
    ensures st.Valid()
    ensures collectionId !in old(st.collections) ==> r == Err(CollectionLookupFailed)
    ensures collectionId in old(st.collections) && old(st.collections)[collectionId].memberId != memberId ==>
      r == Err(NotOwnCollection)
    ensures collectionId in old(st.collections) && old(st.collections)[collectionId].memberId == memberId ==>
      r.Ok?
    ensures r.Err? ==> st.collections == old(st.collections)
    ensures r.Ok? ==> && collectionId in old(st.collections) && r.value == old(st.collections)[collectionId]
                      && r.value.memberId == memberId
                      && st.collections == old(st.collections) - {collectionId}
    ensures UniquePairs(old(st.collections)) ==> UniquePairs(st.collections)
  {
    if collectionId !in st.collections {
      return Err(CollectionLookupFailed);
    }
    if st.collections[collectionId].memberId != memberId {
      return Err(NotOwnCollection);
    }
    r := Ok(st.collections[collectionId]);
    st.collections := st.collections - {collectionId};
  }

  // ---------------------------------------------------- getMemberOrders

  datatype OrderQuery = OrderQuery(paidStatus: Option<string>, courseTerm: Option<string>, createAt: Option<string>)

  const PaidStatusTexts: set<string> := {"0", "1", "2", "3", "4", "5", "6"}

  /** The term guard as intended: only "0" (trial) and "1" (training) pass. */
  predicate TermAccepted(term: string) {
    term in {"0", "1"}
  }

  /** The term condition on an order: none when no term is given, otherwise
      the term of the course the order is for (the order's courseId is what
      the handler populates). */
  predicate OfTerm(courses: map<Id, Course>, o: Order, term: Option<int>) {
    term.None? || (o.courseId in courses && courses[o.courseId].info.courseTerm == term.value)
  }

  /** The member's orders, with the given paidStatus and course term when
      they are given, in the given direction of creation. */
  function ListMemberOrders(orders: map<Id, Order>, courses: map<Id, Course>, n: nat, memberId: Id,
                            status: Option<int>, term: Option<int>, d: Direction)
    : (ids: seq<Id>)
    ensures forall i :: 0 <= i < |ids| ==> ids[i] in orders && orders[ids[i]].memberId == memberId
    ensures forall i :: 0 <= i < |ids| ==> status.Some? ==> orders[ids[i]].paidStatus == status.value
    ensures forall i :: 0 <= i < |ids| ==> OfTerm(courses, orders[ids[i]], term)
    ensures forall k :: (&& k < n && k in orders && orders[k].memberId == memberId
                         && (status.Some? ==> orders[k].paidStatus == status.value)
                         && OfTerm(courses, orders[k], term)) ==> k in ids
    ensures d == Ascending ==> forall i, j :: 0 <= i < j < |ids| ==> ids[i] < ids[j]
    ensures d == Descending ==> forall i, j :: 0 <= i < j < |ids| ==> ids[i] > ids[j]
  {
    var selected := SelectedOrders(orders, courses, n, memberId, status, term);
    var ids := Arrange(selected, d);
    assert forall i :: 0 <= i < |ids| ==> ids[i] in selected;
    ids
  }

  /** The orders meeting the three conditions, in creation order. */
  function SelectedOrders(orders: map<Id, Order>, courses: map<Id, Course>, n: nat, memberId: Id,
                          status: Option<int>, term: Option<int>)
    : (ids: seq<Id>)
    ensures forall k :: k in ids ==> k in orders && orders[k].memberId == memberId
    ensures forall k :: k in ids ==> status.Some? ==> orders[k].paidStatus == status.value
    ensures forall k :: k in ids ==> OfTerm(courses, orders[k], term)
    ensures forall k :: (&& k < n && k in orders && orders[k].memberId == memberId
                         && (status.Some? ==> orders[k].paidStatus == status.value)
                         && OfTerm(courses, orders[k], term)) ==> k in ids
  {
    Select(orders, (o: Order) => && o.memberId == memberId
                                 && (status.None? || o.paidStatus == status.value)
                                 && OfTerm(courses, o, term), n)
  }

  /** The paidStatus condition: a truthy parameter must be one of "0" to
      "6" and is cast to its number. */
  function PaidStatusCondition(q: OrderQuery): (r: Result<Option<int>, MemberError>)
    ensures r.Err? <==> Filled(q.paidStatus) && q.paidStatus.value !in PaidStatusTexts
    ensures r.Ok? && Filled(q.paidStatus) ==> r.value == Some(ParseDecimal(q.paidStatus.value).value) && 0 <= r.value.value <= 6
    ensures r.Ok? && !Filled(q.paidStatus) ==> r.value.None?
  {
    if !Filled(q.paidStatus) then Ok(None)
    else if q.paidStatus.value !in PaidStatusTexts then Err(BadPaidStatus)
    else
      var t := q.paidStatus.value;
      assert |t| == 1 && IsDigit(t[0]);
      Ok(Some(ParseDecimal(t).value))
  }

  /** The term condition as intended: a truthy term must be "0" or "1" and
      is cast to its number. */
  function TermCondition(q: OrderQuery): (r: Result<Option<int>, MemberError>)
    ensures r.Err? <==> Filled(q.courseTerm) && !TermAccepted(q.courseTerm.value)
    ensures r.Ok? && Filled(q.courseTerm) ==> r.value == Some(ParseDecimal(q.courseTerm.value).value) && r.value.value in {0, 1}
    ensures r.Ok? && !Filled(q.courseTerm) ==> r.value.None?
  {
    if !Filled(q.courseTerm) then Ok(None)
    else if !TermAccepted(q.courseTerm.value) then Err(BadCourseTerm)
    else
      var t := q.courseTerm.value;
      assert |t| == 1 && IsDigit(t[0]);
      Ok(Some(ParseDecimal(t).value))
  }

  function OrderDirection(q: OrderQuery): Direction {
    if q.createAt == Some("asc") then Ascending else Descending
  }

  /** getMemberOrders as intended: the member's orders, filtered by
      paidStatus when one is sent and by the term of the order's course when
      a term is sent, in creation order when createAt is "asc" and newest
      first otherwise. A paidStatus outside "0".."6" and then a term outside
      "0" and "1" are refused. */
  function MemberOrders(orders: map<Id, Order>, courses: map<Id, Course>, n: nat, memberId: Id, q: OrderQuery)
    : (r: Result<seq<Id>, MemberError>)
    ensures r == Err(BadPaidStatus) <==> PaidStatusCondition(q).Err?
    ensures r == Err(BadCourseTerm) <==> PaidStatusCondition(q).Ok? && TermCondition(q).Err?
    ensures r.Ok? ==> r.value == ListMemberOrders(orders, courses, n, memberId, PaidStatusCondition(q).value,
                                                  TermCondition(q).value, OrderDirection(q))
    ensures r.Ok? && Filled(q.courseTerm) ==> forall k :: k in r.value ==>
      orders[k].courseId in courses && courses[orders[k].courseId].info.courseTerm == ParseDecimal(q.courseTerm.value).value
  {
    match PaidStatusCondition(q)
    case Err(e) => Err(e)
    case Ok(status) =>
      match TermCondition(q)
      case Err(e) => Err(e)
      case Ok(term) =>
        var ids := ListMemberOrders(orders, courses, n, memberId, status, term, OrderDirection(q));
        assert forall k :: k in ids ==> OfTerm(courses, orders[k], term) by {
          forall k | k in ids ensures OfTerm(courses, orders[k], term) {
            var i :| 0 <= i < |ids| && ids[i] == k;
          }
        }
        Ok(ids)
  }

  /** The term guard as written negates an array literal, which is always
      truthy, so the guard never fires. */
  predicate TermRejectedAsWritten(term: string) {
    !Truthy(Arr([Str("0"), Bool(term == "" || term == "1")]))
  }

  /** getMemberOrders as written: the term guard never fires, and a truthy
      term becomes a filter on courseTerm, a path orders do not have, so it
      matches no order. Without a term the outcome is the intended one. */
  function MemberOrdersAsWritten(orders: map<Id, Order>, courses: map<Id, Course>, n: nat, memberId: Id, q: OrderQuery)
    : (r: Result<seq<Id>, MemberError>)
    ensures r == Err(BadPaidStatus) <==> PaidStatusCondition(q).Err?
    ensures r != Err(BadCourseTerm)
    ensures PaidStatusCondition(q).Ok? && Filled(q.courseTerm) ==> r == Ok([])
    ensures !Filled(q.courseTerm) ==> r == MemberOrders(orders, courses, n, memberId, q)
  {
    match PaidStatusCondition(q)
    case Err(e) => Err(e)
    case Ok(status) =>
      if Filled(q.courseTerm) && TermRejectedAsWritten(q.courseTerm.value) then Err(BadCourseTerm)
      else if Filled(q.courseTerm) then Ok([])
      else Ok(ListMemberOrders(orders, courses, n, memberId, status, None, OrderDirection(q)))
  }

  /** As written, a term such as "7" passes the guard; as intended it is refused. */
  lemma TermGuardAsWrittenLetsAnyTermThrough(orders: map<Id, Order>, courses: map<Id, Course>, n: nat, memberId: Id)
    ensures forall term :: !TermRejectedAsWritten(term)
    ensures !TermAccepted("7")
    ensures MemberOrdersAsWritten(orders, courses, n, memberId, OrderQuery(None, Some("7"), None)) == Ok([])
    ensures MemberOrders(orders, courses, n, memberId, OrderQuery(None, Some("7"), None)) == Err(BadCourseTerm)
  {
  }

  /** A member's order for a training course (term 1): asked for term "1",
      the listing as written is empty, as intended it holds the order. */
  lemma TermFilterAsWrittenListsNothing(orders: map<Id, Order>, courses: map<Id, Course>, n: nat, memberId: Id, k: Id)
    requires k < n && k in orders && orders[k].memberId == memberId
    requires orders[k].courseId in courses && courses[orders[k].courseId].info.courseTerm == 1
    ensures MemberOrdersAsWritten(orders, courses, n, memberId, OrderQuery(None, Some("1"), None)) == Ok([])
    ensures MemberOrders(orders, courses, n, memberId, OrderQuery(None, Some("1"), None)).Ok?
    ensures k in MemberOrders(orders, courses, n, memberId, OrderQuery(None, Some("1"), None)).value
  {
    var q := OrderQuery(None, Some("1"), None);
    assert TermCondition(q) == Ok(Some(1));
    assert OfTerm(courses, orders[k], Some(1));
  }

  // ------------------------------------------------------- updateMember

  /** The body of updateMember; None is an absent key. */
  datatype MemberPatch = MemberPatch(
    nickname: Option<string>, name: Option<string>, phone: Option<string>, photo: Option<string>,
    interests: Option<seq<string>>, gender: Option<string>, birthday: Option<string>, point: JsValue)

  /** The update document after the checks: a field is set only when the
      body carries a truthy value for it; point is always set. */
  datatype MemberUpdate = MemberUpdate(
    nickname: Option<string>, name: Option<string>, phone: Option<string>, photo: Option<string>,
    interests: Option<seq<string>>, gender: Option<string>, birthday: Option<int>, point: int)

  /** `Number.isInteger(point) && point >= 0`; an absent point fails too. */
  predicate PointOk(v: JsValue) {
    IsInteger(v) && v.x >= 0.0
  }

  function KeepFilled(t: Option<string>): Option<string> {
    if Filled(t) then t else None
  }

  /** The checks of updateMember in order, and the update document they
      produce. An array of interests is truthy even when empty. */
  function MemberUpdateOf(p: MemberPatch, parseDate: string -> Option<int>): (r: Result<MemberUpdate, MemberError>)
    ensures !PointOk(p.point) ==> r == Err(BadPoint)
    ensures PointOk(p.point) && Filled(p.gender) && p.gender.value !in Genders ==> r == Err(BadGender)
    ensures r.Ok? ==> PointOk(p.point) && r.value.point as real == p.point.x && r.value.point >= 0
    ensures r.Ok? ==> r.value.gender.Some? ==> r.value.gender.value in Genders
    ensures r.Ok? ==> (r.value.birthday.Some? <==> Filled(p.birthday))
    ensures r.Ok? && Filled(p.birthday) ==>
      parseDate(p.birthday.value).Some? && parseDate(p.birthday.value).value != 0
      && r.value.birthday == parseDate(p.birthday.value)
    ensures r == Err(BadBirthday) <==>
      PointOk(p.point) && !(Filled(p.gender) && p.gender.value !in Genders)
      && Filled(p.birthday) && (parseDate(p.birthday.value).None? || parseDate(p.birthday.value).value == 0)
    ensures r.Ok? ==> r.value.nickname == KeepFilled(p.nickname) && r.value.interests == p.interests
    ensures r.Ok? ==> r.value.name == KeepFilled(p.name) && r.value.phone == KeepFilled(p.phone)
    ensures r.Ok? ==> r.value.photo == KeepFilled(p.photo) && r.value.gender == KeepFilled(p.gender)
    ensures (&& PointOk(p.point) && !(Filled(p.gender) && p.gender.value !in Genders)
             && (Filled(p.birthday) ==> parseDate(p.birthday.value).Some? && parseDate(p.birthday.value).value != 0))
            ==> r.Ok?
  {
    if !PointOk(p.point) then Err(BadPoint)
    else if Filled(p.gender) && p.gender.value !in Genders then Err(BadGender)
    else if Filled(p.birthday) && (parseDate(p.birthday.value).None? || parseDate(p.birthday.value).value == 0) then
      Err(BadBirthday)
    else
      Ok(MemberUpdate(KeepFilled(p.nickname), KeepFilled(p.name), KeepFilled(p.phone), KeepFilled(p.photo),
                      p.interests, KeepFilled(p.gender),
                      if Filled(p.birthday) then parseDate(p.birthday.value) else None,
                      IntOf(p.point)))
  }

  /** The stored member after the update: the fields the document sets
      change; account, password, Google link and status never do. */
  function ApplyMemberUpdate(m: Member, u: MemberUpdate): (m': Member)
    ensures m'.account == m.account && m'.passwordHash == m.passwordHash
    ensures m'.googleId == m.googleId && m'.status == m.status
    ensures m'.point == u.point
    ensures u.nickname.None? ==> m'.nickname == m.nickname
    ensures u.nickname.Some? ==> m'.nickname == u.nickname
    ensures u.interests.None? ==> m'.interests == m.interests
    ensures u.interests.Some? ==> m'.interests == u.interests.value
    ensures u.gender.None? ==> m'.gender == m.gender
    ensures u.gender.Some? ==> m'.gender == u.gender.value
    ensures m'.name == (if u.name.Some? then u.name else m.name)
    ensures m'.phone == (if u.phone.Some? then u.phone else m.phone)
    ensures m'.photo == (if u.photo.Some? then u.photo else m.photo)
    ensures m'.birthday == (if u.birthday.Some? then u.birthday else m.birthday)
  {
    Member(m.account, m.passwordHash, m.googleId,
           if u.name.Some? then u.name else m.name,
           if u.nickname.Some? then u.nickname else m.nickname,
           if u.phone.Some? then u.phone else m.phone,
           u.gender.GetOr(m.gender),
           if u.birthday.Some? then u.birthday else m.birthday,
           if u.photo.Some? then u.photo else m.photo,
           m.status, u.point, u.interests.GetOr(m.interests))
  }

  /** The member schema's own constraints: gender from the enumeration,
      interests from the four choices, a point that is not negative. */
  predicate MemberWellFormed(m: Member) {
    m.gender in Genders && InterestsOk(m.interests) && m.point >= 0
  }

  /** An update that passed its checks and the interests validator keeps a
      well-formed member well-formed. */
  lemma UpdateKeepsMemberWellFormed(m: Member, p: MemberPatch, parseDate: string -> Option<int>)
    requires MemberWellFormed(m)
    requires MemberUpdateOf(p, parseDate).Ok?
    requires p.interests.Some? ==> InterestsOk(p.interests.value)
    ensures MemberWellFormed(ApplyMemberUpdate(m, MemberUpdateOf(p, parseDate).value))
  {
  }

  /** A member created by sign-up is well-formed. */
  lemma CreatedMemberWellFormed(account: string, passwordHash: string)
    requires CreateMember(account, passwordHash).Ok?
    ensures MemberWellFormed(CreateMember(account, passwordHash).value)
  {
  }

  /** updateMember. The handler's checks come first, then the update
      validators (interests), then the lookup of the member (404). */
  method UpdateMember(st: Store, memberId: Id, p: MemberPatch, parseDate: string -> Option<int>)
    returns (r: Result<Member, MemberError>)
    requires st.Valid()
    modifies st`members
    ensures st.Valid()
    ensures MemberUpdateOf(p, parseDate).Err? ==> r == Err(MemberUpdateOf(p, parseDate).error)
    ensures MemberUpdateOf(p, parseDate).Ok? && p.interests.Some? && !InterestsOk(p.interests.value) ==>
      r == Err(InvalidInterests(ValidationError({"interests"})))
    ensures MemberUpdateOf(p, parseDate).Ok? && (p.interests.Some? ==> InterestsOk(p.interests.value))
            && memberId !in old(st.members)
            ==> r == Err(MemberNotFound)
    ensures (&& MemberUpdateOf(p, parseDate).Ok? && (p.interests.Some? ==> InterestsOk(p.interests.value))
             && memberId in old(st.members)) ==> r.Ok?
    ensures r.Err? ==> st.members == old(st.members)
    ensures r.Ok? ==> && memberId in old(st.members) && MemberUpdateOf(p, parseDate).Ok?
                      && r.value == ApplyMemberUpdate(old(st.members)[memberId], MemberUpdateOf(p, parseDate).value)
                      && st.members == old(st.members)[memberId := r.value]
    ensures r.Ok? && MemberWellFormed(old(st.members)[memberId]) ==> MemberWellFormed(r.value)
  {
    var u := MemberUpdateOf(p, parseDate);
    if u.Err? {
      return Err(u.error);
    }
    if p.interests.Some? && !InterestsOk(p.interests.value) {
      return Err(InvalidInterests(ValidationError({"interests"})));
    }
    if memberId !in st.members {
      return Err(MemberNotFound);
    }
    var updated := ApplyMemberUpdate(st.members[memberId], u.value);
    if MemberWellFormed(st.members[memberId]) {
      UpdateKeepsMemberWellFormed(st.members[memberId], p, parseDate);
    }
    st.members := st.members[memberId := updated];
    r := Ok(updated);
  }
}

=== FILE: orders.dfy ===
/** controllers/orderController.js: a member reads one of their orders,
    places an order for a course session, and records the last five digits
    of the transfer account. */
module Orders {
  import opened Common
  import opened Schemas
  import opened Db

  datatype OrderError =
    | NoSuchOrder          // 400: no order with this id belongs to the member
    | MissingRequired      // 400: a required body field is falsy
    | VendorLookupFailed   // the id helper rejected the vendor id
    | VendorDisabled       // 400: the vendor's status is not 1
    | CourseLookupFailed
    | CourseUnlisted       // 400: the course is not listed
    | ItemLookupFailed
    | ItemUnlisted         // 400: the session is not listed
    | BadCount             // 400: count is not a positive integer
    | BadPrice             // 400
    | BadTotalPrice        // 400
    | BadCourseTime        // 400: courseTime does not parse as a date
    | CreateFailed(e: SchemaError)
  {
    function Code(): Option<nat> {
      match this
      case VendorLookupFailed => None
      case CourseLookupFailed => None
      case ItemLookupFailed => None
      case CreateFailed(_) => None
      case _ => Some(400)
    }
  }

  /** getOrder: the order is found only under its id and the caller's member id. */
  function GetOrder(orders: map<Id, Order>, memberId: Id, orderId: Id): (r: Result<Order, OrderError>)
    ensures r.Ok? <==> orderId in orders && orders[orderId].memberId == memberId
    ensures r.Ok? ==> r.value == orders[orderId]
    ensures r.Err? ==> r.error == NoSuchOrder && r.error.Code() == Some(400)
  {
    if orderId in orders && orders[orderId].memberId == memberId then Ok(orders[orderId])
    else Err(NoSuchOrder)
  }

  /** The body of newOrder. An id that is absent or empty is None; the three
      amounts are JSON values as sent. */
  datatype OrderBody = OrderBody(
    vendorId: Option<Id>, courseId: Option<Id>, courseItemId: Option<Id>,
    vendorName: Option<string>, courseItemName: Option<string>,
    count: JsValue, price: JsValue, totalPrice: JsValue,
    courseTime: Option<string>, note: Option<string>, location: Option<string>)

  /** The ten fields newOrder requires to be truthy; note is optional. */
  predicate RequiredPresent(b: OrderBody) {
    && b.vendorId.Some? && b.courseId.Some? && b.courseItemId.Some?
    && Filled(b.vendorName) && Filled(b.courseItemName)
    && Truthy(b.count) && Truthy(b.price) && Truthy(b.totalPrice)
    && Filled(b.courseTime) && Filled(b.location)
  }

  /** `Number.isInteger(v) && v > 0`. */
  predicate PositiveInteger(v: JsValue) {
    IsInteger(v) && v.x > 0.0
  }

  /** The course gate as intended: the course is listed (courseStatus 1). */
  predicate CourseListed(c: Course) {
    c.info.courseStatus == 1
  }

  /** The gate's date test: `Date.parse` gives a number, and that number is
      truthy (NaN and 0 both fail). parseDate returns None for NaN. */
  predicate DateOk(t: Option<int>) {
    t.Some? && t.value != 0
  }

  /** The vendor gate: the vendor exists and its status is 1. */
  predicate VendorActive(vendors: map<Id, Vendor>, b: OrderBody) {
    b.vendorId.Some? && b.vendorId.value in vendors && vendors[b.vendorId.value].status == Some(1)
  }

  /** The course gate as intended: the course exists and is listed. */
  predicate CourseOpen(courses: map<Id, Course>, b: OrderBody) {
    b.courseId.Some? && b.courseId.value in courses && CourseListed(courses[b.courseId.value])
  }

  /** The session gate: the session exists and its status is 1. */
  predicate ItemOpen(items: map<Id, CourseItem>, b: OrderBody) {
    b.courseItemId.Some? && b.courseItemId.value in items && items[b.courseItemId.value].status == 1
  }

  /** The document newOrder creates: the caller as member, the body's ids,
      names and amounts, the parsed courseTime and the note. The body's
      location is required but not stored. */
  function NewOrderInput(memberId: Id, b: OrderBody, time: int): OrderInput
    requires IsInteger(b.count) && IsInteger(b.price) && IsInteger(b.totalPrice)
  {
    OrderInput(Some(memberId), b.vendorId, b.courseId, b.courseItemId,
               b.vendorName, b.courseItemName,
               Some(IntOf(b.count)), Some(IntOf(b.price)), Some(IntOf(b.totalPrice)), Some(time),
               None, None, None, None, None, b.note)
  }

  /** newOrder's checks, in the handler's order, and the document it creates. */
  function ValidateNewOrder(vendors: map<Id, Vendor>, courses: map<Id, Course>, items: map<Id, CourseItem>,
                            memberId: Id, b: OrderBody, parseDate: string -> Option<int>)
    : (r: Result<Order, OrderError>)
    ensures !RequiredPresent(b) ==> r == Err(MissingRequired)
    ensures RequiredPresent(b) && b.vendorId.value !in vendors ==> r == Err(VendorLookupFailed)
    ensures RequiredPresent(b) && b.vendorId.value in vendors && vendors[b.vendorId.value].status != Some(1) ==>
      r == Err(VendorDisabled)
    ensures RequiredPresent(b) && VendorActive(vendors, b) && b.courseId.value !in courses ==>
      r == Err(CourseLookupFailed)
    ensures (&& RequiredPresent(b) && VendorActive(vendors, b) && b.courseId.value in courses
             && !CourseListed(courses[b.courseId.value])) ==> r == Err(CourseUnlisted)
    ensures (&& RequiredPresent(b) && VendorActive(vendors, b) && CourseOpen(courses, b)
             && b.courseItemId.value !in items) ==> r == Err(ItemLookupFailed)
    ensures (&& RequiredPresent(b) && VendorActive(vendors, b) && CourseOpen(courses, b)
             && b.courseItemId.value in items && items[b.courseItemId.value].status != 1) ==> r == Err(ItemUnlisted)
    ensures RequiredPresent(b) && VendorActive(vendors, b) && CourseOpen(courses, b) && ItemOpen(items, b) ==>
      && (!PositiveInteger(b.count) ==> r == Err(BadCount))
      && (PositiveInteger(b.count) && !PositiveInteger(b.price) ==> r == Err(BadPrice))
      && (PositiveInteger(b.count) && PositiveInteger(b.price) && !PositiveInteger(b.totalPrice) ==>
            r == Err(BadTotalPrice))
      && ((&& PositiveInteger(b.count) && PositiveInteger(b.price) && PositiveInteger(b.totalPrice)
           && !DateOk(parseDate(b.courseTime.value))) ==> r == Err(BadCourseTime))
    ensures r.Ok? <==>
      && RequiredPresent(b) && VendorActive(vendors, b) && CourseOpen(courses, b) && ItemOpen(items, b)
      && PositiveInteger(b.count) && PositiveInteger(b.price) && PositiveInteger(b.totalPrice)
      && DateOk(parseDate(b.courseTime.value))
    ensures r.Ok? ==>
      && r.value.memberId == memberId
      && r.value.vendorId == b.vendorId.value && r.value.courseId == b.courseId.value
      && r.value.courseItemId == b.courseItemId.value
      && r.value.vendorName == b.vendorName.value && r.value.courseItemName == b.courseItemName.value
      && r.value.count as real == b.count.x && r.value.price as real == b.price.x
      && r.value.totalPrice as real == b.totalPrice.x
      && r.value.courseTime == parseDate(b.courseTime.value).value
      && r.value.note == b.note && r.value.location.None?
      && r.value.paidStatus == 0 && r.value.paymentType == 1 && r.value.lastFiveDigits.None?
    ensures r.Err? ==> !r.error.CreateFailed?
  {
    if !RequiredPresent(b) then Err(MissingRequired)
    else if b.vendorId.value !in vendors then Err(VendorLookupFailed)
    else if vendors[b.vendorId.value].status != Some(1) then Err(VendorDisabled)
    else if b.courseId.value !in courses then Err(CourseLookupFailed)
    else if !CourseListed(courses[b.courseId.value]) then Err(CourseUnlisted)
    else if b.courseItemId.value !in items then Err(ItemLookupFailed)
    else if items[b.courseItemId.value].status != 1 then Err(ItemUnlisted)
    else if !PositiveInteger(b.count) then Err(BadCount)
    else if !PositiveInteger(b.price) then Err(BadPrice)
    else if !PositiveInteger(b.totalPrice) then Err(BadTotalPrice)
    else if !DateOk(parseDate(b.courseTime.value)) then Err(BadCourseTime)
    else
      var input := NewOrderInput(memberId, b, parseDate(b.courseTime.value).value);
      assert OrderFailures(input) == {};
      match CreateOrder(input)
      case Ok(o) => Ok(o)
      case Err(e) => Err(CreateFailed(e))
  }

  /** A count of 0 is falsy, so it is reported as a missing field, never as
      a count that is not positive. */
  lemma ZeroCountIsMissing(vendors: map<Id, Vendor>, courses: map<Id, Course>, items: map<Id, CourseItem>,
                           memberId: Id, b: OrderBody, parseDate: string -> Option<int>)
    requires b.count == Num(0.0)
    ensures ValidateNewOrder(vendors, courses, items, memberId, b, parseDate) == Err(MissingRequired)
  {
  }

  /** Nothing ties totalPrice to count * price, the session to the course,
      or the course to the vendor: an order for 2 seats at 100 with a total
      of 1 is accepted. */
  lemma TotalPriceUnchecked()
    ensures var v := Vendor("", None, "", [], None, [], map[], Some(1), None);
            var info := CourseInfo(0, [], 0, "c", 100, 1, 5, "", "", [], "");
            var vendors, courses, items := map[0 := v], map[1 := Course(7, info, [], [])],
                                           map[2 := CourseItem(9, 5, "c", None, None, 1)];
            var b := OrderBody(Some(0), Some(1), Some(2), Some("v"), Some("i"),
                               Num(2.0), Num(100.0), Num(1.0), Some("t"), None, Some("x"));
            var r := ValidateNewOrder(vendors, courses, items, 3, b, (s: string) => Some(1));
            r.Ok? && r.value.totalPrice != r.value.count * r.value.price
  {
  }

  /** newOrder: a validated order is stored under a fresh id; any failed
      check writes nothing. */
  method NewOrder(st: Store, memberId: Id, b: OrderBody, parseDate: string -> Option<int>)
    returns (r: Result<Id, OrderError>)
    requires st.Valid()
    modifies st`orders, st`nextId
    ensures st.Valid()
    ensures var v := ValidateNewOrder(st.vendors, st.courses, st.items, memberId, b, parseDate);
      && (v.Err? ==> r == Err(v.error) && st.orders == old(st.orders) && st.nextId == old(st.nextId))
      && (v.Ok? ==> r == Ok(old(st.nextId)) && old(st.nextId) !in old(st.orders)
                    && st.orders == old(st.orders)[old(st.nextId) := v.value] && st.nextId == old(st.nextId) + 1)
  {
    var v := ValidateNewOrder(st.vendors, st.courses, st.items, memberId, b, parseDate);
    if v.Err? {
      return Err(v.error);
    }
    var id := st.nextId;
    st.orders := st.orders[id := v.value];
    st.nextId := st.nextId + 1;
    r := Ok(id);
  }

  /** The order with lastFiveDigits replaced when a value is sent; an absent
      value leaves the order as it was. No other field changes. */
  function WithDigits(o: Order, digits: Option<string>): (o': Order)
    ensures o'.(lastFiveDigits := o.lastFiveDigits) == o
    ensures digits.Some? ==> o'.lastFiveDigits == digits
    ensures digits.None? ==> o' == o
  {
    if digits.Some? then o.(lastFiveDigits := digits) else o
  }

  /** updateOrder: only the member's own order, and only lastFiveDigits. */
  method UpdateOrder(st: Store, memberId: Id, orderId: Id, digits: Option<string>) returns (r: Result<Order, OrderError>)
    requires st.Valid()
    modifies st`orders
    ensures st.Valid()
    ensures r.Ok? <==> orderId in old(st.orders) && old(st.orders)[orderId].memberId == memberId
    ensures r.Err? ==> r.error == NoSuchOrder && st.orders == old(st.orders)
    ensures r.Ok? ==> && st.orders == old(st.orders)[orderId := WithDigits(old(st.orders)[orderId], digits)]
                      && r.value == st.orders[orderId]
  {
    var found := GetOrder(st.orders, memberId, orderId);
    if found.Err? {
      return Err(NoSuchOrder);
    }
    var updated := WithDigits(found.value, digits);
    st.orders := st.orders[orderId := updated];
    r := Ok(updated);
  }

  // ------------------------------------------------ the code as written

  /** The course gate as written selects the path `status`, which course
      documents do not have, so the selected value is always undefined. */
  function SelectedCourseStatus(c: Course): JsValue {
    Undefined
  }

  /** The course gate as written: pass only when the selected value is
      strictly 1. */
  predicate CourseGateAsWritten(c: Course) {
    SelectedCourseStatus(c) == Num(1.0)
  }

  /** As written, the gate turns away every course, listed or not. */
  lemma CourseGateAsWrittenRejectsAll(c: Course)
    ensures !CourseGateAsWritten(c)
    ensures CourseListed(c) ==> !CourseGateAsWritten(c)
  {
  }

  /** newOrder as written: the same checks, but the course gate is the one
      that turns every course away, so no order is ever created and the
      checks after the gate are never reached. On every input the gate does
      not decide, the outcome is the intended one. */
  function ValidateNewOrderAsWritten(vendors: map<Id, Vendor>, courses: map<Id, Course>, items: map<Id, CourseItem>,
                                     memberId: Id, b: OrderBody, parseDate: string -> Option<int>)
    : (r: Result<Order, OrderError>)
    ensures r.Err?
    ensures RequiredPresent(b) && VendorActive(vendors, b) && b.courseId.value in courses ==>
      r == Err(CourseUnlisted)
    ensures r != Err(CourseUnlisted) ==> r == ValidateNewOrder(vendors, courses, items, memberId, b, parseDate)
  {
    if !RequiredPresent(b) then Err(MissingRequired)
    else if b.vendorId.value !in vendors then Err(VendorLookupFailed)
    else if vendors[b.vendorId.value].status != Some(1) then Err(VendorDisabled)
    else if b.courseId.value !in courses then Err(CourseLookupFailed)
    else Err(CourseUnlisted)  // CourseGateAsWritten turns every course away
  }

  /** The document as written: the parsed date is passed under the key
      courseTimeDateObj, which is not a path of the order schema, so the
      document has no courseTime. */
  function NewOrderInputAsWritten(memberId: Id, b: OrderBody): OrderInput
    requires IsInteger(b.count) && IsInteger(b.price) && IsInteger(b.totalPrice)
  {
    NewOrderInput(memberId, b, 0).(courseTime := None)
  }

  /** As written, creating the order always fails validation on courseTime,
      whatever the body holds. */
  lemma CreateAsWrittenAlwaysFails(memberId: Id, b: OrderBody)
    requires IsInteger(b.count) && IsInteger(b.price) && IsInteger(b.totalPrice)
    ensures var r := CreateOrder(NewOrderInputAsWritten(memberId, b));
      r.Err? && "courseTime" in r.error.paths
  {
  }
}

=== FILE: platforms.dfy ===
/** controllers/platformController.js: the platform's public information,
    keyed by its English name: read it, create it, edit it. Email-shape
    checking is the parameter `isEmail`. */
module Platforms {
  import opened Common
  import opened Db

  datatype PlatformError =
    | MissingQuery     // 400: no platformNameEn in the query string
    | NotFound         // 404
    | MissingFields    // 400
    | BadEmail         // 400
    | NotAscii         // 400
    | NameTaken        // 400
  {
    function Code(): nat {
      match this
      case NotFound => 404
      case _ => 400
    }
  }

  /** No two platforms share an English name. */
  ghost predicate NamesUnique(ps: map<Id, Platform>) {
    forall a, b :: a in ps && b in ps && a != b ==> ps[a].nameEn != ps[b].nameEn
  }

  /** The platform that `findOne({ platformNameEn })` meets first. */
  function PlatformByName(platforms: map<Id, Platform>, n: nat, nameEn: string): (r: Option<Id>)
    ensures r.Some? ==> r.value < n && r.value in platforms && platforms[r.value].nameEn == nameEn
    ensures r.None? <==> forall k :: k < n && k in platforms ==> platforms[k].nameEn != nameEn
  {
    FindFirst(platforms, (p: Platform) => p.nameEn == nameEn, n)
  }

  /** getPlatform: the query must name a platform that exists. */
  function GetPlatform(platforms: map<Id, Platform>, n: nat, nameEn: Option<string>): (r: Result<Platform, PlatformError>)
    ensures !Filled(nameEn) ==> r == Err(MissingQuery)
    ensures Filled(nameEn) ==> (r == Err(NotFound) <==> forall k :: k < n && k in platforms ==> platforms[k].nameEn != nameEn.value)
    ensures r.Ok? ==> Filled(nameEn) && r.value.nameEn == nameEn.value
                      && exists k :: k < n && k in platforms && platforms[k] == r.value
  {
    if !Filled(nameEn) then Err(MissingQuery)
    else
      match PlatformByName(platforms, n, nameEn.value)
      case None => Err(NotFound)
      case Some(id) => Ok(platforms[id])
  }

  /** The seven fields of a platform body; None is an absent key. */
  datatype PlatformBody = PlatformBody(
    nameCn: Option<string>, nameEn: Option<string>, companyName: Option<string>, logo: Option<string>,
    email: Option<string>, info: Option<string>, copyright: Option<string>)

  predicate AllFilled(b: PlatformBody) {
    Filled(b.nameCn) && Filled(b.nameEn) && Filled(b.companyName) && Filled(b.logo)
    && Filled(b.email) && Filled(b.info) && Filled(b.copyright)
  }

  // -------------------------------------------------------- newPlatform

  /** newPlatform: every field is required, then the email's shape, then
      an ASCII English name that no platform uses yet. The platform schema
      requires the same seven strings, so the create itself cannot fail. */
  method NewPlatform(st: Store, b: PlatformBody, isEmail: string -> bool) returns (r: Result<Id, PlatformError>)
    requires st.Valid()
    modifies st`platforms, st`nextId
    ensures st.Valid()
    ensures !AllFilled(b) ==> r == Err(MissingFields)
    ensures AllFilled(b) ==> (r == Err(BadEmail) <==> !isEmail(b.email.value))
    ensures AllFilled(b) && isEmail(b.email.value) ==> (r == Err(NotAscii) <==> !IsAscii(b.nameEn.value))
    ensures AllFilled(b) && isEmail(b.email.value) && IsAscii(b.nameEn.value) ==>
      (r == Err(NameTaken) <==> exists k :: k in old(st.platforms) && old(st.platforms)[k].nameEn == b.nameEn.value)
    ensures (&& AllFilled(b) && isEmail(b.email.value) && IsAscii(b.nameEn.value)
             && forall k :: k in old(st.platforms) ==> old(st.platforms)[k].nameEn != b.nameEn.value) ==> r.Ok?
    ensures r.Err? ==> st.platforms == old(st.platforms) && st.nextId == old(st.nextId)
    ensures r.Ok? ==>
      && AllFilled(b) && r.value == old(st.nextId) && st.nextId == old(st.nextId) + 1
      && st.platforms == old(st.platforms)[r.value := Platform(b.nameCn.value, b.nameEn.value, b.companyName.value,
           b.logo.value, b.email.value, b.info.value, b.copyright.value)]
    ensures NamesUnique(old(st.platforms)) ==> NamesUnique(st.platforms)
  {
    if !AllFilled(b) {
      return Err(MissingFields);
    }
    if !isEmail(b.email.value) {
      return Err(BadEmail);
    }
    if !IsAscii(b.nameEn.value) {
      return Err(NotAscii);
    }
    if PlatformByName(st.platforms, st.nextId, b.nameEn.value).Some? {
      return Err(NameTaken);
    }
    var id := st.nextId;
    st.platforms := st.platforms[id := Platform(b.nameCn.value, b.nameEn.value, b.companyName.value,
                                                b.logo.value, b.email.value, b.info.value, b.copyright.value)];
    st.nextId := st.nextId + 1;
    r := Ok(id);
  }

  // ----------------------------------------------------- updatePlatform

  /** A field of the body enters the update only when it is truthy. */
  function Keep(f: Option<string>): Option<string> {
    if Filled(f) then f else None
  }

  /** updatePlatform's update fields: the truthy ones, the English name
      checked for ASCII before the email for its shape. */
  function UpdateFields(b: PlatformBody, isEmail: string -> bool): (r: Result<PlatformBody, PlatformError>)
    ensures r == Err(NotAscii) <==> Filled(b.nameEn) && !IsAscii(b.nameEn.value)
    ensures r == Err(BadEmail) <==> && !(Filled(b.nameEn) && !IsAscii(b.nameEn.value))
                                    && Filled(b.email) && !isEmail(b.email.value)
    ensures r.Ok? ==> && (r.value.nameEn.Some? ==> IsAscii(r.value.nameEn.value))
                      && (r.value.email.Some? ==> isEmail(r.value.email.value))
                      && r.value == PlatformBody(Keep(b.nameCn), Keep(b.nameEn), Keep(b.companyName), Keep(b.logo),
                                                 Keep(b.email), Keep(b.info), Keep(b.copyright))
  {
    if Filled(b.nameEn) && !IsAscii(b.nameEn.value) then Err(NotAscii)
    else if Filled(b.email) && !isEmail(b.email.value) then Err(BadEmail)
    else Ok(PlatformBody(Keep(b.nameCn), Keep(b.nameEn), Keep(b.companyName), Keep(b.logo),
                         Keep(b.email), Keep(b.info), Keep(b.copyright)))
  }

  /** A platform with the update fields written over it. */
  function Patched(p: Platform, u: PlatformBody): (q: Platform)
    ensures u == PlatformBody(None, None, None, None, None, None, None) ==> q == p
  {
    Platform(u.nameCn.GetOr(p.nameCn), u.nameEn.GetOr(p.nameEn), u.companyName.GetOr(p.companyName),
             u.logo.GetOr(p.logo), u.email.GetOr(p.email), u.info.GetOr(p.info), u.copyright.GetOr(p.copyright))
  }

  /** Writing the same update twice is writing it once, and each field the
      update carries is the field the platform then has. */
  lemma PatchedIdempotent(p: Platform, u: PlatformBody)
    ensures Patched(Patched(p, u), u) == Patched(p, u)
    ensures u.nameEn.Some? ==> Patched(p, u).nameEn == u.nameEn.value
    ensures u.email.Some? ==> Patched(p, u).email == u.email.value
    ensures u.nameEn.None? ==> Patched(p, u).nameEn == p.nameEn
  {
  }

  /** The outcome as intended: the found platform with the update fields
      written over it. */
  function UpdateOutcome(p: Platform, b: PlatformBody, isEmail: string -> bool): (r: Result<Platform, PlatformError>)
    ensures r.Err? <==> UpdateFields(b, isEmail).Err?
    ensures r.Ok? ==> (Filled(b.nameCn) ==> r.value.nameCn == b.nameCn.value)
                      && (!Filled(b.nameCn) ==> r.value.nameCn == p.nameCn)
                      && (Filled(b.nameEn) ==> r.value.nameEn == b.nameEn.value && IsAscii(r.value.nameEn))
                      && (!Filled(b.nameEn) ==> r.value.nameEn == p.nameEn)
                      && (Filled(b.email) ==> r.value.email == b.email.value && isEmail(r.value.email))
                      && (!Filled(b.email) ==> r.value.email == p.email)
    ensures r.Ok? ==> (Filled(b.companyName) ==> r.value.companyName == b.companyName.value)
                      && (!Filled(b.companyName) ==> r.value.companyName == p.companyName)
                      && (Filled(b.logo) ==> r.value.logo == b.logo.value)
                      && (!Filled(b.logo) ==> r.value.logo == p.logo)
                      && (Filled(b.info) ==> r.value.info == b.info.value)
                      && (!Filled(b.info) ==> r.value.info == p.info)
                      && (Filled(b.copyright) ==> r.value.copyright == b.copyright.value)
                      && (!Filled(b.copyright) ==> r.value.copyright == p.copyright)
  {
    match UpdateFields(b, isEmail)
    case Err(e) => Err(e)
    case Ok(u) => Ok(Patched(p, u))
  }

  /** The outcome as written: the checks run, but the record written back
      is the platform as found, so no field changes. */
  function UpdateOutcomeAsWritten(p: Platform, b: PlatformBody, isEmail: string -> bool)
    : (r: Result<Platform, PlatformError>)
    ensures r.Err? <==> UpdateFields(b, isEmail).Err?
    ensures r.Ok? ==> r.value == p
  {
    match UpdateFields(b, isEmail)
    case Err(e) => Err(e)
    case Ok(_) => Ok(p)
  }

  /** A new Chinese name that passes every check is lost as written and
      stored as intended. */
  lemma UpdateAsWrittenDropsName(isEmail: string -> bool)
    ensures var p := Platform("A", "ciao", "C", "L", "e", "I", "R");
            var b := PlatformBody(Some("B"), None, None, None, None, None, None);
            && UpdateOutcomeAsWritten(p, b, isEmail) == Ok(p)
            && UpdateOutcome(p, b, isEmail).Ok? && UpdateOutcome(p, b, isEmail).value.nameCn == "B"
  {
    var b := PlatformBody(Some("B"), None, None, None, None, None, None);
    assert UpdateFields(b, isEmail).Ok?;
  }

  /** updatePlatform's shared steps: the query must name a platform that
      exists; returns its id. */
  function FindForUpdate(platforms: map<Id, Platform>, n: nat, nameEn: Option<string>): (r: Result<Id, PlatformError>)
    ensures !Filled(nameEn) ==> r == Err(MissingQuery)
    ensures Filled(nameEn) ==> (r == Err(NotFound) <==> forall k :: k < n && k in platforms ==> platforms[k].nameEn != nameEn.value)
    ensures r.Ok? ==> Filled(nameEn) && PlatformByName(platforms, n, nameEn.value) == Some(r.value)
  {
    if !Filled(nameEn) then Err(MissingQuery)
    else
      match PlatformByName(platforms, n, nameEn.value)
      case None => Err(NotFound)
      case Some(id) => Ok(id)
  }

  /** updatePlatform as intended: the found platform takes the update
      fields; the response is the updated platform. */
  method UpdatePlatform(st: Store, query: Option<string>, b: PlatformBody, isEmail: string -> bool)
    returns (r: Result<Platform, PlatformError>)
    requires st.Valid()
    modifies st`platforms
    ensures st.Valid()
    ensures FindForUpdate(old(st.platforms), st.nextId, query).Err? ==>
      r == Err(FindForUpdate(old(st.platforms), st.nextId, query).error)
    ensures r.Err? ==> st.platforms == old(st.platforms)
    ensures FindForUpdate(old(st.platforms), st.nextId, query).Ok? ==>
      var id := FindForUpdate(old(st.platforms), st.nextId, query).value;
      && r == UpdateOutcome(old(st.platforms)[id], b, isEmail)
      && (r.Ok? ==> st.platforms == old(st.platforms)[id := r.value])
  {
    var found := FindForUpdate(st.platforms, st.nextId, query);
    if found.Err? {
      return Err(found.error);
    }
    r := UpdateOutcome(st.platforms[found.value], b, isEmail);
    if r.Ok? {
      st.platforms := st.platforms[found.value := r.value];
    }
  }

  /** updatePlatform as written: the same checks and lookups, and the
      stored platforms are left as they were. */
  method UpdatePlatformAsWritten(st: Store, query: Option<string>, b: PlatformBody, isEmail: string -> bool)
    returns (r: Result<Platform, PlatformError>)
    requires st.Valid()
    ensures FindForUpdate(st.platforms, st.nextId, query).Err? ==>
      r == Err(FindForUpdate(st.platforms, st.nextId, query).error)
    ensures FindForUpdate(st.platforms, st.nextId, query).Ok? ==>
      r == UpdateOutcomeAsWritten(st.platforms[FindForUpdate(st.platforms, st.nextId, query).value], b, isEmail)
  {
    var found := FindForUpdate(st.platforms, st.nextId, query);
    if found.Err? {
      return Err(found.error);
    }
    r := UpdateOutcomeAsWritten(st.platforms[found.value], b, isEmail);
  }
}

=== FILE: schemas.dfy ===
/** The document schemas of models/order.js, models/vendor.js,
    models/member.js and models/comment.js: record shapes, enumerations,
    defaults, required paths and the custom validators. A create is modelled
    as the ORM does it: fill defaults, then report every path that fails. */
module Schemas {
  import opened Common

  /** The ORM's validation error: the set of paths that failed. */
  datatype SchemaError = ValidationError(paths: set<string>)

  // ---------------------------------------------------------------- order

  const PaidStatuses: set<int> := {0, 1, 2, 3, 4, 5, 6}
  const DefaultPaidStatus: int := 0
  const PaymentTypes: set<int> := {1, 2}
  const DefaultPaymentType: int := 1

  /** A stored order. lastFiveDigits, cancelReason and note carry no
      constraint beyond being text. */
  datatype Order = Order(
    memberId: Id, vendorId: Id, courseId: Id, courseItemId: Id,
    vendorName: string, courseItemName: string,
    count: int, price: int, totalPrice: int, courseTime: int,
    location: Option<string>, paymentType: int, paidStatus: int,
    cancelReason: Option<string>, lastFiveDigits: Option<string>, note: Option<string>)

  /** What a create call hands the schema; None is a path left unset. */
  datatype OrderInput = OrderInput(
    memberId: Option<Id>, vendorId: Option<Id>, courseId: Option<Id>, courseItemId: Option<Id>,
    vendorName: Option<string>, courseItemName: Option<string>,
    count: Option<int>, price: Option<int>, totalPrice: Option<int>, courseTime: Option<int>,
    location: Option<string>, paymentType: Option<int>, paidStatus: Option<int>,
    cancelReason: Option<string>, lastFiveDigits: Option<string>, note: Option<string>)

  function OrderFailures(o: OrderInput): set<string> {
    (if o.memberId.None? then {"memberId"} else {})
    + (if o.vendorId.None? then {"vendorId"} else {})
    + (if o.courseId.None? then {"courseId"} else {})
    + (if o.courseItemId.None? then {"courseItemId"} else {})
    + (if !Filled(o.vendorName) then {"vendorName"} else {})
    + (if !Filled(o.courseItemName) then {"courseItemName"} else {})
    + (if o.count.None? then {"count"} else {})
    + (if o.price.None? then {"price"} else {})
    + (if o.totalPrice.None? then {"totalPrice"} else {})
    + (if o.courseTime.None? then {"courseTime"} else {})
    + (if o.paymentType.GetOr(DefaultPaymentType) !in PaymentTypes then {"paymentType"} else {})
    + (if o.paidStatus.GetOr(DefaultPaidStatus) !in PaidStatuses then {"paidStatus"} else {})
  }

  /** Creating an order document: the ten required paths must be set (text
      ones non-empty), paymentType defaults to 1 and paidStatus to 0, and
      both must lie in their enumerations. */
  function CreateOrder(o: OrderInput): (r: Result<Order, SchemaError>)
    ensures r.Ok? <==>
      && o.memberId.Some? && o.vendorId.Some? && o.courseId.Some? && o.courseItemId.Some?
      && Filled(o.vendorName) && Filled(o.courseItemName)
      && o.count.Some? && o.price.Some? && o.totalPrice.Some? && o.courseTime.Some?
      && o.paymentType.GetOr(1) in {1, 2}
      && o.paidStatus.GetOr(0) in {0, 1, 2, 3, 4, 5, 6}
    ensures r.Ok? ==> r.value.paymentType in {1, 2} && r.value.paidStatus in {0, 1, 2, 3, 4, 5, 6}
    ensures r.Ok? && o.paidStatus.None? ==> r.value.paidStatus == 0
    ensures r.Ok? && o.paymentType.None? ==> r.value.paymentType == 1
    ensures r.Ok? ==> (r.value.count == o.count.value && r.value.price == o.price.value
                       && r.value.totalPrice == o.totalPrice.value
                       && r.value.lastFiveDigits == o.lastFiveDigits && r.value.note == o.note
                       && r.value.cancelReason == o.cancelReason)
    ensures r.Err? ==> r.error.paths != {}
  {
    var failures := OrderFailures(o);
    if failures == {} then
      Ok(Order(o.memberId.value, o.vendorId.value, o.courseId.value, o.courseItemId.value,
               o.vendorName.value, o.courseItemName.value,
               o.count.value, o.price.value, o.totalPrice.value, o.courseTime.value,
               o.location, o.paymentType.GetOr(DefaultPaymentType), o.paidStatus.GetOr(DefaultPaidStatus),
               o.cancelReason, o.lastFiveDigits, o.note))
    else
      Err(ValidationError(failures))
  }

  // --------------------------------------------------------------- vendor

  const VendorStatuses: set<int> := {0, 1, 2}

  /** A stored vendor. `profile` holds the paths a vendor edits for itself
      (mobile, brandName, avatar, bank details, ...), keyed by path name. */
  datatype Vendor = Vendor(
    account: string, passwordHash: Option<string>, representative: string,
    reviewLinks: seq<string>, reviewBrief: Option<string>, reviewImages: seq<string>,
    profile: map<string, JsValue>, status: Option<int>, loginAt: Option<int>)

  /** `\w` of a JavaScript pattern without the u flag. */
  predicate IsWordChar(c: char) {
    IsAsciiLetter(c) || IsDigit(c) || c == '_'
  }

  /** `[\w-\.]`, the characters before the '@'. */
  predicate IsLocalChar(c: char) { IsWordChar(c) || c == '-' || c == '.' }

  /** `[\w-]`, the characters of one domain label. */
  predicate IsLabelChar(c: char) { IsWordChar(c) || c == '-' }

  /** Position of the first occurrence of c in s. */
  function IndexOf(s: string, c: char): (r: Option<nat>)
    ensures r.Some? ==> r.value < |s| && s[r.value] == c
    ensures r.Some? ==> forall i :: 0 <= i < r.value ==> s[i] != c
    ensures r.None? ==> forall i :: 0 <= i < |s| ==> s[i] != c
  {
    if |s| == 0 then None
    else if s[0] == c then Some(0)
    else match IndexOf(s[1..], c)
      case None => None
      case Some(i) => Some(i + 1)
  }

  predicate AllLocal(s: string) { forall i :: 0 <= i < |s| ==> IsLocalChar(s[i]) }

  predicate AllLabel(s: string) { forall i :: 0 <= i < |s| ==> IsLabelChar(s[i]) }

  /** `[\w-]{2,4}` at the end of the account. */
  predicate TopLabelOk(t: string) { 2 <= |t| <= 4 && AllLabel(t) }

  /** `([\w-]+\.)+[\w-]{2,4}`: one or more dot-terminated labels, then a
      final label of 2 to 4 characters. Labels hold no dot, so the first dot
      ends the first label. */
  predicate DomainOk(d: string)
    decreases |d|
  {
    match IndexOf(d, '.')
    case None => false
    case Some(i) =>
      i > 0 && AllLabel(d[..i]) && (TopLabelOk(d[i + 1..]) || DomainOk(d[i + 1..]))
  }

  /** The account validator /^([\w-\.]+@([\w-]+\.)+[\w-]{2,4})?$/. The whole
      group is optional, so "" passes. The local part holds no '@', so the
      first '@' separates it from the domain. */
  predicate AccountPatternOk(s: string) {
    s == "" ||
    match IndexOf(s, '@')
    case None => false
    case Some(i) => i > 0 && AllLocal(s[..i]) && DomainOk(s[i + 1..])
  }

  /** The mobile validator /^[0-9]+$/, written as the scan a matcher does. */
  function MobilePatternOk(s: string): (b: bool)
    ensures b <==> |s| > 0 && forall i :: 0 <= i < |s| ==> IsDigit(s[i])
  {
    |s| > 0 && IsDigit(s[0]) && (|s| == 1 || MobilePatternOk(s[1..]))
  }

  /** The reviewImages validator `v.length <= 5`. */
  predicate ReviewImagesOk(images: seq<string>) { |images| <= 5 }

  /** status is unset or one of 0 (under review), 1 (active), 2 (suspended). */
  predicate VendorStatusOk(status: Option<int>) {
    status.Some? ==> status.value in VendorStatuses
  }

  /** The vendor field validators: account pattern, mobile pattern when a
      mobile is stored, the image bound and the status enumeration. */
  predicate VendorFieldsOk(v: Vendor) {
    && AccountPatternOk(v.account)
    && ("mobile" in v.profile ==> v.profile["mobile"].Str? && MobilePatternOk(v.profile["mobile"].s))
    && ReviewImagesOk(v.reviewImages)
    && VendorStatusOk(v.status)
  }

  // --------------------------------------------------------------- member

  const Genders: set<string> := {"male", "female", "other"}
  const DefaultGender: string := "other"
  const InterestChoices: set<string> := {"工藝手作", "烹飪烘烤", "藝術人文", "生活品味"}
  const DefaultMemberStatus: int := 1
  const DefaultPoint: int := 0

  /** A stored member. The account is unique, enforced by the handlers that
      create members (see Auth.SignUp). */
  datatype Member = Member(
    account: string, passwordHash: string, googleId: Option<string>,
    name: Option<string>, nickname: Option<string>, phone: Option<string>,
    gender: string, birthday: Option<int>, photo: Option<string>,
    status: int, point: int, interests: seq<string>)

  /** The interests validator: every entry is one of the four choices. */
  predicate InterestsOk(interests: seq<string>) { AllIn(interests, InterestChoices) }

  /** Creating a member from an account and a password hash: both are
      required; gender, status, point and interests take their defaults. */
  function CreateMember(account: string, passwordHash: string): (r: Result<Member, SchemaError>)
    ensures r.Ok? <==> account != "" && passwordHash != ""
    ensures r.Ok? ==> && r.value.account == account && r.value.passwordHash == passwordHash
                      && r.value.gender == "other" && r.value.gender in Genders
                      && r.value.status == 1 && r.value.point == 0
                      && r.value.interests == [] && InterestsOk(r.value.interests)
                      && r.value.googleId.None?
  {
    var failures := (if account == "" then {"account"} else {})
                  + (if passwordHash == "" then {"password"} else {});
    if failures == {} then
      Ok(Member(account, passwordHash, None, None, None, None, DefaultGender, None, None,
                DefaultMemberStatus, DefaultPoint, []))
    else
      Err(ValidationError(failures))
  }

  // -------------------------------------------------------------- comment

  const CommentTags: set<string> := {"師生互動", "教學環境", "專業度", "其他"}

  datatype Comment = Comment(
    memberId: Id, courseId: Id, content: string,
    images: seq<string>, tags: seq<string>, rating: int, likes: int)

  datatype CommentInput = CommentInput(
    memberId: Option<Id>, courseId: Option<Id>, content: Option<string>,
    images: seq<string>, tags: seq<string>, rating: Option<int>, likes: Option<int>)

  predicate CommentImagesOk(images: seq<string>) { |images| <= 5 }

  predicate TagsOk(tags: seq<string>) { AllIn(tags, CommentTags) }

  function CommentFailures(c: CommentInput): set<string> {
    (if c.memberId.None? then {"memberId"} else {})
    + (if c.courseId.None? then {"courseId"} else {})
    + (if !Filled(c.content) then {"content"} else {})
    + (if !CommentImagesOk(c.images) then {"images"} else {})
    + (if !TagsOk(c.tags) then {"tags"} else {})
  }

  /** Creating a comment: memberId, courseId and content are required, at
      most five images, every tag from the four-value set; rating defaults
      to 1 and likes to 0. */
  function CreateComment(c: CommentInput): (r: Result<Comment, SchemaError>)
    ensures r.Ok? <==>
      && c.memberId.Some? && c.courseId.Some? && Filled(c.content)
      && |c.images| <= 5
      && forall i :: 0 <= i < |c.tags| ==> c.tags[i] in {"師生互動", "教學環境", "專業度", "其他"}
    ensures r.Ok? ==> (r.value.rating == (if c.rating.Some? then c.rating.value else 1)
                       && r.value.likes == (if c.likes.Some? then c.likes.value else 0)
                       && r.value.images == c.images && r.value.tags == c.tags)
    ensures r.Err? && |c.images| > 5 ==> "images" in r.error.paths
  {
    var failures := CommentFailures(c);
    if failures == {} then
      Ok(Comment(c.memberId.value, c.courseId.value, c.content.value, c.images, c.tags,
                 c.rating.GetOr(1), c.likes.GetOr(0)))
    else
      Err(ValidationError(failures))
  }

  // --------------------------------------------------------------- lemmas

  /** A non-empty account that passes the pattern holds exactly one '@',
      with at least one character on each side. */
  lemma AccountHasOneAt(s: string)
    requires AccountPatternOk(s) && s != ""
    ensures exists i :: 0 < i < |s| - 1 && s[i] == '@' && forall j :: 0 <= j < |s| && j != i ==> s[j] != '@'
  {
    var i := IndexOf(s, '@').value;
    var d := s[i + 1..];
    assert DomainOk(d);
    DomainHasNoAt(d);
    assert |d| > 0;
    forall j | 0 <= j < |s| && j != i ensures s[j] != '@' {
      if j < i {
      } else {
        assert s[j] == d[j - i - 1];
      }
    }
  }

  /** A domain that passes the pattern is non-empty and holds no '@'. */
  lemma {:induction false} DomainHasNoAt(d: string)
    requires DomainOk(d)
    ensures |d| > 0 && forall j :: 0 <= j < |d| ==> d[j] != '@'
    decreases |d|
  {
    var i := IndexOf(d, '.').value;
    var rest := d[i + 1..];
    if !TopLabelOk(rest) {
      DomainHasNoAt(rest);
    }
    forall j | 0 <= j < |d| ensures d[j] != '@' {
      if j < i {
        assert d[j] == d[..i][j];
      } else if j > i {
        assert d[j] == rest[j - i - 1];
      }
    }
  }

  /** An account with no dot after the '@' fails the pattern: "a@bc". */
  lemma AccountWithoutDotRejected()
    ensures !AccountPatternOk("a@bc")
  {
    assert IndexOf("a@bc", '@') == Some(1);
    assert "a@bc"[2..] == "bc";
    assert IndexOf("bc", '.') == None;
  }

  /** A last label of one character fails the pattern: "a@b.c". */
  lemma OneCharTopLabelRejected()
    ensures !AccountPatternOk("a@b.c")
  {
    assert IndexOf("a@b.c", '@') == Some(1);
    assert "a@b.c"[2..] == "b.c";
    assert IndexOf("b.c", '.') == Some(1);
    assert "b.c"[2..] == "c";
    assert IndexOf("c", '.') == None;
  }

  /** A last label of five characters fails the pattern: "a@b.cdefg". */
  lemma FiveCharTopLabelRejected()
    ensures !AccountPatternOk("a@b.cdefg")
  {
    var top := "cdefg";
    assert !DomainOk(top) by {
      assert forall i :: 0 <= i < |top| ==> top[i] != '.';
    }
    assert !TopLabelOk(top);
    assert IndexOf("b.cdefg", '.') == Some(1);
    assert "b.cdefg"[2..] == top;
    assert IndexOf("a@b.cdefg", '@') == Some(1);
    assert "a@b.cdefg"[2..] == "b.cdefg";
  }

  /** "a@b.cc" passes the account pattern. */
  lemma SampleAccountAccepted()
    ensures AccountPatternOk("a@b.cc")
  {
    assert IndexOf("a@b.cc", '@') == Some(1);
    assert "a@b.cc"[..1] == "a";
    assert "a@b.cc"[2..] == "b.cc";
    assert IndexOf("b.cc", '.') == Some(1);
    assert "b.cc"[..1] == "b";
    assert "b.cc"[2..] == "cc";
    assert TopLabelOk("cc");
  }
}

=== FILE: store.dfy ===
/** The database: one map from id to document per collection, and the
    counter that hands out ids. The course, course-item, teacher,
    collection and platform documents are defined here; the documents whose
    schema files carry validators are in module Schemas. */
module Db {
  import opened Common
  import opened Schemas

  /** The fields a vendor fills in for a course (the eleven paths the course
      handlers require to be non-empty). Numbers use the handlers' encoding:
      courseStatus 0 unlisted, 1 listed, 2 deleted; courseTerm 0 single
      session, 1 training course. */
  datatype CourseInfo = CourseInfo(
    teacherId: Id, courseType: seq<string>, courseTerm: int, courseName: string,
    coursePrice: int, courseStatus: int, courseCapacity: int, courseSummary: string,
    courseAddress: string, courseImage: seq<string>, courseContent: string)

  /** A course: its owner, its fields, the ordered ids of its items and its
      enrolled students. */
  datatype Course = Course(vendorId: Id, info: CourseInfo, itemIds: seq<Id>, students: seq<Id>)

  /** One bookable session of a course; status 0 unlisted, 1 listed, 2 deleted. */
  datatype CourseItem = CourseItem(
    courseId: Id, capacity: int, mainCourseName: string,
    courseDate: Option<string>, itemName: Option<string>, status: int)

  /** A teacher; status 2 marks a soft-deleted teacher. order is the rank the
      vendor gives for listing; courseIds are the courses it teaches. */
  datatype Teacher = Teacher(
    vendorId: Id, name: Option<string>, description: Option<string>, photo: Option<string>,
    intro: Option<string>, socialMediaInfo: Option<string>, order: Option<int>,
    status: int, courseIds: seq<Id>)

  /** A member's favourite course. */
  datatype Collection = Collection(memberId: Id, courseId: Id, status: int)

  datatype Platform = Platform(
    nameCn: string, nameEn: string, companyName: string, logo: string,
    email: string, info: string, copyright: string)

  class Store {
    var vendors: map<Id, Vendor>
    var members: map<Id, Member>
    var teachers: map<Id, Teacher>
    var courses: map<Id, Course>
    var items: map<Id, CourseItem>
    var orders: map<Id, Order>
    var collections: map<Id, Collection>
    var platforms: map<Id, Platform>
    /** The next id to hand out; every stored id is below it. */
    var nextId: nat

    ghost predicate Valid()
      reads this
    {
      && (forall k :: k in vendors ==> k < nextId)
      && (forall k :: k in members ==> k < nextId)
      && (forall k :: k in teachers ==> k < nextId)
      && (forall k :: k in courses ==> k < nextId)
      && (forall k :: k in items ==> k < nextId)
      && (forall k :: k in orders ==> k < nextId)
      && (forall k :: k in collections ==> k < nextId)
      && (forall k :: k in platforms ==> k < nextId)
    }

    constructor ()
      ensures Valid() && nextId == 0
      ensures vendors == map[] && members == map[] && teachers == map[] && courses == map[]
      ensures items == map[] && orders == map[] && collections == map[] && platforms == map[]
    {
      vendors, members, teachers, courses := map[], map[], map[], map[];
      items, orders, collections, platforms := map[], map[], map[], map[];
      nextId := 0;
    }
  }
}

=== FILE: teachers.dfy ===
/** controllers/teacherController.js: the teacher listings for the
    platform and for a vendor, one teacher, and creating, editing,
    soft-deleting and deleting teachers. */
module Teachers {
  import opened Common
  import opened Db

  datatype TeacherError =
    | WrongAdminPassword   // 401
    | TeacherLookupFailed  // the id helper rejected the teacher id
    | VendorLookupFailed   // the id helper rejected the vendor id
    | EmptyField           // 400
  {
    function Code(): Option<nat> {
      match this
      case WrongAdminPassword => Some(401)
      case EmptyField => Some(400)
      case _ => None
    }
  }

  // ---------------------------------------------------- ordering keys

  /** A sort key compared field by field. */
  datatype Key = Key(a: int, b: int, c: int)

  predicate KeyLe(x: Key, y: Key) {
    x.a < y.a || (x.a == y.a && (x.b < y.b || (x.b == y.b && x.c <= y.c)))
  }

  predicate SortedByKey(s: seq<Id>, key: Id -> Key) {
    forall i, j :: 0 <= i < j < |s| ==> KeyLe(key(s[i]), key(s[j]))
  }

  predicate Distinct(s: seq<Id>) {
    forall i, j :: 0 <= i < j < |s| ==> s[i] != s[j]
  }

  /** Inserts x into a list before the first element it does not follow. */
  function InsertByKey(x: Id, xs: seq<Id>, key: Id -> Key): (r: seq<Id>)
    ensures forall y :: y in r <==> y == x || y in xs
    ensures multiset(r) == multiset(xs) + multiset{x}
  {
    if xs == [] then [x]
    else if KeyLe(key(x), key(xs[0])) then [x] + xs
    else
      assert xs == [xs[0]] + xs[1..];
      [xs[0]] + InsertByKey(x, xs[1..], key)
  }

  /** Inserting into a sorted list keeps it sorted. */
  lemma {:induction false} InsertSorted(x: Id, xs: seq<Id>, key: Id -> Key)
    requires SortedByKey(xs, key)
    ensures SortedByKey(InsertByKey(x, xs, key), key)
  {
    if xs != [] && !KeyLe(key(x), key(xs[0])) {
      var rest := InsertByKey(x, xs[1..], key);
      InsertSorted(x, xs[1..], key);
      forall j | 0 <= j < |rest| ensures KeyLe(key(xs[0]), key(rest[j])) {
        if rest[j] != x {
          assert rest[j] in xs[1..];
          var m :| 0 <= m < |xs[1..]| && xs[1..][m] == rest[j];
          assert xs[m + 1] == rest[j];
        }
      }
    }
  }

  /** Inserting an element not in a list without repeats gives a list without repeats. */
  lemma {:induction false} InsertDistinct(x: Id, xs: seq<Id>, key: Id -> Key)
    requires Distinct(xs) && x !in xs
    ensures Distinct(InsertByKey(x, xs, key))
  {
    if xs != [] && !KeyLe(key(x), key(xs[0])) {
      InsertDistinct(x, xs[1..], key);
      assert xs[0] !in xs[1..];
    }
  }

  /** The list ordered by key, as the database's sort returns it. */
  function SortByKey(xs: seq<Id>, key: Id -> Key): (r: seq<Id>)
    ensures SortedByKey(r, key)
    ensures forall y :: y in r <==> y in xs
    ensures multiset(r) == multiset(xs)
    ensures |r| == |xs|
    ensures Distinct(xs) ==> Distinct(r)
  {
    if xs == [] then []
    else
      assert xs == [xs[0]] + xs[1..];
      var rest := SortByKey(xs[1..], key);
      InsertSorted(xs[0], rest, key);
      if Distinct(xs) then
        assert xs[0] !in xs[1..];
        InsertDistinct(xs[0], rest, key);
        InsertByKey(xs[0], rest, key)
      else InsertByKey(xs[0], rest, key)
  }

  // ------------------------------------------------- getAdminTeachers

  datatype TeacherQuery = TeacherQuery(
    order: Option<string>, createdAt: Option<string>, keyword: Option<string>, courseTerm: Option<string>)

  /** The sort of the listing: by order (ascending unless "ORDER_DESC"; an
      unset order comes first when ascending), then by creation (newest
      first unless "CREATED_AT_ASC"). */
  function TeacherKey(teachers: map<Id, Teacher>, q: TeacherQuery, id: Id): Key {
    var sgn := if q.order == Some("ORDER_DESC") then -1 else 1;
    var created := if q.createdAt == Some("CREATED_AT_ASC") then id as int else -(id as int);
    if id !in teachers then Key(0, 0, created)
    else
      var o := teachers[id].order;
      Key(sgn * (if o.Some? then 1 else 0), sgn * o.GetOr(0), created)
  }

  /** The course-term condition: none, a term, or NaN, which no course meets. */
  datatype TermCond = AnyTerm | Term(t: int) | NoTerm

  /** `Number(courseTerm)` for a parameter that is not "". */
  function NumberOf(s: string): TermCond {
    match ParseDecimal(s)
    case Some(v) => Term(v)
    case None => NoTerm
  }

  /** The condition as intended: an absent or empty parameter sets none. */
  function TermFilter(courseTerm: Option<string>): (c: TermCond)
    ensures courseTerm.None? || courseTerm == Some("") ==> c == AnyTerm
  {
    if courseTerm.None? || courseTerm == Some("") then AnyTerm else NumberOf(courseTerm.value)
  }

  /** The condition as written: `courseTerm !== ""` also holds for an absent
      parameter, whose Number is NaN. */
  function TermFilterAsWritten(courseTerm: Option<string>): (c: TermCond)
    ensures courseTerm.None? ==> c == NoTerm
  {
    if courseTerm == Some("") then AnyTerm
    else if courseTerm.None? then NoTerm
    else NumberOf(courseTerm.value)
  }

  /** Whether a teacher teaches a stored course meeting the condition. */
  predicate TeachesTerm(courses: map<Id, Course>, t: Teacher, c: TermCond) {
    match c
    case AnyTerm => true
    case NoTerm => false
    case Term(v) => exists i :: 0 <= i < |t.courseIds| && t.courseIds[i] in courses
                                && courses[t.courseIds[i]].info.courseTerm == v
  }

  /** The query's condition on one teacher: the vendor's, not deleted, a
      name matching a truthy keyword, and the term condition met. */
  predicate Listed(courses: map<Id, Course>, vendorId: Id, keyword: Option<string>,
                   matches: (string, string) -> bool, term: TermCond, t: Teacher)
  {
    && t.vendorId == vendorId && t.status in {0, 1}
    && (Filled(keyword) ==> t.name.Some? && matches(keyword.value, t.name.value))
    && TeachesTerm(courses, t, term)
  }

  /** The teachers that meet the query's condition, each once, in the
      listing's order. */
  function ListTeachers(teachers: map<Id, Teacher>, courses: map<Id, Course>, n: nat, vendorId: Id,
                        q: TeacherQuery, matches: (string, string) -> bool, term: TermCond)
    : (r: seq<Id>)
    ensures forall i :: 0 <= i < |r| ==>
      r[i] < n && r[i] in teachers && Listed(courses, vendorId, q.keyword, matches, term, teachers[r[i]])
    ensures forall k :: k < n && k in teachers && Listed(courses, vendorId, q.keyword, matches, term, teachers[k]) ==> k in r
    ensures forall i, j :: 0 <= i < j < |r| ==> KeyLe(TeacherKey(teachers, q, r[i]), TeacherKey(teachers, q, r[j]))
    ensures Distinct(r)
    ensures term == NoTerm ==> r == []
  {
    var ids := Select(teachers, (t: Teacher) => Listed(courses, vendorId, q.keyword, matches, term, t), n);
    assert |ids| > 0 ==> ids[0] in teachers && Listed(courses, vendorId, q.keyword, matches, term, teachers[ids[0]]);
    var r := SortTeachers(teachers, q, ids);
    assert forall i :: 0 <= i < |r| ==> r[i] in ids;
    r
  }

  /** The ids in the listing's order. */
  function SortTeachers(teachers: map<Id, Teacher>, q: TeacherQuery, ids: seq<Id>): (r: seq<Id>)
    ensures forall y :: y in r <==> y in ids
    ensures |r| == |ids|
    ensures Distinct(ids) ==> Distinct(r)
    ensures forall i, j :: 0 <= i < j < |r| ==> KeyLe(TeacherKey(teachers, q, r[i]), TeacherKey(teachers, q, r[j]))
  {
    var key := (id: Id) => TeacherKey(teachers, q, id);
    var r := SortByKey(ids, key);
    assert forall i :: 0 <= i < |r| ==> key(r[i]) == TeacherKey(teachers, q, r[i]);
    r
  }

  /** getAdminTeachers, with the term condition as intended. */
  function AdminTeachers(teachers: map<Id, Teacher>, courses: map<Id, Course>, n: nat, vendorId: Id,
                         q: TeacherQuery, matches: (string, string) -> bool): (r: seq<Id>)
    ensures q.courseTerm.None? && !Filled(q.keyword) ==>
      forall k :: k < n && k in teachers && teachers[k].vendorId == vendorId && teachers[k].status in {0, 1} ==> k in r
    ensures forall i :: 0 <= i < |r| ==> r[i] in teachers && teachers[r[i]].vendorId == vendorId
                                         && teachers[r[i]].status != 2
  {
    ListTeachers(teachers, courses, n, vendorId, q, matches, TermFilter(q.courseTerm))
  }

  /** getAdminTeachers as written: with no courseTerm parameter the list is
      always empty. */
  function AdminTeachersAsWritten(teachers: map<Id, Teacher>, courses: map<Id, Course>, n: nat, vendorId: Id,
                                  q: TeacherQuery, matches: (string, string) -> bool): (r: seq<Id>)
    ensures q.courseTerm.None? ==> r == []
  {
    ListTeachers(teachers, courses, n, vendorId, q, matches, TermFilterAsWritten(q.courseTerm))
  }

  /** A vendor with one active teacher and no courseTerm parameter: the
      listing as written is empty, as intended it holds the teacher. */
  lemma TeacherListingWithoutTerm(matches: (string, string) -> bool)
    ensures var t := Teacher(5, Some("Lin"), None, None, None, None, Some(1), 1, []);
            var q := TeacherQuery(None, None, None, None);
            && AdminTeachersAsWritten(map[0 := t], map[], 1, 5, q, matches) == []
            && AdminTeachers(map[0 := t], map[], 1, 5, q, matches) == [0]
  {
    var t := Teacher(5, Some("Lin"), None, None, None, None, Some(1), 1, []);
    var q := TeacherQuery(None, None, None, None);
    var r := AdminTeachers(map[0 := t], map[], 1, 5, q, matches);
    assert 0 in r;
    assert forall i :: 0 <= i < |r| ==> r[i] == 0;
  }

  // --------------------------------------------- the other operations

  /** getManageTeachers: every teacher, behind the administrator gate. */
  function ManageTeachers(teachers: map<Id, Teacher>, n: nat, given: Option<string>, env: Option<string>)
    : (r: Result<seq<Id>, TeacherError>)
    ensures r.Ok? <==> AdminPasswordOk(given, env)
    ensures r.Ok? ==> forall k :: k < n && k in teachers ==> k in r.value
    ensures r.Ok? ==> forall i :: 0 <= i < |r.value| ==> r.value[i] in teachers
  {
    if !AdminPasswordOk(given, env) then Err(WrongAdminPassword)
    else Ok(Select(teachers, (t: Teacher) => true, n))
  }

  /** getTeacher and getAdminTeacher: a stored teacher, whatever its status. */
  function GetTeacher(teachers: map<Id, Teacher>, id: Id): (r: Result<Teacher, TeacherError>)
    ensures r.Ok? <==> id in teachers
    ensures r.Ok? ==> r.value == teachers[id]
    ensures id in teachers && teachers[id].status == 2 ==> r.Ok?
  {
    if id in teachers then Ok(teachers[id]) else Err(TeacherLookupFailed)
  }

  /** The fields of a teacher body; None is an absent key. courseIds is the
      body's `courseId` list, which creation ignores and an edit writes. */
  datatype TeacherPayload = TeacherPayload(
    vendorId: Option<Id>, name: Option<string>, description: Option<string>, photo: Option<string>,
    intro: Option<string>, socialMediaInfo: Option<string>, order: Option<int>, status: Option<int>,
    courseIds: Option<seq<Id>>)

  /** newTeacher: the vendor id of the body must name a vendor, then vendorId,
      name and order must be non-empty (the helper's verdict). The teacher
      starts with the teacher schema's default status, given as
      initialStatus, and no courses. */
  method NewTeacher(st: Store, data: TeacherPayload, fieldsFilled: bool, initialStatus: int)
    returns (r: Result<Id, TeacherError>)
    requires st.Valid()
    modifies st`teachers, st`nextId
    ensures st.Valid()
    ensures data.vendorId.None? || data.vendorId.value !in st.vendors ==> r == Err(VendorLookupFailed)
    ensures data.vendorId.Some? && data.vendorId.value in st.vendors && !fieldsFilled ==> r == Err(EmptyField)
    ensures data.vendorId.Some? && data.vendorId.value in st.vendors && fieldsFilled ==> r.Ok?
    ensures r.Err? ==> st.teachers == old(st.teachers) && st.nextId == old(st.nextId)
    ensures r.Ok? ==> && data.vendorId.Some? && data.vendorId.value in st.vendors && fieldsFilled
                      && r.value == old(st.nextId) && st.nextId == old(st.nextId) + 1
                      && st.teachers == old(st.teachers)[r.value := Teacher(data.vendorId.value, data.name, data.description,
                           data.photo, data.intro, data.socialMediaInfo, data.order, initialStatus, [])]
  {
    if data.vendorId.None? || data.vendorId.value !in st.vendors {
      return Err(VendorLookupFailed);
    }
    if !fieldsFilled {
      return Err(EmptyField);
    }
    var id := st.nextId;
    st.teachers := st.teachers[id := Teacher(data.vendorId.value, data.name, data.description,
                                             data.photo, data.intro, data.socialMediaInfo, data.order, initialStatus, [])];
    st.nextId := st.nextId + 1;
    r := Ok(id);
  }

  /** deactivateTeacher: status 2, nothing else. */
  method DeactivateTeacher(st: Store, id: Id) returns (r: Result<Teacher, TeacherError>)
    requires st.Valid()
    modifies st`teachers
    ensures st.Valid()
    ensures r.Ok? <==> id in old(st.teachers)
    ensures r.Err? ==> st.teachers == old(st.teachers)
    ensures r.Ok? ==> && r.value == old(st.teachers)[id].(status := 2)
                      && st.teachers == old(st.teachers)[id := r.value]
  {
    if id !in st.teachers {
      return Err(TeacherLookupFailed);
    }
    var t := st.teachers[id].(status := 2);
    st.teachers := st.teachers[id := t];
    r := Ok(t);
  }

  /** A soft-deleted teacher drops out of the vendor's listing and out of
      every later listing until its status is changed again. */
  lemma DeactivatedTeacherNotListed(teachers: map<Id, Teacher>, courses: map<Id, Course>, n: nat, vendorId: Id,
                                    q: TeacherQuery, matches: (string, string) -> bool, id: Id)
    requires id in teachers
    ensures id !in AdminTeachers(teachers[id := teachers[id].(status := 2)], courses, n, vendorId, q, matches)
  {
    var t2 := teachers[id := teachers[id].(status := 2)];
    var r := AdminTeachers(t2, courses, n, vendorId, q, matches);
    assert forall i :: 0 <= i < |r| ==> r[i] != id;
  }

  /** The teacher after `findByIdAndUpdate(id, data)`: each field the body
      carries overwrites, the course list, the owner and the status
      included; a field the body lacks keeps its value. */
  function ApplyTeacherPatch(t: Teacher, p: TeacherPayload): (t': Teacher)
    ensures t'.vendorId == (if p.vendorId.Some? then p.vendorId.value else t.vendorId)
    ensures t'.name == (if p.name.Some? then p.name else t.name)
    ensures t'.description == (if p.description.Some? then p.description else t.description)
    ensures t'.photo == (if p.photo.Some? then p.photo else t.photo)
    ensures t'.intro == (if p.intro.Some? then p.intro else t.intro)
    ensures t'.socialMediaInfo == (if p.socialMediaInfo.Some? then p.socialMediaInfo else t.socialMediaInfo)
    ensures t'.order == (if p.order.Some? then p.order else t.order)
    ensures t'.status == (if p.status.Some? then p.status.value else t.status)
    ensures t'.courseIds == (if p.courseIds.Some? then p.courseIds.value else t.courseIds)
    ensures p == TeacherPayload(None, None, None, None, None, None, None, None, None) ==> t' == t
  {
    Teacher(p.vendorId.GetOr(t.vendorId),
            if p.name.Some? then p.name else t.name,
            if p.description.Some? then p.description else t.description,
            if p.photo.Some? then p.photo else t.photo,
            if p.intro.Some? then p.intro else t.intro,
            if p.socialMediaInfo.Some? then p.socialMediaInfo else t.socialMediaInfo,
            if p.order.Some? then p.order else t.order,
            p.status.GetOr(t.status),
            p.courseIds.GetOr(t.courseIds))
  }

  /** Applying the same body twice is applying it once. */
  lemma TeacherPatchIdempotent(t: Teacher, p: TeacherPayload)
    ensures ApplyTeacherPatch(ApplyTeacherPatch(t, p), p) == ApplyTeacherPatch(t, p)
  {
  }

  /** An edit whose body carries status 2 soft-deletes the teacher: it
      leaves every listing, as deactivateTeacher would. */
  lemma PatchToStatusTwoUnlists(teachers: map<Id, Teacher>, courses: map<Id, Course>, n: nat, vendorId: Id,
                                q: TeacherQuery, matches: (string, string) -> bool, id: Id, p: TeacherPayload)
    requires id in teachers && p.status == Some(2)
    ensures id !in AdminTeachers(teachers[id := ApplyTeacherPatch(teachers[id], p)], courses, n, vendorId, q, matches)
  {
    var t2 := teachers[id := ApplyTeacherPatch(teachers[id], p)];
    var r := AdminTeachers(t2, courses, n, vendorId, q, matches);
    assert forall i :: 0 <= i < |r| ==> r[i] != id;
  }

  /** updateTeacher: lookup, then name and order must be non-empty. */
  method UpdateTeacher(st: Store, id: Id, data: TeacherPayload, fieldsFilled: bool) returns (r: Result<Teacher, TeacherError>)
    requires st.Valid()
    modifies st`teachers
    ensures st.Valid()
    ensures id !in old(st.teachers) ==> r == Err(TeacherLookupFailed)
    ensures id in old(st.teachers) && !fieldsFilled ==> r == Err(EmptyField)
    ensures id in old(st.teachers) && fieldsFilled ==> r.Ok?
    ensures r.Err? ==> st.teachers == old(st.teachers)
    ensures r.Ok? ==> && id in old(st.teachers) && fieldsFilled
                      && r.value == ApplyTeacherPatch(old(st.teachers)[id], data)
                      && st.teachers == old(st.teachers)[id := r.value]
  {
    if id !in st.teachers {
      return Err(TeacherLookupFailed);
    }
    if !fieldsFilled {
      return Err(EmptyField);
    }
    var t := ApplyTeacherPatch(st.teachers[id], data);
    st.teachers := st.teachers[id := t];
    r := Ok(t);
  }

  /** deleteTeacherManage: behind the administrator gate, the teacher is
      removed for good. Its courses keep their teacher id. */
  method DeleteTeacherManage(st: Store, id: Id, given: Option<string>, env: Option<string>)
    returns (r: Result<Teacher, TeacherError>)
    requires st.Valid()
    modifies st`teachers
    ensures st.Valid()
    ensures !AdminPasswordOk(given, env) ==> r == Err(WrongAdminPassword)
    ensures AdminPasswordOk(given, env) && id !in old(st.teachers) ==> r == Err(TeacherLookupFailed)
    ensures AdminPasswordOk(given, env) && id in old(st.teachers) ==> r.Ok?
    ensures r.Err? ==> st.teachers == old(st.teachers)
    ensures r.Ok? ==> && AdminPasswordOk(given, env) && id in old(st.teachers)
                      && r.value == old(st.teachers)[id] && st.teachers == old(st.teachers) - {id}
  {
    if !AdminPasswordOk(given, env) {
      return Err(WrongAdminPassword);
    }
    if id !in st.teachers {
      return Err(TeacherLookupFailed);
    }
    r := Ok(st.teachers[id]);
    st.teachers := st.teachers - {id};
  }
}

=== FILE: vendors.dfy ===
/** controllers/vendorsController.js: the administrator sets a vendor's
    password, a vendor logs in, edits its profile and its password, a
    prospective vendor applies, and the public vendor page. */
module Vendors {
  import opened Common
  import opened Schemas
  import opened Db

  datatype VendorError =
    | WrongAdminPassword   // 401
    | Internal             // an exception: hashing or comparing an absent password
    | VendorNotFound       // 404 on the administrator's update
    | EmptyCredentials     // 400
    | UnknownAccount       // 400
    | WrongPassword        // 400
    | UnderReview          // 400: status 0
    | Suspended            // 400: status 2
    | NoChange             // 400
    | UpdateFailed         // 400: no vendor with the caller's id
    | BadPasswordFormat    // 400
    | PasswordMismatch     // 400
    | MissingFields        // 400
    | EmptyFields          // 400
    | UnknownFields        // 400
    | AccountTaken         // 400
    | CreateFailed(e: SchemaError)
    | NoSuchVendor         // 400 on the public page
  {
    function Code(): Option<nat> {
      match this
      case WrongAdminPassword => Some(401)
      case VendorNotFound => Some(404)
      case Internal => None
      case CreateFailed(_) => None
      case _ => Some(400)
    }
  }

  /** Vendors never share an account. */
  ghost predicate AccountsUnique(vs: map<Id, Vendor>) {
    forall a, b :: a in vs && b in vs && a != b ==> vs[a].account != vs[b].account
  }

  // ------------------------------------------------- updateVendorManage

  /** updateVendorManage: behind the administrator gate, store the hash of
      the given password. Hashing an absent password throws. The response
      carries the vendor as it was before the update. */
  method UpdateVendorManage(st: Store, vendorId: Id, given: Option<string>, env: Option<string>,
                            password: Option<string>, hash: string -> string)
    returns (r: Result<Vendor, VendorError>)
    requires st.Valid()
    modifies st`vendors
    ensures st.Valid()
    ensures !AdminPasswordOk(given, env) ==> r == Err(WrongAdminPassword)
    ensures AdminPasswordOk(given, env) && password.None? ==> r == Err(Internal)
    ensures AdminPasswordOk(given, env) && password.Some? && vendorId !in old(st.vendors) ==> r == Err(VendorNotFound)
    ensures AdminPasswordOk(given, env) && password.Some? && vendorId in old(st.vendors) ==> r.Ok?
    ensures r.Err? ==> st.vendors == old(st.vendors)
    ensures r.Ok? ==> && AdminPasswordOk(given, env) && password.Some? && vendorId in old(st.vendors)
                      && r.value == old(st.vendors)[vendorId]
                      && st.vendors == old(st.vendors)[vendorId := r.value.(passwordHash := Some(hash(password.value)))]
  {
    if !AdminPasswordOk(given, env) {
      return Err(WrongAdminPassword);
    }
    if password.None? {
      return Err(Internal);
    }
    if vendorId !in st.vendors {
      return Err(VendorNotFound);
    }
    var before := st.vendors[vendorId];
    st.vendors := st.vendors[vendorId := before.(passwordHash := Some(hash(password.value)))];
    r := Ok(before);
  }

  // -------------------------------------------------------- vendorLogin

  /** The vendor that `findOne({ account })` meets first. */
  function VendorByAccount(vendors: map<Id, Vendor>, n: nat, account: string): (r: Option<Id>)
    ensures r.Some? ==> r.value in vendors && vendors[r.value].account == account
    ensures r.None? <==> forall k :: k < n && k in vendors ==> vendors[k].account != account
  {
    FindFirst(vendors, (v: Vendor) => v.account == account, n)
  }

  /** vendorLogin: both credentials are required, the account must exist
      and the password match its hash. Status 0 (under review) and 2
      (suspended) are refused; any other status, unset included, logs in
      and records the login time. */
  method VendorLogin(st: Store, account: Option<string>, password: Option<string>,
                     passwordMatches: (string, string) -> bool, now: int)
    returns (r: Result<Id, VendorError>)
    requires st.Valid()
    modifies st`vendors
    ensures st.Valid()
    ensures !Filled(account) || !Filled(password) ==> r == Err(EmptyCredentials)
    ensures Filled(account) && Filled(password) ==>
      (r == Err(UnknownAccount) <==> VendorByAccount(old(st.vendors), st.nextId, account.value).None?)
    ensures Filled(account) && Filled(password) && VendorByAccount(old(st.vendors), st.nextId, account.value).Some? ==>
      var v := old(st.vendors)[VendorByAccount(old(st.vendors), st.nextId, account.value).value];
      && (v.passwordHash.None? ==> r == Err(Internal))
      && (v.passwordHash.Some? && !passwordMatches(password.value, v.passwordHash.value) ==> r == Err(WrongPassword))
      && (v.passwordHash.Some? && passwordMatches(password.value, v.passwordHash.value) ==>
            && (v.status == Some(0) ==> r == Err(UnderReview))
            && (v.status == Some(2) ==> r == Err(Suspended))
            && (v.status != Some(0) && v.status != Some(2) ==> r.Ok?))
    ensures r.Err? ==> st.vendors == old(st.vendors)
    ensures r.Ok? ==>
      && Filled(account) && Filled(password)
      && VendorByAccount(old(st.vendors), st.nextId, account.value) == Some(r.value)
      && old(st.vendors)[r.value].passwordHash.Some?
      && passwordMatches(password.value, old(st.vendors)[r.value].passwordHash.value)
      && old(st.vendors)[r.value].status != Some(0) && old(st.vendors)[r.value].status != Some(2)
      && st.vendors == old(st.vendors)[r.value := old(st.vendors)[r.value].(loginAt := Some(now))]
  {
    if !Filled(account) || !Filled(password) {
      return Err(EmptyCredentials);
    }
    var found := VendorByAccount(st.vendors, st.nextId, account.value);
    if found.None? {
      return Err(UnknownAccount);
    }
    var id := found.value;
    var v := st.vendors[id];
    if v.passwordHash.None? {
      return Err(Internal);
    }
    if !passwordMatches(password.value, v.passwordHash.value) {
      return Err(WrongPassword);
    }
    if v.status == Some(0) {
      return Err(UnderReview);
    }
    if v.status == Some(2) {
      return Err(Suspended);
    }
    st.vendors := st.vendors[id := v.(loginAt := Some(now))];
    r := Ok(id);
  }

  // ------------------------------------------------------- updateVendor

  /** The thirteen profile paths a vendor may edit. */
  const ProfileKeys: set<string> := {
    "mobile", "brandName", "avatar", "bannerImage", "intro", "socialMedias",
    "bankName", "bankCode", "bankBranch", "bankAccountName", "bankAccount",
    "address", "notice" }

  /** The profile after the update: each editable path the body carries
      takes the body's value; an absent key is undefined and dropped. */
  function OverlayProfile(profile: map<string, JsValue>, data: map<string, JsValue>): (p: map<string, JsValue>)
    ensures forall k :: k !in ProfileKeys ==> (k in p <==> k in profile) && (k in p ==> p[k] == profile[k])
    ensures forall k :: k in ProfileKeys && k in data ==> k in p && p[k] == data[k]
    ensures forall k :: k in ProfileKeys && k !in data ==> (k in p <==> k in profile) && (k in p ==> p[k] == profile[k])
  {
    map k | k in profile.Keys + (data.Keys * ProfileKeys) ::
      if k in data && k in ProfileKeys then data[k] else profile[k]
  }

  /** updateVendor. `changed` is the verdict of the change-detection helper
      on the stored vendor and the body. */
  method UpdateVendor(st: Store, vendorId: Id, data: map<string, JsValue>, changed: bool)
    returns (r: Result<Vendor, VendorError>)
    requires st.Valid()
    modifies st`vendors
    ensures st.Valid()
    ensures !changed ==> r == Err(NoChange)
    ensures changed && vendorId !in old(st.vendors) ==> r == Err(UpdateFailed)
    ensures changed && vendorId in old(st.vendors) ==> r.Ok?
    ensures r.Err? ==> st.vendors == old(st.vendors)
    ensures r.Ok? ==> && changed && vendorId in old(st.vendors)
                      && r.value == old(st.vendors)[vendorId].(profile := OverlayProfile(old(st.vendors)[vendorId].profile, data))
                      && st.vendors == old(st.vendors)[vendorId := r.value]
  {
    if !changed {
      return Err(NoChange);
    }
    if vendorId !in st.vendors {
      return Err(UpdateFailed);
    }
    var v := st.vendors[vendorId];
    var updated := v.(profile := OverlayProfile(v.profile, data));
    st.vendors := st.vendors[vendorId := updated];
    r := Ok(updated);
  }

  /** The update runs no validators: a vendor whose fields were valid can be
      left with a mobile number that is not all digits. */
  lemma ProfileUpdateSkipsMobileCheck(v: Vendor)
    requires VendorFieldsOk(v)
    ensures !VendorFieldsOk(v.(profile := OverlayProfile(v.profile, map["mobile" := Str("call me")])))
  {
    var p := OverlayProfile(v.profile, map["mobile" := Str("call me")]);
    assert p["mobile"] == Str("call me");
    assert !IsDigit("call me"[0]);
  }

  // ----------------------------------------------- updateVendorPassword

  predicate IsAlnum(c: char) { IsAsciiLetter(c) || IsDigit(c) }

  /** /^(?=.*[A-Za-z])(?=.*\d)[A-Za-z\d]{8,}$/: eight or more ASCII letters
      and digits, at least one of each. */
  predicate VendorPasswordOk(s: string) {
    && |s| >= 8
    && (forall i :: 0 <= i < |s| ==> IsAlnum(s[i]))
    && (exists i :: 0 <= i < |s| && IsAsciiLetter(s[i]))
    && (exists i :: 0 <= i < |s| && IsDigit(s[i]))
  }

  /** The pattern is tested against the text of the value: an absent
      password is tested as the word "undefined". */
  function PasswordText(p: Option<string>): string {
    if p.Some? then p.value else "undefined"
  }

  /** An absent password fails the pattern: "undefined" has no digit. */
  lemma AbsentPasswordRejected()
    ensures !VendorPasswordOk(PasswordText(None))
  {
    var u := "undefined";
    forall i | 0 <= i < |u| ensures !IsDigit(u[i]) { }
  }

  /** updateVendorPassword: the pattern, then the confirmation, then the
      hash is stored. With no vendor under the caller's id the token step
      throws. */
  method UpdateVendorPassword(st: Store, vendorId: Id, password: Option<string>, confirm: Option<string>,
                              hash: string -> string)
    returns (r: Result<Id, VendorError>)
    requires st.Valid()
    modifies st`vendors
    ensures st.Valid()
    ensures !VendorPasswordOk(PasswordText(password)) ==> r == Err(BadPasswordFormat)
    ensures VendorPasswordOk(PasswordText(password)) && password != confirm ==> r == Err(PasswordMismatch)
    ensures VendorPasswordOk(PasswordText(password)) && password == confirm ==>
      (r.Ok? <==> vendorId in old(st.vendors))
    ensures r.Err? ==> st.vendors == old(st.vendors)
    ensures r.Ok? ==> && password.Some? && VendorPasswordOk(password.value) && confirm == password
                      && r.value == vendorId && vendorId in old(st.vendors)
                      && st.vendors == old(st.vendors)[vendorId := old(st.vendors)[vendorId].(passwordHash := Some(hash(password.value)))]
  {
    if !VendorPasswordOk(PasswordText(password)) {
      return Err(BadPasswordFormat);
    }
    if password != confirm {
      return Err(PasswordMismatch);
    }
    if password.None? {
      AbsentPasswordRejected();
      assert false;
    }
    if vendorId !in st.vendors {
      return Err(Internal);
    }
    st.vendors := st.vendors[vendorId := st.vendors[vendorId].(passwordHash := Some(hash(password.value)))];
    r := Ok(vendorId);
  }

  // ---------------------------------------------------- newVendorReview

  /** The fields of an application; None is an absent key. */
  datatype VendorApplication = VendorApplication(
    representative: Option<string>, mobile: Option<string>, brandName: Option<string>,
    account: Option<string>, reviewLinks: Option<seq<string>>, reviewBrief: Option<string>,
    reviewImages: Option<seq<string>>)

  /** The paths the vendor schema requires beyond those of an application:
      the avatar and the five bank details. */
  const FinancePaths: set<string> := {"avatar", "bankName", "bankCode", "bankBranch", "bankAccountName", "bankAccount"}

  /** The paths that fail when the application is stored: required ones
      left unset and the account, mobile and image validators. An absent
      array path defaults to the empty array, which meets `required`, so
      only more than five images fail there. When requireFinance holds,
      the avatar and bank paths are required too. */
  function ApplicationFailures(a: VendorApplication, requireFinance: bool): set<string> {
    (if !Filled(a.account) || !AccountPatternOk(a.account.value) then {"account"} else {})
    + (if !Filled(a.representative) then {"representative"} else {})
    + (if !Filled(a.mobile) || !MobilePatternOk(a.mobile.value) then {"mobile"} else {})
    + (if !Filled(a.brandName) then {"brandName"} else {})
    + (if !Filled(a.reviewBrief) then {"reviewBrief"} else {})
    + (if a.reviewImages.Some? && !ReviewImagesOk(a.reviewImages.value) then {"reviewImages"} else {})
    + (if requireFinance then FinancePaths else {})
  }

  /** Storing an application: every failing path is reported; otherwise the
      vendor has no password and no status yet. */
  function CreateVendor(a: VendorApplication, requireFinance: bool): (r: Result<Vendor, SchemaError>)
    ensures r.Err? ==> r.error.paths != {}
    ensures r.Ok? ==> && !requireFinance && VendorFieldsOk(r.value)
                      && Filled(a.account) && r.value.account == a.account.value
                      && r.value.passwordHash.None? && r.value.status.None?
                      && a.mobile.Some? && "mobile" in r.value.profile
                      && r.value.profile["mobile"] == Str(a.mobile.value)
    ensures !requireFinance ==> (r.Ok? <==>
      && Filled(a.account) && AccountPatternOk(a.account.value) && Filled(a.representative)
      && Filled(a.mobile) && MobilePatternOk(a.mobile.value) && Filled(a.brandName)
      && Filled(a.reviewBrief)
      && (a.reviewImages.Some? ==> |a.reviewImages.value| <= 5))
    ensures r.Ok? ==> r.value.reviewLinks == a.reviewLinks.GetOr([]) && r.value.reviewImages == a.reviewImages.GetOr([])
  {
    var failures := ApplicationFailures(a, requireFinance);
    if failures != {} then Err(ValidationError(failures))
    else
      Ok(Vendor(a.account.value, None, a.representative.value, a.reviewLinks.GetOr([]), a.reviewBrief,
                a.reviewImages.GetOr([]), map["mobile" := Str(a.mobile.value), "brandName" := Str(a.brandName.value)],
                None, None))
  }

  /** The application as written: the schema requires the avatar and bank
      paths, which an application never carries. */
  function CreateVendorAsWritten(a: VendorApplication): (r: Result<Vendor, SchemaError>)
    ensures r.Err?
  {
    CreateVendor(a, true)
  }

  /** As written, every application fails validation on the avatar and bank
      paths; as intended, a valid application is stored, also one that
      leaves both array paths out, which are then stored empty. */
  lemma ApplicationAsWrittenNeverStored(a: VendorApplication)
    ensures CreateVendorAsWritten(a).Err? && FinancePaths <= CreateVendorAsWritten(a).error.paths
    ensures var ok := VendorApplication(Some("r"), Some("0912"), Some("b"), Some("a@b.cc"),
                                        None, Some("brief"), None);
            var r := CreateVendor(ok, false);
            r.Ok? && r.value.reviewLinks == [] && r.value.reviewImages == []
  {
    var ok := VendorApplication(Some("r"), Some("0912"), Some("b"), Some("a@b.cc"), None, Some("brief"), None);
    SampleAccountAccepted();
    assert MobilePatternOk("0912");
    assert ApplicationFailures(ok, false) == {};
  }

  /** `findOne({ account: data.account })`: an absent account puts no
      condition, so it meets the first vendor of all. */
  function ApplicantClash(vendors: map<Id, Vendor>, n: nat, account: Option<string>): (r: Option<Id>)
    ensures r.Some? ==> r.value in vendors && (account.Some? ==> vendors[r.value].account == account.value)
    ensures r.None? && account.Some? ==> forall k :: k < n && k in vendors ==> vendors[k].account != account.value
  {
    FindFirst(vendors, (v: Vendor) => account.None? || v.account == account.value, n)
  }

  /** checkVendorAccount: the account is free when no vendor holds it. */
  function CheckVendorAccount(vendors: map<Id, Vendor>, n: nat, account: string): (r: Result<(), VendorError>)
    ensures r.Ok? <==> forall k :: k < n && k in vendors ==> vendors[k].account != account
    ensures r.Err? ==> r.error == AccountTaken
  {
    if VendorByAccount(vendors, n, account).Some? then Err(AccountTaken) else Ok(())
  }

  /** newVendorReview. The three body checks are verdicts of the helpers
      (required keys present, those fields non-empty, no other keys). Then
      the account must be free and the application is stored. The store
      step is the intended schema, `CreateVendor(a, false)`; as written
      (`CreateVendorAsWritten`) every store fails on the avatar and bank
      paths. */
  method NewVendorReview(st: Store, a: VendorApplication, requiredPresent: bool, fieldsFilled: bool, onlyAllowed: bool)
    returns (r: Result<Id, VendorError>)
    requires st.Valid()
    modifies st`vendors, st`nextId
    ensures st.Valid()
    ensures !requiredPresent ==> r == Err(MissingFields)
    ensures requiredPresent && !fieldsFilled ==> r == Err(EmptyFields)
    ensures requiredPresent && fieldsFilled && !onlyAllowed ==> r == Err(UnknownFields)
    ensures requiredPresent && fieldsFilled && onlyAllowed && a.account.Some? ==>
      (r == Err(AccountTaken) <==> CheckVendorAccount(old(st.vendors), old(st.nextId), a.account.value).Err?)
    ensures requiredPresent && fieldsFilled && onlyAllowed ==>
      (r == Err(AccountTaken) <==> ApplicantClash(old(st.vendors), old(st.nextId), a.account).Some?)
    ensures requiredPresent && fieldsFilled && onlyAllowed && ApplicantClash(old(st.vendors), old(st.nextId), a.account).None? ==>
      && (CreateVendor(a, false).Err? ==> r == Err(CreateFailed(CreateVendor(a, false).error)))
      && (CreateVendor(a, false).Ok? ==> r.Ok?)
    ensures r.Err? ==> st.vendors == old(st.vendors) && st.nextId == old(st.nextId)
    ensures r.Ok? ==> && r.value == old(st.nextId) && st.nextId == old(st.nextId) + 1
                      && CreateVendor(a, false).Ok?
                      && st.vendors == old(st.vendors)[r.value := CreateVendor(a, false).value]
                      && CheckVendorAccount(old(st.vendors), old(st.nextId), a.account.value).Ok?
    ensures AccountsUnique(old(st.vendors)) ==> AccountsUnique(st.vendors)
  {
    if !requiredPresent {
      return Err(MissingFields);
    }
    if !fieldsFilled {
      return Err(EmptyFields);
    }
    if !onlyAllowed {
      return Err(UnknownFields);
    }
    if ApplicantClash(st.vendors, st.nextId, a.account).Some? {
      return Err(AccountTaken);
    }
    var created := CreateVendor(a, false);
    if created.Err? {
      return Err(CreateFailed(created.error));
    }
    assert CheckVendorAccount(st.vendors, st.nextId, a.account.value).Ok?;
    assert forall k :: k in st.vendors ==> st.vendors[k].account != created.value.account;
    var id := st.nextId;
    st.vendors := st.vendors[id := created.value];
    st.nextId := st.nextId + 1;
    r := Ok(id);
  }

  // ---------------------------------------------------------- getVendor

  /** The sum of the students of the given courses, as the reduce adds them. */
  function StudentCount(courses: map<Id, Course>, ids: seq<Id>): (c: nat)
    requires forall i :: 0 <= i < |ids| ==> ids[i] in courses
  {
    if ids == [] then 0
    else StudentCount(courses, ids[..|ids| - 1]) + |courses[ids[|ids| - 1]].students|
  }

  /** The count splits over a split list, and each course contributes at
      least its own students. */
  lemma {:induction false} StudentCountAppend(courses: map<Id, Course>, a: seq<Id>, b: seq<Id>)
    requires forall i :: 0 <= i < |a| ==> a[i] in courses
    requires forall i :: 0 <= i < |b| ==> b[i] in courses
    ensures StudentCount(courses, a + b) == StudentCount(courses, a) + StudentCount(courses, b)
    decreases |b|
  {
    if b == [] {
      assert a + b == a;
    } else {
      var b' := b[..|b| - 1];
      assert (a + b)[..|a + b| - 1] == a + b';
      StudentCountAppend(courses, a, b');
    }
  }

  /** Every listed course's students are part of the count. */
  lemma {:induction false} StudentCountCoversEach(courses: map<Id, Course>, ids: seq<Id>, i: nat)
    requires forall j :: 0 <= j < |ids| ==> ids[j] in courses
    requires i < |ids|
    ensures |courses[ids[i]].students| <= StudentCount(courses, ids)
  {
    if i < |ids| - 1 {
      StudentCountCoversEach(courses, ids[..|ids| - 1], i);
    }
  }

  /** The public vendor page: the vendor, its courses in creation order and
      the total number of their students. */
  datatype VendorPage = VendorPage(vendor: Vendor, studentCount: nat, courses: seq<Id>)

  function GetVendor(vendors: map<Id, Vendor>, courses: map<Id, Course>, n: nat, vendorId: Id)
    : (r: Result<VendorPage, VendorError>)
    ensures r.Ok? <==> vendorId in vendors
    ensures r.Err? ==> r.error == NoSuchVendor
    ensures r.Ok? ==> r.value.vendor == vendors[vendorId]
    ensures r.Ok? ==> forall i :: 0 <= i < |r.value.courses| ==>
      r.value.courses[i] in courses && courses[r.value.courses[i]].vendorId == vendorId
                                   && |courses[r.value.courses[i]].students| <= r.value.studentCount
    ensures r.Ok? ==> r.value.studentCount == StudentCount(courses, r.value.courses)
    ensures r.Ok? ==> forall k :: k < n && k in courses && courses[k].vendorId == vendorId ==> k in r.value.courses
  {
    if vendorId !in vendors then Err(NoSuchVendor)
    else
      var ids := Select(courses, (c: Course) => c.vendorId == vendorId, n);
      var total := StudentCount(courses, ids);
      assert forall i :: 0 <= i < |ids| ==> |courses[ids[i]].students| <= total by {
        forall i | 0 <= i < |ids| ensures |courses[ids[i]].students| <= total {
          StudentCountCoversEach(courses, ids, i);
        }
      }
      Ok(VendorPage(vendors[vendorId], total, ids))
  }
}
